=== FILE: README.md ===
# FactoryOS print-farm core, in Dafny

FactoryOS runs a print farm of Bambu Lab printers. This project models its core:

- **Colour matching.** `FilamentManager` parses tray and product colours and states the contract of the colour distance. It also covers the hue arithmetic of CIEDE2000. Its first-fit search finds an IDLE printer that holds the required material in every required colour.
- **Production dispatcher.** `Dispatcher` runs one cycle over the PENDING jobs. For each job it looks up the product, matches a printer and claims job and printer in one commit. It then uploads and starts the print, and records the job as PRINTING or FAILED. The service loop (`Start`, `Stop`, `Tick`) is modelled too.
- **Printer registry.** `PrintersRouter` lists printers with their slots, upserts by serial, and deletes a printer together with its slots and jobs.
- **Data model.** `Core` holds the status enums and the printer, slot, job, product and order rows. `Schemas` holds the API shapes, and `Database` the store.
- **Dashboard helpers.**
  - `PrinterCard` normalises the status, picks the style and formats colour dots.
  - `PrinterDetailModal` builds the printing badge and the four AMS dots.
  - `DashboardGrid` tallies online, printing and offline printers.
  - `DashboardPage` computes the four KPIs and the alert feed.

The database is a `Store` value of maps and tables. A commit replaces one store value by another. The order in which the database returns rows is a parameter.

Two kinds of outside behaviour are `Effects` values, given per job:

- another process's write that lands between the match and the claim (a status report, or a printer deletion through the registry);
- the outcome, `Ok` or `Err(reason)`, of the upload call and of the start-print call.

A printer at the loopback address is simulated and always succeeds.

The colour distance is a parameter `m: (Rgb, Rgb) -> real`. The laws CIEDE2000 guarantees are hypotheses wherever a proof needs them: symmetry, zero on equal colours, and non-negativity.

Frontend values are modelled as the JSON the frontend receives (`PrinterView`). `ViewOf` connects them to the backend's `PrinterRead`. Cross lemmas (`Backend…`) state what each display shows for printers the backend actually lists.

`DispatchScenarios` runs whole cycles on a one-printer bench, mirroring the red-PLA `FF0000FF` vs `#FF0000` simulation script.

## Model

| member | source | states |
|---|---|---|
| Core.StatusNamesRoundTrip | app/models/core.py:14-39 | every printer, job and order status is stored under a name that reads back as that same status |
| Core.ParsePrinterStatus | app/models/core.py:29-32 | a stored printer status reads back as the status with that name, and a string no status is named reads as none |
| Core.ParseJobStatus | app/models/core.py:34-39 | a stored job status reads back as the status with that name, and a string no status is named reads as none |
| Core.ParseOrderStatus | app/models/core.py:14-20 | a stored order status reads back as the status with that name, and a string no status is named reads as none |
| Core.NewPrinter | app/models/core.py:43-56 | a new printer is IDLE with zero nozzle and bed temperature, zero progress and zero remaining time, keeping the given address and access code, either of which may be absent |
| Core.NewJob | app/models/core.py:65-74 | a new job is PENDING, on no printer, with no error message |
| Core.NewProduct | app/models/core.py:79-90 | a new product requires PLA and no particular colour |
| Schemas.SlotRead | app/models/printer.py:5-10 | a listed slot carries both mandatory indices and the optional colour, type and remaining percentage of its row |
| Schemas.ReadOf | app/models/printer.py:15-25 | a listed printer carries every stored field but the access code, and its slots in order |
| Schemas.ReadHidesAccessCode | app/models/printer.py:15-25 | the listed form is the same whatever the access code is, so a listing cannot reveal it |
| Database.SlotsOf | app/routers/printers.py:15-17 | a printer's `ams_slots` are exactly the slot rows that name it: every one of them, once per row, in table order |
| Database.NoRowsNoSlots | app/routers/printers.py:55-57 | a printer with no slot row lists no slots, as a newly created printer is answered |
| Database.JobsOf | app/models/core.py:62-70 | a printer's `jobs` are exactly the jobs assigned to its serial |
| PrintersRouter.GetPrinters | app/routers/printers.py:13-17 | the listing follows the table scan, one entry per scanned printer with its own slots, so every stored printer appears |
| PrintersRouter.CreatePrinter | app/routers/printers.py:22-57 | an existing serial gets only name, address, access code and type overwritten, keeping status, telemetry and slots; a new serial is inserted IDLE with zero temperatures, progress and remaining time, and answered with the new printer and no slots; no other printer and no other table changes |
| PrintersRouter.UpdateFromRequest | app/routers/printers.py:29-33 | an existing printer gets the request's name, address, access code and type, and keeps its serial, status, temperatures, progress and remaining time |
| PrintersRouter.CreateKeepsSerialKey | app/routers/printers.py:25-41 | after a create every printer is still filed under its own serial, so no serial is ever held twice |
| PrintersRouter.CreateIsIdempotent | app/routers/printers.py:22-57 | repeating the same create request changes nothing and gives the same answer |
| PrintersRouter.DeletePrinter | app/routers/printers.py:59-81 | an unknown serial is a 404 "Printer not found" with no change; otherwise the printer, every slot row of it and every job assigned to it (whatever its status) are removed and nothing else changes |
| PrintersRouter.SlotsNotOf | app/routers/printers.py:75-77 | the slot table after the delete keeps exactly the rows of other printers: every one of them, in table order |
| PrintersRouter.DeleteLeavesNothingBehind | app/routers/printers.py:62-81 | after a delete the serial has no slot and no job left, and every other printer keeps the very same slot list, in the same order, and its jobs |
| PrintersRouter.SlotsSurviveOtherDelete | app/routers/printers.py:75-77 | deleting one printer's slot rows leaves another printer's slot list unchanged, order included |
| Text.Basename | app/services/production/dispatcher.py:141 | as `posixpath.basename`: the file name is the longest suffix of the path without `/`, and the character before it is a `/` |
| Text.LStrip | app/services/logic/filament_manager.py:16 | stripping removes exactly the leading run of `#` and keeps the rest unchanged |
| FilamentManager.StripColour | app/services/logic/filament_manager.py:16-18 | once leading `#`s are stripped, an eight-digit colour loses its alpha pair, so no eight-digit string is ever parsed |
| FilamentManager.Piece | app/services/logic/filament_manager.py:20 | a slice `t[i:i+2]` has two characters, fewer at the end of the string, none past it |
| FilamentManager.ParseByte | app/services/logic/filament_manager.py:20 | a piece parses exactly when it is non-empty and all hexadecimal, and then to a value below 256 whose upper-case digits are the piece: one digit gives a value below 16 |
| FilamentManager.PiecesParse | app/services/logic/filament_manager.py:20 | all three pieces parse exactly when at least five characters remain and the first six (or five) are hexadecimal |
| FilamentManager.HexToRgb | app/services/logic/filament_manager.py:11-20 | a colour parses exactly when `ParsesAsColour` holds, and then every channel is a byte; the values read are stated by `ParseReadsAnySixDigits` and `FiveDigitColour` |
| FilamentManager.LStripHashes | app/services/logic/filament_manager.py:16 | any run of leading `#`s is removed whole |
| FilamentManager.ByteRoundTrip | app/services/logic/filament_manager.py:20 | two hexadecimal digits written for a byte parse back to that byte |
| FilamentManager.ParseReadsFirstSixDigits | app/services/logic/filament_manager.py:11-20 | writing a colour as six digits, with any `#`s before and any tail after, parses back to that colour |
| FilamentManager.ParseReadsAnySixDigits | app/services/logic/filament_manager.py:11-20 | any six hexadecimal digits, in either case, after any `#`s and before any tail, parse to the colour whose upper-case digits they are |
| FilamentManager.SixDigitsParse | app/services/logic/filament_manager.py:16-20 | six hexadecimal digits alone parse to the colour written with their upper-case digits |
| FilamentManager.PairParses | app/services/logic/filament_manager.py:20 | each pair of hexadecimal digits parses to the byte whose two upper-case digits they are |
| FilamentManager.FiveDigitColour | app/services/logic/filament_manager.py:16-20 | a five-digit colour parses: red and green from the first two pairs, and a blue below 16 from the lone fifth digit |
| FilamentManager.FirstFourDigitsParse | app/services/logic/filament_manager.py:16-20 | the first two pairs of a five-digit colour are red and green, written back with their upper-case digits |
| FilamentManager.LoneFifthDigitParses | app/services/logic/filament_manager.py:18-20 | the fifth digit of a five-digit colour is the whole blue piece, read as one digit |
| FilamentManager.ToHexInjective | app/services/logic/filament_manager.py:11-20 | two byte colours written with the same six digits are the same colour, since parsing reads each back |
| FilamentManager.PickerRedIsRed | app/services/logic/filament_manager.py:11-20 | the colour picker's lower-case `#ff0000` parses to pure red |
| FilamentManager.StripKeepsFirstSix | app/services/logic/filament_manager.py:16-18 | stripping keeps the six characters that follow the `#`s |
| FilamentManager.ParseSeesFirstSix | app/services/logic/filament_manager.py:16-20 | only the first six characters after the `#`s decide the parsed colour |
| FilamentManager.AlphaIsIgnored | app/services/logic/filament_manager.py:14-18 | `#FF0000` and `FF0000FF` both parse to pure red |
| FilamentManager.BlueParses | app/services/logic/filament_manager.py:20 | `0000FF` parses to pure blue |
| FilamentManager.NamesDoNotParse | app/services/logic/filament_manager.py:146-148 | `red`, `#F00` and the empty string do not parse |
| FilamentManager.DeltaE | app/services/logic/filament_manager.py:56-148 | the distance is exactly 100.0 when either colour fails to parse, and otherwise the metric of the two parsed colours |
| FilamentManager.DeltaESymmetric | app/services/logic/filament_manager.py:56-148 | the distance does not depend on argument order, parse failures included |
| FilamentManager.DeltaEOfSameColour | app/services/logic/filament_manager.py:56-148 | two spellings of the same colour, such as `#FF0000` and `FF0000FF`, are at distance 0 |
| FilamentManager.DeltaENonNegative | app/services/logic/filament_manager.py:56-148 | every distance is zero or more |
| FilamentManager.HueDifference | app/services/logic/filament_manager.py:98-106 | the hue difference is 0 when either chroma is 0, and otherwise h2' - h1' shifted by at most one full turn |
| FilamentManager.HueDifferenceBounded | app/services/logic/filament_manager.py:98-106 | for hues on [0, 360) the difference lies on [-180, 180] |
| FilamentManager.HueDifferenceAntisymmetric | app/services/logic/filament_manager.py:98-106 | swapping the two colours negates the difference |
| FilamentManager.MeanHue | app/services/logic/filament_manager.py:114-123 | the mean hue is the plain sum for a grey, and otherwise half the sum shifted by at most half a turn |
| FilamentManager.MeanHueProperties | app/services/logic/filament_manager.py:114-123 | the mean hue is symmetric, and for two chromatic colours it is again a hue on [0, 360) |
| FilamentManager.ValidSlots | app/services/logic/filament_manager.py:180-184 | the valid slots are exactly those with a non-empty type equal to the material ignoring case and a non-empty colour: every one of them, in slot order |
| FilamentManager.Distances | app/services/logic/filament_manager.py:217-219 | one distance per valid slot, in slot order |
| FilamentManager.FirstBestIsUnique | app/services/logic/filament_manager.py:213-222 | the specification of the chosen slot determines it: two answers meeting it are equal |
| FilamentManager.Scan | app/services/logic/filament_manager.py:214-222 | the inner loop ends with the first slot of strictly smallest distance, if that distance is below 5.0, and with none otherwise |
| FilamentManager.BestSlot | app/services/logic/filament_manager.py:214-222 | starting with no slot and a bound of 5.0, the loop meets the first-best specification |
| FilamentManager.ChosenSlotIsFirstBest | app/services/logic/filament_manager.py:213-222 | the slot chosen for a colour is the first closest valid slot within tolerance, or none |
| FilamentManager.MapColours | app/services/logic/filament_manager.py:210-242 | a mapping exists exactly when every colour has a chosen slot, and then it holds that slot's flat index `ams_index*4+slot_index` per colour, in order |
| FilamentManager.MapColoursFrom | app/services/logic/filament_manager.py:210-242 | for any way of choosing a slot per colour, the colour loop from colour `i` on maps every colour exactly when each has a choice, to the flat index of the chosen slot, in colour order |
| FilamentManager.MatchPrinter | app/services/logic/filament_manager.py:175-248 | a printer matches exactly when it has slots, at least as many valid slots as colours, and a mapping for every colour |
| FilamentManager.FirstTrueFrom | app/services/logic/filament_manager.py:175-250 | the search yields the first accepted position, or none when no position is accepted |
| FilamentManager.FindBestPrinter | app/services/logic/filament_manager.py:152-250 | no match exactly when no printer is accepted; otherwise the first accepted printer in fleet order, with its mapping |
| FilamentManager.MatchIsSound | app/services/logic/filament_manager.py:171-248 | a returned printer is IDLE and in the fleet, with one entry per colour, each the flat index of one of its slots that holds the material and is within 5.0 of the colour |
| FilamentManager.NoColoursMatchesFirstIdleWithSlots | app/services/logic/filament_manager.py:176-248 | with no colour required, the first IDLE printer with any slot wins with an empty mapping, material or not |
| FilamentManager.SameSlotMayServeTwice | app/services/logic/filament_manager.py:213-242 | a colour required twice maps to the same slot twice |
| Dispatcher.Interfere | app/services/production/dispatcher.py:97-103 | another process's write changes one printer's status, or deletes a printer with its slots and jobs; nothing else |
| Dispatcher.FindProduct | app/services/production/dispatcher.py:55-61 | the product is the first in table order whose build file is the job's; none exactly when no product has it |
| Dispatcher.RequiredColours | app/services/production/dispatcher.py:66-68 | the required colours are the product's colour when it has a non-empty one, and none otherwise |
| Dispatcher.Present | app/services/logic/filament_manager.py:171-173 | the serials of the scan that are stored: every one of them, in scan order; with a scan of the table, each stored printer once (`FleetListsEveryPrinter`) |
| Dispatcher.Fleet | app/services/logic/filament_manager.py:171-173 | the matcher sees the stored printers of the scan, in scan order, each with its own slots |
| Dispatcher.FleetFollowsScan | app/services/logic/filament_manager.py:171-173 | when every scanned serial is stored, the fleet is the scan, printer by printer, each with its own slots |
| Dispatcher.FleetListsEveryPrinter | app/services/logic/filament_manager.py:171-173 | with a scan of the printer table, every stored printer appears in the fleet with its own slots |
| Dispatcher.MatchedPrinterIsStored | app/services/production/dispatcher.py:78-82 | the serial a match returns is a stored IDLE printer |
| Dispatcher.Claim | app/services/production/dispatcher.py:100-121 | the claim writes nothing when the job is gone or the printer is gone or not IDLE; otherwise one commit sets the job UPLOADING on the printer, the printer PRINTING and the job's stored order PRINTING |
| Dispatcher.CallOutcome | app/services/printer/commander.py:24-28 | a call to the loopback address succeeds; any other call ends as the printer answers |
| Dispatcher.Execute | app/services/production/dispatcher.py:125-157 | nothing is sent and the job fails with "Printer IP or Access Code missing" when the address or code is missing; otherwise the file is uploaded under its base name, and printing starts with the mapping only after a successful upload |
| Dispatcher.SimulatedPrinterAlwaysStarts | app/services/printer/commander.py:83-87 | a printer with credentials at the loopback address always starts |
| Dispatcher.Settle | app/services/production/dispatcher.py:166-190 | success moves the job to PRINTING; failure sets the printer IDLE and the job FAILED with the error and on no printer; the order is not touched |
| Dispatcher.ProcessJob | app/services/production/dispatcher.py:52-89 | a job with no product or no material, a job no printer matches, or a job deleted meanwhile is skipped with no write; a matched job is claimed and run on the printer the matcher chose, with its slot mapping; no other job changes |
| Dispatcher.StartedOnMatchedPrinter | app/services/production/dispatcher.py:78-87 | a PENDING job that one pass leaves PRINTING sits on the printer the matcher chose for its product, and the last command sent starts it there with the matcher's slot mapping |
| Dispatcher.ClaimedPrintingWasStarted | app/services/production/dispatcher.py:100-168 | a job left PRINTING by the claim and execution is on the claimed printer, after an upload and a start command carrying the slot mapping |
| Dispatcher.ClaimAndExecute | app/services/production/dispatcher.py:91-194 | a failed claim writes and sends nothing; otherwise the claim, execution and settle run in that order, touching only this job, the matched printer and its order |
| Dispatcher.PendingJobs | app/services/production/dispatcher.py:43-45 | the cycle takes the ids of the job scan whose jobs are stored and PENDING: every one of them, in scan order, each once when the scan repeats no id |
| Dispatcher.PendingJobsOfScan | app/services/production/dispatcher.py:43-45 | with a scan of the job table, the cycle takes exactly the stored PENDING jobs, each once, in scan order |
| Dispatcher.ProcessAll | app/services/production/dispatcher.py:52-89 | jobs not in the loop are unchanged and no job is created |
| Dispatcher.RunCycle | app/services/production/dispatcher.py:38-89 | with no PENDING job the cycle writes nothing; a job that was not PENDING is never changed |
| Dispatcher.StartedJobIsPrinting | app/services/production/dispatcher.py:106-168 | after a successful execution the job is PRINTING on the printer, and the printer and the order are PRINTING |
| Dispatcher.FailedJobReleasesPrinter | app/services/production/dispatcher.py:171-190 | after a failed execution the job is FAILED with the error and on no printer, the printer is IDLE and the order stays PRINTING |
| Dispatcher.MissingCredentialsFailTheJob | app/services/production/dispatcher.py:128-132 | a printer without address or access code gets no command and the job fails with that message |
| Dispatcher.LostRaceLeavesJobPending | app/services/production/dispatcher.py:100-103 | when the printer is reported busy before the claim, the job keeps its row, nothing is sent, and the job is PENDING for the next cycle |
| Dispatcher.HandlingFollowsLifecycle | app/services/production/dispatcher.py:106-190 | the claim moves a job PENDING to UPLOADING, and the settle moves it UPLOADING to PRINTING or FAILED |
| Dispatcher.ProcessJobFollowsLifecycle | app/services/production/dispatcher.py:52-89 | one handled job either keeps its row or advances along the lifecycle; every other job is untouched |
| Dispatcher.ProcessAllFollowsLifecycle | app/services/production/dispatcher.py:52-89 | over distinct PENDING ids, every job advances at most once along the lifecycle |
| Dispatcher.CycleFollowsLifecycle | app/services/production/dispatcher.py:38-89 | after a cycle every job keeps its row, or was PENDING and went through UPLOADING to PRINTING or FAILED |
| Dispatcher.InterfereKeepsInvariant | app/services/production/dispatcher.py:100-103 | another process's write keeps "one active job per printer" unless it reports IDLE a printer that an active job is assigned to |
| Dispatcher.IdleReportOnBusyPrinterBreaksInvariant | app/services/production/dispatcher.py:100-103 | the converse: an IDLE report on the printer of an UPLOADING or PRINTING job, such as the one a printer sends when its print ends, breaks "one active job per printer", and the claim's re-check would then accept that printer |
| Dispatcher.HarmlessWritesRun | app/services/production/dispatcher.py:52-89 | writes that never report IDLE satisfy the run-wide hypothesis of the invariant lemmas, whatever the jobs and the store |
| Dispatcher.ClaimKeepsInvariant | app/services/production/dispatcher.py:100-121 | claiming an IDLE printer keeps "one active job per printer" |
| Dispatcher.SettleKeepsInvariant | app/services/production/dispatcher.py:166-190 | settling a printer's one active job keeps the invariant, on success and on failure |
| Dispatcher.ClaimAndExecuteKeepsInvariant | app/services/production/dispatcher.py:91-194 | the dispatcher's own writes for one job keep the invariant |
| Dispatcher.ProcessJobKeepsInvariant | app/services/production/dispatcher.py:52-89 | one handled job keeps the invariant when the write that lands meanwhile reports no active job's printer IDLE |
| Dispatcher.ProcessAllKeepsInvariant | app/services/production/dispatcher.py:52-89 | the loop over pending jobs keeps the invariant, provided each write, in the store it lands on, reports no printer held by an active job IDLE |
| Dispatcher.CycleKeepsInvariant | app/services/production/dispatcher.py:38-89 | no cycle leaves a printer with two UPLOADING or PRINTING jobs, provided each write, in the store it lands on, reports no printer held by an active job IDLE |
| Dispatcher.PrintingOnlyFromIdle | app/services/production/dispatcher.py:100-109 | the dispatcher moves a printer to PRINTING only from IDLE; every other printer keeps its row |
| Dispatcher.Start | app/services/production/dispatcher.py:21-25 | starting sets the loop flag and leaves the store alone |
| Dispatcher.Stop | app/services/production/dispatcher.py:33-36 | stopping clears the loop flag and leaves the store alone |
| Dispatcher.Handled | app/services/production/dispatcher.py:25-29 | a completed cycle handles every pending job; a faulted one handles a prefix of them |
| Dispatcher.Tick | app/services/production/dispatcher.py:25-31 | a stopped service does nothing; a turn never stops a running service, even on a fault; no job is created |
| Dispatcher.StoppedServiceIsInert | app/services/production/dispatcher.py:25-36 | once stopped, a turn changes nothing |
| Dispatcher.CompletedTickIsCycle | app/services/production/dispatcher.py:25-27 | a turn that completes is exactly one cycle |
| Dispatcher.TickKeepsInvariant | app/services/production/dispatcher.py:25-31 | every turn, faulted or not, keeps one active job per printer and the job lifecycle, given a job scan that repeats no id and writes that, in the store they land on, report no printer held by an active job IDLE |
| DispatchScenarios.HappyPath | scripts/simulate_full_cycle.py:28-90 | red PLA loaded as `FF0000FF` on a simulated printer: one cycle leaves the job PRINTING on it, printer and order PRINTING, and sends upload then start with mapping [0] |
| DispatchScenarios.MaterialMismatchStaysPending | app/services/logic/filament_manager.py:180-187 | a PETG slot does not serve a PLA job: the cycle changes nothing |
| DispatchScenarios.ColourMismatchStaysPending | app/services/logic/filament_manager.py:213-242 | a blue slot at distance 5.0 or more from red does not serve a red job: the cycle changes nothing |
| DispatchScenarios.MissingAddressFailsJob | app/services/production/dispatcher.py:128-132 | a printer with no address is claimed, gets no command, and the job ends FAILED with the missing-credentials message while the printer is IDLE again |
| DispatchScenarios.LostRaceRetriesNextCycle | app/services/production/dispatcher.py:100-103 | a printer reported busy before the claim leaves the job PENDING and the store as found, so the next cycle retries |
| PrinterCard.ViewOf | frontend/src/components/dashboard/PrinterCard.tsx:21-30 | a listed printer reaches the frontend with its status name, progress, remaining time and slots |
| PrinterCard.FormatColor | frontend/src/components/dashboard/PrinterCard.tsx:95-100 | a missing or empty colour is `#334155`; otherwise the result is the longest prefix of at most seven characters of the `#`-prefixed colour, so it starts with `#` and is at most seven long |
| PrinterCard.FormatColorIdempotent | frontend/src/components/dashboard/PrinterCard.tsx:95-100 | formatting a formatted colour changes nothing |
| PrinterCard.AlphaPairDropped | frontend/src/components/dashboard/PrinterCard.tsx:94-99 | `FF0000FF` is shown as `#FF0000` |
| PrinterCard.CardShowsMatchedColour | frontend/src/components/dashboard/PrinterCard.tsx:95-100 | a dot and the matcher read the same RGB value from a tray colour of six or more characters after at most one `#` |
| PrinterCard.SlotDots | frontend/src/components/dashboard/PrinterCard.tsx:148-159 | "No AMS" exactly when the slot list is missing or empty; otherwise one formatted dot per slot, in order |
| PrinterCard.CardStatus | frontend/src/components/dashboard/PrinterCard.tsx:60 | the card status is `idle` when the status is missing or empty, and otherwise the status ignoring case, always in lower case |
| PrinterCard.Config | frontend/src/components/dashboard/PrinterCard.tsx:65-90 | exactly idle, printing, done and error have a style of their own |
| PrinterCard.StyleFor | frontend/src/components/dashboard/PrinterCard.tsx:92 | a status without a style of its own is drawn with the idle style |
| PrinterCard.BackendStatusStyles | frontend/src/components/dashboard/PrinterCard.tsx:60-92 | PRINTING is yellow, and IDLE and OFFLINE are both purple, an offline printer looking idle |
| PrinterCard.CardFooter | frontend/src/components/dashboard/PrinterCard.tsx:186-199 | the percentage is the progress or 0; time left is shown exactly while printing with non-zero time; otherwise a badge shows the status in upper case |
| PrinterCard.BackendFooter | frontend/src/components/dashboard/PrinterCard.tsx:186-199 | a listed printer shows its progress, the time left only while PRINTING with time remaining, and otherwise a badge with its stored status name |
| PrinterDetailModal.FindSlot | frontend/src/components/modals/PrinterDetailModal.tsx:50 | the slot found is the first listed one with that slot number, whatever its AMS unit, or none when no slot has it |
| PrinterDetailModal.GetAmsColor | frontend/src/components/modals/PrinterDetailModal.tsx:45-56 | with no such slot or no colour the dot is `#334155` |
| PrinterDetailModal.AmsDots | frontend/src/components/modals/PrinterDetailModal.tsx:140-145 | the modal shows exactly four dots, for slot numbers 0 to 3 |
| PrinterDetailModal.ModalMatchesCard | frontend/src/components/modals/PrinterDetailModal.tsx:52-55 | the modal draws a found slot in the colour the card gives it |
| PrinterDetailModal.OtherUnitShadowsSlot | frontend/src/components/modals/PrinterDetailModal.tsx:46-50 | slot 0 of unit 1, listed first, is drawn as the first dot, hiding slot 0 of unit 0 |
| PrinterDetailModal.BackendIsPrinting | frontend/src/components/modals/PrinterDetailModal.tsx:25 | a listed printer is highlighted exactly when it is PRINTING |
| PrinterDetailModal.CardAndModalAgree | frontend/src/components/modals/PrinterDetailModal.tsx:25 | on listed printers the modal's exact test and the card's case-insensitive test agree |
| PrinterDetailModal.CaseSplitsCardFromModal | frontend/src/components/modals/PrinterDetailModal.tsx:25 | a lower-case `printing` is printing on the card but not in the modal |
| DashboardGrid.GridStatus | frontend_legacy/src/components/dashboard/DashboardGrid.jsx:24 | the grid status is `offline` when the status is missing or empty, and otherwise the status ignoring case, always in lower case |
| DashboardGrid.Stats | frontend_legacy/src/components/dashboard/DashboardGrid.jsx:22-35 | online and offline add up to the number of printers, and printing never exceeds online |
| DashboardGrid.StatsCounts | frontend_legacy/src/components/dashboard/DashboardGrid.jsx:26-33 | printing counts the `printing` printers, online those printing or idle, ready, finish or prepare, and offline all the others |
| DashboardGrid.StatsCountsPrinting | frontend_legacy/src/components/dashboard/DashboardGrid.jsx:26-28 | the printing figure counts the `printing` printers |
| DashboardGrid.StatsCountsOnline | frontend_legacy/src/components/dashboard/DashboardGrid.jsx:26-30 | the online figure counts the printing and ready printers |
| DashboardGrid.StatsCountsOffline | frontend_legacy/src/components/dashboard/DashboardGrid.jsx:31-32 | the offline figure counts every other printer |
| DashboardGrid.AddCounts | frontend_legacy/src/components/dashboard/DashboardGrid.jsx:26-33 | the reducer adds one to each figure the printer belongs to and nothing to the others |
| DashboardGrid.StatsLoop | frontend_legacy/src/components/dashboard/DashboardGrid.jsx:22-35 | the one-pass loop computes the same tally as the fold |
| DashboardGrid.ListedGridStatus | frontend_legacy/src/components/dashboard/DashboardGrid.jsx:24-33 | a listed printer is printing exactly when PRINTING, and online exactly when not OFFLINE |
| DashboardGrid.BackendStats | frontend_legacy/src/components/dashboard/DashboardGrid.jsx:22-35 | on the backend's listing, printing counts the PRINTING printers and offline the OFFLINE ones |
| DashboardPage.ActiveJobs | frontend/src/app/page.tsx:26 | active jobs is zero exactly when no printer reports exactly `PRINTING` |
| DashboardPage.ErrorCountAsWritten | frontend/src/app/page.tsx:27 | the page's error count never exceeds the fleet |
| DashboardPage.AsWrittenMissesOffline | frontend/src/app/page.tsx:27 | the page's error test holds exactly for `error` and `pause` in any casing, never for offline |
| DashboardPage.AsWrittenCountsNoBackendError | frontend/src/app/page.tsx:27 | on the backend's listing the page counts no error at all |
| DashboardPage.ErrorCount | frontend/src/app/page.tsx:27 | the corrected count is at most the fleet and at least the page's count |
| DashboardPage.ListedErrorStatus | frontend/src/app/page.tsx:27 | a listed printer is an error under the corrected test exactly when OFFLINE |
| DashboardPage.BackendErrors | frontend/src/app/page.tsx:27 | on the backend's listing the corrected count is the number of OFFLINE printers |
| DashboardPage.FleetSize | frontend/src/app/page.tsx:28 | the fleet size is the number of printers, or 1 for an empty list |
| DashboardPage.Efficiency | frontend/src/app/page.tsx:29 | the efficiency is the integer nearest to 100·(fleet − errors)/fleet, a half rounded up |
| DashboardPage.EfficiencyBounds | frontend/src/app/page.tsx:28-29 | the efficiency is between 0 and 100, 100 with no error and 0 when every printer is in error |
| DashboardPage.EfficiencyRoundsUp | frontend/src/app/page.tsx:29 | one printer down among 201 still shows 100 |
| DashboardPage.PendingOrders | frontend/src/app/page.tsx:30 | pending orders never exceed the orders |
| DashboardPage.PendingOrderStatuses | frontend/src/app/page.tsx:30 | a stored order counts as pending exactly when OPEN, QUEUED or IN_PROGRESS |
| DashboardPage.PageKpis | frontend/src/app/page.tsx:26-30 | with the corrected error count, the efficiency is a percentage, 100 for an empty fleet or with no error, and 0 when every printer is in error |
| DashboardPage.BackendKpis | frontend/src/app/page.tsx:26-30 | on the backend's listings, with the corrected error count, active jobs are the PRINTING printers, errors the OFFLINE ones, and pending orders the OPEN, QUEUED and IN_PROGRESS ones |
| DashboardPage.PrinterAlerts | frontend/src/app/page.tsx:45-53 | a printer raises at most one alert, tagged with its serial: a warning exactly when printing with a reported nozzle temperature more than 15 degrees off 220, an error exactly when reporting `OFFLINE` |
| DashboardPage.FleetAlerts | frontend/src/app/page.tsx:45-53 | the printers' alerts hold no info alert and at most one alert per printer |
| DashboardPage.PrinterErrorAlerts | frontend/src/app/page.tsx:50-52 | a printer raises one lost-connection alert when it reports `OFFLINE`, and none otherwise |
| DashboardPage.OneAlertPerOfflinePrinter | frontend/src/app/page.tsx:50-52 | the feed holds one lost-connection alert per printer reporting `OFFLINE` |
| DashboardPage.Alerts | frontend/src/app/page.tsx:55-57 | with the corrected error count, "System operating normally." is shown exactly when no printer raised an alert and the error count is 0; otherwise the feed is the printers' alerts |
| DashboardPage.BackendAlerts | frontend/src/app/page.tsx:44-57 | on the backend's listing there is one lost-connection alert per OFFLINE printer, and the all-clear implies no printer is OFFLINE |
| DashboardPage.ColdNozzleRaisesNoWarning | frontend/src/app/page.tsx:47 | a nozzle reading of 0 raises no temperature warning |
| DashboardPage.OfflinePrinterIsMissedAsWritten | frontend/src/app/page.tsx:27-29 | one OFFLINE printer counts as no error and 100% efficiency as written, and as one error and 0% when counted |

## Left out

- Colour-space numerics. The sRGB decoding, the CIELAB conversion and the rest of the CIEDE2000 formula (`app/services/logic/filament_manager.py:22-54,76-142`) are floating point. They are the opaque metric parameter, constrained only by symmetry, zero on equal colours and non-negativity. The hue difference and the mean hue are modelled exactly over reals.
- Python's `int(x, 16)` also accepts signs, surrounding blanks and Unicode decimal digits other than `0`-`9` (`int('٣', 16) == 3`). The model accepts only the ASCII hexadecimal digits. Colours such as `+F00FF` or `٣٣٣٣٣٣` parse in Python but not here.
- HexToRgb: follows the code, not its docstring. After the `#`s are stripped, any length of five or more parses: the last byte of a five-character colour comes from one digit, and seven or nine or more characters parse from the first six.
- Letter case is ASCII only. Python's `lower()` and JavaScript's `toLowerCase()`/`toUpperCase()` also map non-ASCII letters.
- `app/services/printer/commander.py` is not part of this model beyond its loopback branch. The FTPS upload and the MQTT start command are `Ok`/`Err` outcomes given per job.
- The 10-second sleep, asyncio scheduling and task cancellation are left out. The service loop is a running flag. An exception escaping a cycle is modelled as ending it after some number of handled jobs.
- The ORM session is left out: its identity map, `refresh` and lazy loading. Each commit is one atomic replacement of the store. The model's claim re-reads the printer and sees another process's write; in the source, `session.get` at app/services/production/dispatcher.py:100 may return the object the matcher's query at app/services/logic/filament_manager.py:171-173 already loaded, which would not show that write. So `LostRaceLeavesJobPending` and `LostRaceRetriesNextCycle` describe the re-check as the code intends it.
- Another process's write is modelled once per job, between the match and the claim. Telemetry updates at other moments, such as during the upload, are not modelled.
- A job deleted by another process after the cycle read it is passed over with no write. What the session does when it commits an object whose row is gone belongs to the database library, which is not part of this model.
- The failure path of a commit itself (`app/services/production/dispatcher.py:192-194`) is not modelled: commits always succeed.
- The product and order rows are reduced to what this core reads or writes. `app/models/filament.py` (the slot row) and `app/models/order.py` are not part of this model. Their fields are taken from their uses.
- The legacy `DashboardView.jsx` copy of the KPIs, the order-status style maps and every rendering detail are left out.
- Efficiency: computed in exact rationals. JavaScript's `Math.round` on the floating-point quotient can differ when the quotient is a tie that floating point does not represent exactly.
- The card's style table is a plain lookup. A status that names a JavaScript object property, such as `constructor`, is not modelled.
- The value computed at `frontend/src/components/modals/PrinterDetailModal.tsx:46` is unused by the source, so it is not modelled.
- The nozzle temperature and its threshold are exact reals, not floating point. A JavaScript `NaN` reading is not modelled.
- InterfereKeepsInvariant: holds only when the write reports IDLE no printer that an UPLOADING or PRINTING job is assigned to. Nothing in this core marks a job FINISHED, so the IDLE report a printer sends when its print ends is such a write; `IdleReportOnBusyPrinterBreaksInvariant` shows the invariant does not survive it.
- ProcessJobKeepsInvariant: carries the same hypothesis for the one write that lands between match and claim. It promises nothing for a cycle in which a printer reports the end of a print while its job is still UPLOADING or PRINTING.
- ProcessAllKeepsInvariant: carries the same hypothesis, write by write, in the store each write lands on. It promises nothing for a cycle in which a printer reports the end of a print while its job is still UPLOADING or PRINTING.
- CycleKeepsInvariant: carries the same hypothesis, write by write, in the store each write lands on. It promises nothing for a cycle in which a printer reports the end of a print while its job is still UPLOADING or PRINTING.
- TickKeepsInvariant: carries the same hypothesis, write by write, in the store each write lands on. It promises nothing for a cycle in which a printer reports the end of a print while its job is still UPLOADING or PRINTING.
- Basename: follows `posixpath.basename` and splits at `/` only. On Windows `os.path.basename` also splits at `\` and after a drive colon; that variant is not modelled.
- GetAmsColor: its contract states only the fallback. For a found slot, `ModalMatchesCard` equates the dot with the card's `FormatColor`, which carries the shape and prefix properties.

## Findings

| source | as written | input that shows it | evidently intended | confidence | as-written member | corrected member |
|---|---|---|---|---|---|---|
| frontend/src/app/page.tsx:27 | the status is lower-cased and then looked up in `['OFFLINE', 'error', 'pause']`, so `OFFLINE` can never match | one printer with status `OFFLINE`: errors 0, efficiency 100, even though its lost-connection alert is shown | offline printers count as errors (`'offline'` in lower case) | high; not executed | DashboardPage.ErrorCountAsWritten (exhibited by DashboardPage.OfflinePrinterIsMissedAsWritten and DashboardPage.AsWrittenCountsNoBackendError) | DashboardPage.ErrorCount (proved by DashboardPage.BackendErrors, used by DashboardPage.PageKpis and DashboardPage.Alerts) |

=== FILE: core.dfy ===
/**
 * The persistent entities of the production line and their defaults: printers, their
 * material (AMS) slots, jobs, products and orders, with the closed status enumerations
 * each status field ranges over.
 */
module Core {
  import opened Wrappers

  /** Status of a customer order. */
  datatype OrderStatus = Open | Queued | Printing | InProgress | Done | Failed {
    /** The value stored in the database and sent to the frontend. */
    function Name(): string
    {
      match this
      case Open => "OPEN"
      case Queued => "QUEUED"
      case Printing => "PRINTING"
      case InProgress => "IN_PROGRESS"
      case Done => "DONE"
      case Failed => "FAILED"
    }
  }

  /** Hardware model of a printer. */
  datatype PrinterType = P1S | A1 | X1C | P1P | A1Mini

  /** Status of a printer: the only three values the backend ever stores. */
  datatype PrinterStatus = Idle | Printing | Offline {
    function Name(): string
    {
      match this
      case Idle => "IDLE"
      case Printing => "PRINTING"
      case Offline => "OFFLINE"
    }
  }

  /** Status of a print job. */
  datatype JobStatus = Pending | Uploading | Printing | Finished | Failed {
    function Name(): string
    {
      match this
      case Pending => "PENDING"
      case Uploading => "UPLOADING"
      case Printing => "PRINTING"
      case Finished => "FINISHED"
      case Failed => "FAILED"
    }

    /** A job that holds its printer: being uploaded to it or printing on it. */
    predicate IsActive()
    {
      this == JobStatus.Uploading || this == JobStatus.Printing
    }
  }

  /** Reads a stored printer status back; anything else is not a printer status. */
  function ParsePrinterStatus(s: string): (r: Option<PrinterStatus>)
    ensures r.Some? ==> r.value.Name() == s
    ensures r.None? ==> forall st: PrinterStatus :: st.Name() != s
  {
    if s == "IDLE" then Some(PrinterStatus.Idle)
    else if s == "PRINTING" then Some(PrinterStatus.Printing)
    else if s == "OFFLINE" then Some(PrinterStatus.Offline)
    else None
  }

  /** Reads a stored job status back; anything else is not a job status. */
  function ParseJobStatus(s: string): (r: Option<JobStatus>)
    ensures r.Some? ==> r.value.Name() == s
    ensures r.None? ==> forall st: JobStatus :: st.Name() != s
  {
    if s == "PENDING" then Some(JobStatus.Pending)
    else if s == "UPLOADING" then Some(JobStatus.Uploading)
    else if s == "PRINTING" then Some(JobStatus.Printing)
    else if s == "FINISHED" then Some(JobStatus.Finished)
    else if s == "FAILED" then Some(JobStatus.Failed)
    else None
  }

  /** Reads a stored order status back; anything else is not an order status. */
  function ParseOrderStatus(s: string): (r: Option<OrderStatus>)
    ensures r.Some? ==> r.value.Name() == s
    ensures r.None? ==> forall st: OrderStatus :: st.Name() != s
  {
    if s == "OPEN" then Some(OrderStatus.Open)
    else if s == "QUEUED" then Some(OrderStatus.Queued)
    else if s == "PRINTING" then Some(OrderStatus.Printing)
    else if s == "IN_PROGRESS" then Some(OrderStatus.InProgress)
    else if s == "DONE" then Some(OrderStatus.Done)
    else if s == "FAILED" then Some(OrderStatus.Failed)
    else None
  }

  /** Every status is stored under a name that reads back as that same status. */
  lemma StatusNamesRoundTrip(p: PrinterStatus, j: JobStatus, o: OrderStatus)
    ensures ParsePrinterStatus(p.Name()) == Some(p)
    ensures ParseJobStatus(j.Name()) == Some(j)
    ensures ParseOrderStatus(o.Name()) == Some(o)
  {
  }

  /** A printer row; its serial is the primary key of the printer table. */
  datatype Printer = Printer(
    serial: string,
    name: string,
    ipAddress: Option<string>,
    accessCode: Option<string>,
    printerType: PrinterType,
    status: PrinterStatus,
    tempNozzle: real,
    tempBed: real,
    progress: int,       // percent, 0-100
    remainingTime: int   // minutes
  )

  /**
   * One material slot of an AMS unit, a row of its own that points at its printer.
   * `amsIndex` is the unit and `slotIndex` the position within it.
   */
  datatype AmsSlot = AmsSlot(
    printerId: string,
    amsIndex: int,
    slotIndex: int,
    trayColor: Option<string>,
    trayType: Option<string>,
    remainingPercent: Option<int>
  ) {
    /** The index the printer firmware uses for this slot: four slots per unit. */
    function FlatIndex(): int
    {
      amsIndex * 4 + slotIndex
    }
  }

  /** A print job belonging to an order; `gcodePath` names the build file it prints. */
  datatype Job = Job(
    orderId: int,
    assignedPrinter: Option<string>,
    gcodePath: string,
    status: JobStatus,
    errorMessage: Option<string>,
    createdAt: int
  )

  /** A sellable product: its build file and the material (and colour) it must be printed in. */
  datatype Product = Product(
    name: string,
    sku: string,
    description: Option<string>,
    filePath3mf: string,
    requiredMaterial: string,
    requiredColor: Option<string>,
    createdAt: int
  )

  /** An order, reduced to the one field this core writes. */
  datatype Order = Order(status: OrderStatus)

  /** A printer row with the field defaults of the printer table. */
  function NewPrinter(serial: string, name: string, printerType: PrinterType,
                      ipAddress: Option<string>, accessCode: Option<string>): (p: Printer)
    ensures p.serial == serial && p.name == name && p.printerType == printerType
    ensures p.ipAddress == ipAddress && p.accessCode == accessCode
    ensures p.status == PrinterStatus.Idle
    ensures p.tempNozzle == 0.0 && p.tempBed == 0.0
    ensures p.progress == 0 && p.remainingTime == 0
  {
    Printer(serial, name, ipAddress, accessCode, printerType, PrinterStatus.Idle, 0.0, 0.0, 0, 0)
  }

  /** A freshly queued job: pending, on no printer, with no error; `now` is the clock reading. */
  function NewJob(orderId: int, gcodePath: string, now: int): (j: Job)
    ensures j.orderId == orderId && j.gcodePath == gcodePath && j.createdAt == now
    ensures j.status == JobStatus.Pending
    ensures j.assignedPrinter.None? && j.errorMessage.None?
  {
    Job(orderId, None, gcodePath, JobStatus.Pending, None, now)
  }

  /** A product with the defaults of the product table: PLA, any colour. */
  function NewProduct(name: string, sku: string, filePath3mf: string, now: int): (p: Product)
    ensures p.sku == sku && p.filePath3mf == filePath3mf && p.name == name
    ensures p.requiredMaterial == "PLA"
    ensures p.requiredColor.None? && p.description.None?
  {
    Product(name, sku, None, filePath3mf, "PLA", None, now)
  }

  /** The printer table is keyed by serial: each row sits under its own serial. */
  ghost predicate KeyedBySerial(printers: map<string, Printer>)
  {
    forall s :: s in printers ==> printers[s].serial == s
  }

  /** The unique index on product SKUs. */
  ghost predicate SkusUnique(products: seq<Product>)
  {
    forall i, j :: 0 <= i < j < |products| ==> products[i].sku != products[j].sku
  }
}

=== FILE: counting.dfy ===
/**
 * Counting the elements of a list that pass a test: JavaScript's
 * `list.filter(test).length`, which every dashboard figure is built from.
 */
module Counting {

  /**
   * `r` keeps some elements of `xs`, in the order they appear there: each element of `r`
   * is matched with the earliest unused element of `xs` equal to it.
   */
  predicate IsSubsequence<T(==)>(r: seq<T>, xs: seq<T>)
    decreases |xs|
  {
    if |r| == 0 then true
    else if |xs| == 0 then false
    else if r[0] == xs[0] then IsSubsequence(r[1..], xs[1..])
    else IsSubsequence(r, xs[1..])
  }

  /** How many elements of `xs` satisfy `p`. */
  function CountWhere<T>(xs: seq<T>, p: T -> bool): (n: nat)
    ensures n <= |xs|
    ensures n == 0 <==> forall i :: 0 <= i < |xs| ==> !p(xs[i])
    ensures n == |xs| <==> forall i :: 0 <= i < |xs| ==> p(xs[i])
  {
    if |xs| == 0 then 0
    else
      var rest := CountWhere(xs[1..], p);
      assert forall i :: 1 <= i < |xs| ==> xs[1..][i - 1] == xs[i];
      (if p(xs[0]) then 1 else 0) + rest
  }

  /** Counting over two lists one after the other adds up. */
  lemma {:induction false} CountWhereAppend<T>(xs: seq<T>, ys: seq<T>, p: T -> bool)
    ensures CountWhere(xs + ys, p) == CountWhere(xs, p) + CountWhere(ys, p)
    decreases |xs|
  {
    if |xs| > 0 {
      assert (xs + ys)[1..] == xs[1..] + ys;
      CountWhereAppend(xs[1..], ys, p);
    } else {
      assert xs + ys == ys;
    }
  }

  /** A weaker test never counts more. */
  lemma {:induction false} CountWhereMonotone<T>(xs: seq<T>, p: T -> bool, q: T -> bool)
    requires forall i :: 0 <= i < |xs| ==> p(xs[i]) ==> q(xs[i])
    ensures CountWhere(xs, p) <= CountWhere(xs, q)
    decreases |xs|
  {
    if |xs| > 0 {
      assert forall i :: 1 <= i < |xs| ==> xs[1..][i - 1] == xs[i];
      CountWhereMonotone(xs[1..], p, q);
    }
  }

  /** Two tests that agree on every element count the same. */
  lemma {:induction false} CountWhereCongruent<T>(xs: seq<T>, p: T -> bool, q: T -> bool)
    requires forall i :: 0 <= i < |xs| ==> p(xs[i]) == q(xs[i])
    ensures CountWhere(xs, p) == CountWhere(xs, q)
    decreases |xs|
  {
    if |xs| > 0 {
      assert forall i :: 1 <= i < |xs| ==> xs[1..][i - 1] == xs[i];
      CountWhereCongruent(xs[1..], p, q);
    }
  }

  /** Two disjoint tests count, together, what their union counts. */
  lemma {:induction false} CountWhereDisjointUnion<T>(xs: seq<T>, p: T -> bool, q: T -> bool, pq: T -> bool)
    requires forall i :: 0 <= i < |xs| ==> !(p(xs[i]) && q(xs[i]))
    requires forall i :: 0 <= i < |xs| ==> pq(xs[i]) == (p(xs[i]) || q(xs[i]))
    ensures CountWhere(xs, pq) == CountWhere(xs, p) + CountWhere(xs, q)
    decreases |xs|
  {
    if |xs| > 0 {
      assert forall i :: 1 <= i < |xs| ==> xs[1..][i - 1] == xs[i];
      CountWhereDisjointUnion(xs[1..], p, q, pq);
    }
  }

  /** Counting a list through a pointwise translation counts the same as the original. */
  lemma {:induction false} CountWhereMapped<S, T>(xs: seq<S>, ys: seq<T>, p: S -> bool, q: T -> bool)
    requires |xs| == |ys|
    requires forall i :: 0 <= i < |xs| ==> p(xs[i]) == q(ys[i])
    ensures CountWhere(xs, p) == CountWhere(ys, q)
    decreases |xs|
  {
    if |xs| > 0 {
      assert forall i :: 1 <= i < |xs| ==> xs[1..][i - 1] == xs[i] && ys[1..][i - 1] == ys[i];
      CountWhereMapped(xs[1..], ys[1..], p, q);
    }
  }
}

=== FILE: dashboard_grid.dfy ===
/**
 * The fleet header of the dashboard grid: how many printers are online, how many of
 * those print, and how many are offline, tallied in one pass over the listing.
 */
module DashboardGrid {
  import opened Wrappers
  import opened Text
  import opened Core
  import opened Schemas
  import opened Counting
  import opened PrinterCard

  datatype Tally = Tally(online: nat, printing: nat, offline: nat)

  /** The statuses that count as online without printing. */
  const ReadyStatuses: seq<string> := ["idle", "ready", "finish", "prepare"]

  /** The grid's status: the reported status lower-cased, `offline` when missing or empty. */
  function GridStatus(v: PrinterView): (s: string)
    ensures !Truthy(v.currentStatus) ==> s == "offline"
    ensures Truthy(v.currentStatus) ==> |s| == |v.currentStatus.value| && EqualsIgnoringCase(s, v.currentStatus.value)
    ensures Lower(s) == s
  {
    LowerIdempotent(if Truthy(v.currentStatus) then v.currentStatus.value else "offline");
    Lower(if Truthy(v.currentStatus) then v.currentStatus.value else "offline")
  }

  predicate Printing(v: PrinterView)
  {
    GridStatus(v) == "printing"
  }

  predicate Online(v: PrinterView)
  {
    Printing(v) || GridStatus(v) in ReadyStatuses
  }

  predicate Offline(v: PrinterView)
  {
    !Online(v)
  }

  /** The reducer: one printer added to the running tally. */
  function Add(acc: Tally, v: PrinterView): Tally
  {
    if Printing(v) then acc.(printing := acc.printing + 1, online := acc.online + 1)
    else if GridStatus(v) in ReadyStatuses then acc.(online := acc.online + 1)
    else acc.(offline := acc.offline + 1)
  }

  /**
   * The tally of a listing, folded from the left as `reduce` does. Every printer is
   * either online or offline, and the printing ones are among the online ones.
   */
  function Stats(ps: seq<PrinterView>): (t: Tally)
    ensures t.online + t.offline == |ps|
    ensures t.printing <= t.online
    decreases |ps|
  {
    if |ps| == 0 then Tally(0, 0, 0) else Add(Stats(ps[..|ps| - 1]), ps[|ps| - 1])
  }

  /** Each figure of the tally counts the printers of one kind. */
  lemma StatsCounts(ps: seq<PrinterView>)
    ensures Stats(ps).printing == CountWhere(ps, Printing)
    ensures Stats(ps).online == CountWhere(ps, Online)
    ensures Stats(ps).offline == CountWhere(ps, Offline)
  {
    StatsCountsPrinting(ps);
    StatsCountsOnline(ps);
    StatsCountsOffline(ps);
  }

  lemma {:induction false} StatsCountsPrinting(ps: seq<PrinterView>)
    ensures Stats(ps).printing == CountWhere(ps, Printing)
    decreases |ps|
  {
    if |ps| > 0 {
      var init, last := ps[..|ps| - 1], ps[|ps| - 1];
      assert ps == init + [last];
      AddCounts(Stats(init), last);
      StatsCountsPrinting(init);
      CountWhereAppend(init, [last], Printing);
      OneCount(last, Printing);
    }
  }

  lemma {:induction false} StatsCountsOnline(ps: seq<PrinterView>)
    ensures Stats(ps).online == CountWhere(ps, Online)
    decreases |ps|
  {
    if |ps| > 0 {
      var init, last := ps[..|ps| - 1], ps[|ps| - 1];
      assert ps == init + [last];
      AddCounts(Stats(init), last);
      StatsCountsOnline(init);
      CountWhereAppend(init, [last], Online);
      OneCount(last, Online);
    }
  }

  lemma {:induction false} StatsCountsOffline(ps: seq<PrinterView>)
    ensures Stats(ps).offline == CountWhere(ps, Offline)
    decreases |ps|
  {
    if |ps| > 0 {
      var init, last := ps[..|ps| - 1], ps[|ps| - 1];
      assert ps == init + [last];
      AddCounts(Stats(init), last);
      StatsCountsOffline(init);
      CountWhereAppend(init, [last], Offline);
      OneCount(last, Offline);
    }
  }

  /** The reducer adds one to each figure the printer belongs to. */
  lemma AddCounts(acc: Tally, v: PrinterView)
    ensures Add(acc, v).printing == acc.printing + if Printing(v) then 1 else 0
    ensures Add(acc, v).online == acc.online + if Online(v) then 1 else 0
    ensures Add(acc, v).offline == acc.offline + if Offline(v) then 1 else 0
  {
  }

  /** A one-element list counts one or none. */
  lemma OneCount(v: PrinterView, p: PrinterView -> bool)
    ensures CountWhere([v], p) == if p(v) then 1 else 0
  {
    assert [v][1..] == [];
  }

  /** The tally computed in one loop over the listing, as the component runs it. */
  method StatsLoop(ps: seq<PrinterView>) returns (t: Tally)
    ensures t == Stats(ps)
    ensures t.online + t.offline == |ps|
  {
    t := Tally(0, 0, 0);
    var i := 0;
    while i < |ps|
      invariant 0 <= i <= |ps|
      invariant t == Stats(ps[..i])
    {
      assert ps[..i + 1][..i] == ps[..i];
      t := Add(t, ps[i]);
      i := i + 1;
    }
    assert ps[..|ps|] == ps;
  }

  /** A listed printer's grid status is its backend status in lower case. */
  lemma ListedGridStatus(r: PrinterRead)
    ensures Printing(ViewOf(r)) <==> ListedPrinting(r)
    ensures Online(ViewOf(r)) <==> !ListedOffline(r)
  {
    match r.status
    case Idle => assert GridStatus(ViewOf(r)) == "idle";
    case Printing => assert GridStatus(ViewOf(r)) == "printing";
    case Offline => assert GridStatus(ViewOf(r)) == "offline";
  }

  /**
   * On the backend's listing the header counts exactly the PRINTING printers as printing
   * and exactly the OFFLINE ones as offline.
   */
  lemma {:induction false} BackendStats(rs: seq<PrinterRead>)
    ensures Stats(ViewsOf(rs)).printing == CountWhere(rs, ListedPrinting)
    ensures Stats(ViewsOf(rs)).offline == CountWhere(rs, ListedOffline)
  {
    var vs := ViewsOf(rs);
    forall i | 0 <= i < |rs|
      ensures Printing(vs[i]) == ListedPrinting(rs[i])
      ensures Offline(vs[i]) == ListedOffline(rs[i])
    {
      ListedGridStatus(rs[i]);
    }
    StatsCounts(vs);
    CountWhereMapped(vs, rs, Printing, ListedPrinting);
    CountWhereMapped(vs, rs, Offline, ListedOffline);
  }
}

=== FILE: dashboard_page.dfy ===
/**
 * The factory overview page: four KPI figures computed from the printer and order
 * listings, and the alert feed built from the printer listing.
 */
module DashboardPage {
  import opened Wrappers
  import opened Text
  import opened Core
  import opened Schemas
  import opened Counting
  import opened PrinterCard
  import opened PrinterDetailModal

  /** An order as the page receives it: only its status matters here. */
  datatype OrderView = OrderView(status: string)

  function OrderViewOf(o: Order): OrderView
  {
    OrderView(o.status.Name())
  }

  // ---------------------------------------------------------------------------
  // KPIs
  // ---------------------------------------------------------------------------

  /** Active jobs: the printers reporting exactly `PRINTING`. */
  function ActiveJobs(ps: seq<PrinterView>): (n: nat)
    ensures n <= |ps|
    ensures n == 0 <==> forall i :: 0 <= i < |ps| ==> !IsPrinting(ps[i])
  {
    CountWhere(ps, IsPrinting)
  }

  /** The status the error test looks at: lower-cased, empty when missing. */
  function ErrorStatus(v: PrinterView): string
  {
    Lower(v.currentStatus.GetOr(""))
  }

  /** The error statuses as the page lists them, one of them in upper case. */
  const ErrorStatusesAsWritten: seq<string> := ["OFFLINE", "error", "pause"]

  predicate IsErrorAsWritten(v: PrinterView)
  {
    ErrorStatus(v) in ErrorStatusesAsWritten
  }

  /** The error count as the page computes it. */
  function ErrorCountAsWritten(ps: seq<PrinterView>): (n: nat)
    ensures n <= |ps|
  {
    CountWhere(ps, IsErrorAsWritten)
  }

  /**
   * A lower-cased status is never `OFFLINE`, so the listed `OFFLINE` never matches:
   * only `error` and `pause`, in any casing, are counted.
   */
  lemma AsWrittenMissesOffline(v: PrinterView)
    ensures IsErrorAsWritten(v) <==> ErrorStatus(v) in ["error", "pause"]
  {
    var s := ErrorStatus(v);
    LowerHasNoUpper(v.currentStatus.GetOr(""));
    assert |s| > 0 ==> s[0] != 'O';
    assert s != "OFFLINE" by { assert "OFFLINE"[0] == 'O'; }
  }

  /** On the backend's listing the page as written counts no error at all. */
  lemma {:induction false} AsWrittenCountsNoBackendError(rs: seq<PrinterRead>)
    ensures ErrorCountAsWritten(ViewsOf(rs)) == 0
  {
    var vs := ViewsOf(rs);
    forall i | 0 <= i < |vs|
      ensures !IsErrorAsWritten(vs[i])
    {
      AsWrittenMissesOffline(vs[i]);
      ListedErrorStatus(rs[i]);
    }
  }

  /** The error statuses, all in lower case so that the lower-cased status can match. */
  const ErrorStatuses: seq<string> := ["offline", "error", "pause"]

  predicate IsError(v: PrinterView)
  {
    ErrorStatus(v) in ErrorStatuses
  }

  /** The error count: printers reporting offline, error or pause, in any casing. */
  function ErrorCount(ps: seq<PrinterView>): (n: nat)
    ensures n <= |ps|
    ensures ErrorCountAsWritten(ps) <= n
  {
    forall i | 0 <= i < |ps|
      ensures IsErrorAsWritten(ps[i]) ==> IsError(ps[i])
    {
      AsWrittenMissesOffline(ps[i]);
    }
    CountWhereMonotone(ps, IsErrorAsWritten, IsError);
    CountWhere(ps, IsError)
  }

  /** A listed printer's lower-cased status. */
  lemma ListedErrorStatus(r: PrinterRead)
    ensures ErrorStatus(ViewOf(r)) == Lower(r.status.Name())
    ensures IsError(ViewOf(r)) <==> ListedOffline(r)
    ensures !IsErrorAsWritten(ViewOf(r))
  {
    match r.status
    case Idle => assert ErrorStatus(ViewOf(r)) == "idle";
    case Printing => assert ErrorStatus(ViewOf(r)) == "printing";
    case Offline => assert ErrorStatus(ViewOf(r)) == "offline";
  }

  /** On the backend's listing the errors are exactly the OFFLINE printers. */
  lemma {:induction false} BackendErrors(rs: seq<PrinterRead>)
    ensures ErrorCount(ViewsOf(rs)) == CountWhere(rs, ListedOffline)
  {
    var vs := ViewsOf(rs);
    forall i | 0 <= i < |rs|
      ensures IsError(vs[i]) == ListedOffline(rs[i])
    {
      ListedErrorStatus(rs[i]);
    }
    CountWhereMapped(vs, rs, IsError, ListedOffline);
  }

  /** The divisor of the efficiency: the fleet's size, or 1 for an empty fleet. */
  function FleetSize(ps: seq<PrinterView>): (n: nat)
    ensures n >= 1 && n >= |ps|
    ensures |ps| > 0 ==> n == |ps|
  {
    if |ps| > 0 then |ps| else 1
  }

  /**
   * `Math.round(((fleet - errors) / fleet) * 100)` in exact arithmetic: the integer
   * nearest to the percentage of healthy printers, a half rounded up.
   */
  function Efficiency(fleet: nat, errors: nat): (e: int)
    requires fleet >= 1
    ensures 2 * fleet * e - fleet <= 200 * (fleet - errors) < 2 * fleet * e + fleet
  {
    var x := 200 * (fleet - errors) + fleet;
    var e := x / (2 * fleet);
    assert x == 2 * fleet * e + x % (2 * fleet);
    e
  }

  /** The efficiency is a percentage: 100 with no error, 0 when every printer is in error. */
  lemma EfficiencyBounds(fleet: nat, errors: nat)
    requires 1 <= fleet && errors <= fleet
    ensures 0 <= Efficiency(fleet, errors) <= 100
    ensures errors == 0 ==> Efficiency(fleet, errors) == 100
    ensures errors == fleet ==> Efficiency(fleet, errors) == 0
  {
    var e := Efficiency(fleet, errors);
    var healthy := 200 * (fleet - errors);
    assert 2 * fleet * e - fleet <= healthy < 2 * fleet * e + fleet;
    if e > 100 {
      Scale(2 * fleet, 101, e);
    }
    if e < 0 {
      Scale(2 * fleet, e, -1);
    }
    if errors == 0 && e < 100 {
      Scale(2 * fleet, e, 99);
    }
    if errors == fleet && e > 0 {
      Scale(2 * fleet, 1, e);
    }
  }

  lemma Scale(f: int, a: int, b: int)
    requires f >= 1 && a <= b
    ensures f * a <= f * b
  {
    var d := b - a;
    assert f * b == f * a + f * d;
  }

  /** Rounding can hide an error: one printer down in 201 still shows 100. */
  lemma EfficiencyRoundsUp()
    ensures Efficiency(201, 1) == 100
  {
  }

  /** A pending order: open, in progress or queued. */
  predicate IsPendingOrder(o: OrderView)
  {
    o.status in ["OPEN", "IN_PROGRESS", "QUEUED"]
  }

  function PendingOrders(os: seq<OrderView>): (n: nat)
    ensures n <= |os|
  {
    CountWhere(os, IsPendingOrder)
  }

  /** A stored order counts as pending exactly when it is open, queued or in progress. */
  lemma PendingOrderStatuses(o: Order)
    ensures IsPendingOrder(OrderViewOf(o)) <==> o.status in {OrderStatus.Open, OrderStatus.Queued, OrderStatus.InProgress}
  {
  }

  datatype Kpis = Kpis(activeJobs: nat, errors: nat, efficiency: int, pendingOrders: nat)

  /** The four KPI cards, with the error count that does count offline printers. */
  function PageKpis(ps: seq<PrinterView>, os: seq<OrderView>): (k: Kpis)
    ensures k.activeJobs + k.errors <= 2 * |ps|
    ensures 0 <= k.efficiency <= 100
    ensures k.errors == 0 ==> k.efficiency == 100
    ensures |ps| == 0 ==> k.efficiency == 100 && k.activeJobs == 0
    ensures |ps| > 0 && k.errors == |ps| ==> k.efficiency == 0
    ensures k.pendingOrders <= |os|
  {
    var errors := ErrorCount(ps);
    EfficiencyBounds(FleetSize(ps), errors);
    Kpis(ActiveJobs(ps), errors, Efficiency(FleetSize(ps), errors), PendingOrders(os))
  }

  /**
   * The KPIs of the backend's listings: active jobs are the PRINTING printers, errors
   * the OFFLINE ones, and pending orders the open, queued and in-progress ones.
   */
  lemma {:induction false} BackendKpis(rs: seq<PrinterRead>, orders: seq<Order>)
    ensures var k := PageKpis(ViewsOf(rs), seq(|orders|, i requires 0 <= i < |orders| => OrderViewOf(orders[i])));
            && k.activeJobs == CountWhere(rs, ListedPrinting)
            && k.errors == CountWhere(rs, ListedOffline)
            && k.pendingOrders == CountWhere(orders, IsPendingStatus)
  {
    var vs := ViewsOf(rs);
    var os := seq(|orders|, i requires 0 <= i < |orders| => OrderViewOf(orders[i]));
    BackendErrors(rs);
    forall i | 0 <= i < |rs|
      ensures IsPrinting(vs[i]) == ListedPrinting(rs[i])
    {
      BackendIsPrinting(rs[i]);
    }
    CountWhereMapped(vs, rs, IsPrinting, ListedPrinting);
    forall i | 0 <= i < |orders|
      ensures IsPendingOrder(os[i]) == IsPendingStatus(orders[i])
    {
      PendingOrderStatuses(orders[i]);
    }
    CountWhereMapped(os, orders, IsPendingOrder, IsPendingStatus);
  }

  predicate IsPendingStatus(o: Order)
  {
    o.status in {OrderStatus.Open, OrderStatus.Queued, OrderStatus.InProgress}
  }

  // ---------------------------------------------------------------------------
  // Alerts
  // ---------------------------------------------------------------------------

  datatype AlertKind = ErrorAlert | WarningAlert | InfoAlert

  datatype Alert = Alert(id: string, kind: AlertKind, msg: string, time: string)

  /** The alert shown when nothing is wrong. */
  const AllClear: Alert := Alert("sys", InfoAlert, "System operating normally.", "Now")

  function Abs(x: real): real
  {
    if x < 0.0 then -x else x
  }

  /** A nozzle temperature more than 15 degrees from 220. */
  predicate Deviates(t: real)
  {
    Abs(220.0 - t) > 15.0
  }

  /** A nozzle reading that JavaScript treats as true: present and not zero. */
  predicate NozzleReported(t: Option<real>)
  {
    t.Some? && t.value != 0.0
  }

  predicate WarnsOfTemperature(v: PrinterView)
  {
    IsPrinting(v) && NozzleReported(v.tempNozzle) && Deviates(v.tempNozzle.value)
  }

  predicate ReportsOffline(v: PrinterView)
  {
    v.currentStatus == Some("OFFLINE")
  }

  /**
   * One printer's alerts: a temperature warning while printing, a lost-connection error
   * while offline; never both, since a printer reports one status.
   */
  function PrinterAlerts(v: PrinterView): (r: seq<Alert>)
    ensures |r| <= 1
    ensures forall a :: a in r ==> a.id == v.serial && a.kind != InfoAlert
    ensures (exists a :: a in r && a.kind == WarningAlert) <==> WarnsOfTemperature(v)
    ensures (exists a :: a in r && a.kind == ErrorAlert) <==> ReportsOffline(v)
  {
    var warning := Alert(v.serial, WarningAlert, v.name + ": Nozzle Temp Deviation", "Now");
    var error := Alert(v.serial, ErrorAlert, v.name + ": Connection Lost", "Active");
    var r := (if WarnsOfTemperature(v) then [warning] else []) + (if ReportsOffline(v) then [error] else []);
    assert WarnsOfTemperature(v) ==> warning in r;
    assert ReportsOffline(v) ==> error in r;
    r
  }

  /** The alerts of every printer, in listing order. */
  function FleetAlerts(ps: seq<PrinterView>): (r: seq<Alert>)
    ensures forall a :: a in r ==> a.kind != InfoAlert
    ensures |r| <= |ps|
  {
    if |ps| == 0 then [] else PrinterAlerts(ps[0]) + FleetAlerts(ps[1..])
  }

  predicate IsConnectionLost(a: Alert)
  {
    a.kind == ErrorAlert
  }

  /** One lost-connection alert per printer reporting `OFFLINE`. */
  lemma {:induction false} OneAlertPerOfflinePrinter(ps: seq<PrinterView>)
    ensures CountWhere(FleetAlerts(ps), IsConnectionLost) == CountWhere(ps, ReportsOffline)
    decreases |ps|
  {
    if |ps| > 0 {
      var v := ps[0];
      CountWhereAppend(PrinterAlerts(v), FleetAlerts(ps[1..]), IsConnectionLost);
      OneAlertPerOfflinePrinter(ps[1..]);
      PrinterErrorAlerts(v);
    }
  }

  /** A printer raises one lost-connection alert when it reports `OFFLINE`, else none. */
  lemma PrinterErrorAlerts(v: PrinterView)
    ensures CountWhere(PrinterAlerts(v), IsConnectionLost) == if ReportsOffline(v) then 1 else 0
  {
    var r := PrinterAlerts(v);
    if WarnsOfTemperature(v) || ReportsOffline(v) {
      assert r[1..] == [];
    }
  }

  /** The feed: the printers' alerts, or the all-clear when there are none and no errors. */
  function Alerts(ps: seq<PrinterView>): (r: seq<Alert>)
    ensures AllClear in r <==> |FleetAlerts(ps)| == 0 && ErrorCount(ps) == 0
    ensures AllClear !in r ==> r == FleetAlerts(ps)
  {
    var alerts := FleetAlerts(ps);
    if |alerts| == 0 && ErrorCount(ps) == 0 then [AllClear] else alerts
  }

  /**
   * On the backend's listing the feed holds one lost-connection alert per OFFLINE printer,
   * and the all-clear is shown only when no printer is OFFLINE.
   */
  lemma {:induction false} BackendAlerts(rs: seq<PrinterRead>)
    ensures CountWhere(FleetAlerts(ViewsOf(rs)), IsConnectionLost) == CountWhere(rs, ListedOffline)
    ensures AllClear in Alerts(ViewsOf(rs)) ==> forall i :: 0 <= i < |rs| ==> !ListedOffline(rs[i])
  {
    var vs := ViewsOf(rs);
    OneAlertPerOfflinePrinter(vs);
    forall i | 0 <= i < |rs|
      ensures ReportsOffline(vs[i]) == ListedOffline(rs[i])
    {
    }
    CountWhereMapped(vs, rs, ReportsOffline, ListedOffline);
    BackendErrors(rs);
  }

  /** A printing printer whose nozzle reads 0 raises no temperature warning. */
  lemma ColdNozzleRaisesNoWarning(v: PrinterView)
    requires v.tempNozzle == Some(0.0)
    ensures !WarnsOfTemperature(v)
  {
  }

  /**
   * The page as written: one OFFLINE printer counts as no error, shows 100% efficiency,
   * and its lost-connection alert is the only alert. Counting offline printers gives
   * one error and 0%.
   */
  lemma OfflinePrinterIsMissedAsWritten(r: PrinterRead)
    requires r.status == PrinterStatus.Offline
    ensures var ps := [ViewOf(r)];
            && ErrorCountAsWritten(ps) == 0 && Efficiency(FleetSize(ps), ErrorCountAsWritten(ps)) == 100
            && ErrorCount(ps) == 1 && Efficiency(FleetSize(ps), ErrorCount(ps)) == 0
  {
    var ps := [ViewOf(r)];
    AsWrittenCountsNoBackendError([r]);
    BackendErrors([r]);
    assert ViewsOf([r]) == ps;
    assert CountWhere([r], ListedOffline) == 1 by { assert [r][1..] == []; }
    EfficiencyBounds(1, 0);
    EfficiencyBounds(1, 1);
  }
}

=== FILE: database.dfy ===
/**
 * The shared persistent store, with the ORM sessions stripped away: printers keyed by
 * serial, the AMS slot table (each row names its printer), jobs keyed by id, orders keyed
 * by id, and the product table in row order. Every commit is one atomic replacement of a
 * store value by another.
 */
module Database {
  import opened Wrappers
  import opened Core
  import opened Counting

  datatype Store = Store(
    printers: map<string, Printer>,
    slots: seq<AmsSlot>,
    jobs: map<int, Job>,
    orders: map<int, Order>,
    products: seq<Product>
  )

  /** A sequence that names no element twice. */
  predicate NoDuplicates<T(==)>(xs: seq<T>)
  {
    forall i, j :: 0 <= i < j < |xs| ==> xs[i] != xs[j]
  }

  /** A sequence with a head in front repeats nothing exactly when the head is new and the rest repeats nothing. */
  lemma NoDuplicatesCons<T>(x: T, xs: seq<T>)
    ensures NoDuplicates([x] + xs) <==> x !in xs && NoDuplicates(xs)
  {
    var ys := [x] + xs;
    assert forall i :: 0 <= i < |xs| ==> ys[i + 1] == xs[i];
    if x in xs {
      var k :| 0 <= k < |xs| && xs[k] == x;
      assert ys[0] == ys[k + 1];
    }
  }

  /** A table scan: every key exactly once, in the order the database returns them. */
  ghost predicate IsListing<T(!new)>(xs: seq<T>, keys: set<T>)
  {
    NoDuplicates(xs) && forall x :: x in xs <==> x in keys
  }

  /** The test for a slot row of printer `serial`. */
  function OwnedBy(serial: string): AmsSlot -> bool
  {
    (s: AmsSlot) => s.printerId == serial
  }

  /**
   * The `ams_slots` relationship of one printer: its slot rows, every one of them, in
   * table order.
   */
  function SlotsOf(slots: seq<AmsSlot>, serial: string): (r: seq<AmsSlot>)
    ensures |r| <= |slots|
    ensures forall s :: s in r <==> s in slots && s.printerId == serial
    ensures |r| == CountWhere(slots, OwnedBy(serial))
    ensures IsSubsequence(r, slots)
  {
    if |slots| == 0 then []
    else
      var rest := SlotsOf(slots[1..], serial);
      assert forall s :: s in slots <==> s == slots[0] || s in slots[1..];
      if slots[0].printerId == serial then
        assert ([slots[0]] + rest)[1..] == rest;
        [slots[0]] + rest
      else
        assert |rest| > 0 ==> rest[0] in rest && rest[0] != slots[0];
        rest
  }

  /** A printer with no slot row lists no slots. */
  lemma {:induction false} NoRowsNoSlots(slots: seq<AmsSlot>, serial: string)
    requires forall s :: s in slots ==> s.printerId != serial
    ensures SlotsOf(slots, serial) == []
  {
    if |slots| > 0 {
      assert slots[0] in slots;
      NoRowsNoSlots(slots[1..], serial);
    }
  }

  /** The foreign key of the slot table: every slot row belongs to a stored printer. */
  ghost predicate SlotsReferencePrinters(store: Store)
  {
    forall s :: s in store.slots ==> s.printerId in store.printers
  }

  /** The `jobs` relationship of one printer: the ids of the jobs assigned to it. */
  function JobsOf(jobs: map<int, Job>, serial: string): (r: set<int>)
    ensures forall id :: id in r <==> id in jobs && jobs[id].assignedPrinter == Some(serial)
  {
    set id | id in jobs && jobs[id].assignedPrinter == Some(serial)
  }

}

=== FILE: dispatch_scenarios.dfy ===
/**
 * End-to-end runs of one dispatch cycle on a one-printer bench: printer "P1" with a single
 * AMS slot (unit 0, slot 0), one product "test_cube.gcode" that asks for red (#FF0000) in
 * PLA, and one PENDING job printing it for order 1. The colour distance stays a parameter;
 * only the laws of a metric (and, for the mismatch, one inequality) are assumed of it.
 */
module DispatchScenarios {
  import opened Wrappers
  import opened Text
  import opened Core
  import opened Database
  import opened FilamentManager
  import opened Dispatcher

  const CubeFile: string := "test_cube.gcode"
  const BenchSerial: string := "P1"
  const BenchCode: string := "12345678"

  function BenchPrinter(ip: Option<string>): Printer
  {
    NewPrinter(BenchSerial, "Bench P1S", PrinterType.P1S, ip, Some(BenchCode))
  }

  function BenchSlot(material: string, colour: string): AmsSlot
  {
    AmsSlot(BenchSerial, 0, 0, Some(colour), Some(material), Some(100))
  }

  function Cube(): Product
  {
    NewProduct("Cube", "CUBE-RED", CubeFile, 0).(requiredColor := Some("#FF0000"))
  }

  function Bench(ip: Option<string>, material: string, colour: string): Store
  {
    Store(map[BenchSerial := BenchPrinter(ip)], [BenchSlot(material, colour)],
          map[1 := NewJob(1, CubeFile, 0)], map[1 := Order(OrderStatus.Open)], [Cube()])
  }

  /** A world where nobody else writes and every printer call succeeds. */
  function Quiet(id: int): Effects
  {
    Effects(NoWrite, Ok, Ok)
  }

  // ---------------------------------------------------------------------------
  // Proof helpers: facts about the bench the scenarios below are assembled from
  // ---------------------------------------------------------------------------

  /** A one-printer fleet: that printer, if the matcher accepts it. */
  lemma {:induction false} OnePrinterFleet(m: Metric, fp: FleetPrinter, colours: seq<string>, material: string)
    ensures FindBestPrinter(m, [fp], colours, material) ==
              if Accepts(m, fp, colours, material)
              then Some(Match(fp.printer.serial, MatchPrinter(m, fp, colours, material).value))
              else None
  {
    var r := FindBestPrinter(m, [fp], colours, material);
    if r.Some? {
      var k :| 0 <= k < 1 && IsFirstFit(m, [fp], colours, material, k, r.value);
      assert k == 0;
    }
  }

  /** One valid slot: chosen exactly when its colour is within tolerance. */
  lemma {:induction false} OneSlotChosen(m: Metric, s: AmsSlot, colour: string)
    ensures ChosenSlot(m, [s], colour) ==
              if DeltaE(m, colour, SlotColour(s)) < MatchTolerance then Some(0) else None
  {
    var ds := Distances(m, colour, [s]);
    assert |ds| == 1 && ds[0] == DeltaE(m, colour, SlotColour(s));
    ChosenSlotIsFirstBest(m, [s], colour);
  }

  /** One colour: mapped to the chosen slot's flat index, or not at all. */
  lemma {:induction false} OneColourMapped(m: Metric, valid: seq<AmsSlot>, colour: string)
    ensures var c := ChosenSlot(m, valid, colour);
            MapColours(m, valid, [colour]) ==
              if c.Some? then Some([valid[c.value].FlatIndex()]) else None
  {
    var wants := [colour];
    assert wants[0] == colour;
    var r := MapColours(m, valid, wants);
    var c := ChosenSlot(m, valid, colour);
    if c.Some? {
      assert r.Some? && |r.value| == 1;
      assert r.value[0] == valid[c.value].FlatIndex();
      assert r.value == [valid[c.value].FlatIndex()];
    }
  }

  /**
   * The matcher on a one-printer, one-slot, one-colour fleet: the idle printer is chosen,
   * with that slot's flat index, exactly when the slot holds the material and its colour
   * is within tolerance.
   */
  lemma {:induction false} OneSlotMatch(m: Metric, fp: FleetPrinter, colour: string, material: string)
    requires |fp.slots| == 1 && fp.printer.status == PrinterStatus.Idle
    ensures var s := fp.slots[0];
            FindBestPrinter(m, [fp], [colour], material) ==
              if IsValidSlot(s, material) && DeltaE(m, colour, SlotColour(s)) < MatchTolerance
              then Some(Match(fp.printer.serial, [s.FlatIndex()]))
              else None
  {
    var s := fp.slots[0];
    var valid := ValidSlots(fp.slots, material);
    assert fp.slots == [s];
    assert forall t :: t in valid <==> t == s && IsValidSlot(s, material);
    OnePrinterFleet(m, fp, [colour], material);
    if IsValidSlot(s, material) {
      assert s in valid;
      assert valid == [s];
      OneSlotChosen(m, s, colour);
      OneColourMapped(m, valid, colour);
    } else {
      assert |valid| == 0;
    }
  }

  /** The bench's matcher query: one printer row with its one slot. */
  lemma BenchFleet(ip: Option<string>, material: string, colour: string)
    ensures Fleet(Bench(ip, material, colour), [BenchSerial])
            == [FleetPrinter(BenchPrinter(ip), [BenchSlot(material, colour)])]
  {
    var store := Bench(ip, material, colour);
    assert Present([BenchSerial], store.printers) == [BenchSerial];
    assert SlotsOf(store.slots, BenchSerial) == [BenchSlot(material, colour)];
  }

  /** The bench's pending job finds its product and is matched as the slot allows. */
  lemma {:induction false} BenchMatch(m: Metric, ip: Option<string>, material: string, colour: string)
    ensures var s := BenchSlot(material, colour);
            FindBestPrinter(m, Fleet(Bench(ip, material, colour), [BenchSerial]), RequiredColours(Cube()), "PLA") ==
              if IsValidSlot(s, "PLA") && DeltaE(m, "#FF0000", colour) < MatchTolerance
              then Some(Match(BenchSerial, [0]))
              else None
  {
    BenchFleet(ip, material, colour);
    assert RequiredColours(Cube()) == ["#FF0000"];
    OneSlotMatch(m, FleetPrinter(BenchPrinter(ip), [BenchSlot(material, colour)]), "#FF0000", "PLA");
  }

  /** The bench's one cycle is the handling of job 1, matched as the slot allows. */
  lemma {:induction false} BenchCycle(m: Metric, ip: Option<string>, material: string, colour: string, env: int -> Effects)
    ensures var store := Bench(ip, material, colour);
            var mt := FindBestPrinter(m, Fleet(store, [BenchSerial]), RequiredColours(Cube()), "PLA");
            RunCycle(store, [1], [BenchSerial], m, env) ==
              if mt.None? then Step(store, [])
              else ClaimAndExecute(Interfere(store, env(1).interference), 1, mt.value, env(1))
  {
    var store := Bench(ip, material, colour);
    assert PendingJobs(store, [1]) == [1];
    OnePendingJob(store, 1, [BenchSerial], m, env);
    assert FindProduct(store.products, CubeFile) == Some(Cube());
  }

  /** A cycle with a single pending job is the handling of that job. */
  lemma OnePendingJob(store: Store, id: int, printerOrder: seq<string>, m: Metric, env: int -> Effects)
    requires PendingJobs(store, [id]) == [id]
    ensures RunCycle(store, [id], printerOrder, m, env) == ProcessJob(store, id, printerOrder, m, env(id))
  {
    var first := ProcessJob(store, id, printerOrder, m, env(id));
    assert ProcessAll(first.after, [id][1..], printerOrder, m, env) == Step(first.after, []);
    assert first.sent + [] == first.sent;
  }

  lemma CubeFileIsItsOwnBasename()
    ensures Basename(CubeFile) == CubeFile
  {
    BasenameOfPlainName(CubeFile);
  }

  /** A status report on a one-printer store replaces that printer's status and nothing else. */
  lemma ReportOnOnePrinter(store: Store, p: Printer, st: PrinterStatus)
    requires store.printers == map[p.serial := p]
    ensures Interfere(store, ReportStatus(p.serial, st)) == store.(printers := map[p.serial := p.(status := st)])
  {
    assert store.printers[p.serial := p.(status := st)] == map[p.serial := p.(status := st)];
  }

  /** Red PLA loaded as FF0000FF serves the bench's red PLA job, from slot 0. */
  lemma {:induction false} RedBenchIsMatched(m: Metric, ip: Option<string>)
    requires IsColourMetric(m)
    ensures FindBestPrinter(m, Fleet(Bench(ip, "PLA", "FF0000FF"), [BenchSerial]), RequiredColours(Cube()), "PLA")
              == Some(Match(BenchSerial, [0]))
  {
    RedSlotServesRed(m);
    BenchMatch(m, ip, "PLA", "FF0000FF");
  }

  /** A PLA slot loaded FF0000FF holds the material and sits at distance 0 from `#FF0000`. */
  lemma RedSlotServesRed(m: Metric)
    requires IsColourMetric(m)
    ensures IsValidSlot(BenchSlot("PLA", "FF0000FF"), "PLA")
    ensures DeltaE(m, "#FF0000", "FF0000FF") == 0.0 < MatchTolerance
  {
    RedPlaSlotIsValid();
    RedSpellingsCoincide(m);
  }

  lemma RedPlaSlotIsValid()
    ensures IsValidSlot(BenchSlot("PLA", "FF0000FF"), "PLA")
  {
  }

  lemma RedSpellingsCoincide(m: Metric)
    requires IsColourMetric(m)
    ensures DeltaE(m, "#FF0000", "FF0000FF") == 0.0
  {
    AlphaIsIgnored();
    DeltaEOfSameColour(m, "#FF0000", "FF0000FF");
  }

  /** The bench's IDLE printer and PENDING job can be claimed together. */
  lemma BenchIsClaimable(ip: Option<string>, material: string, colour: string)
    ensures Claim(Bench(ip, material, colour), 1, BenchSerial).Some?
  {
    var store := Bench(ip, material, colour);
    assert 1 in store.jobs && BenchSerial in store.printers;
    assert store.printers[BenchSerial].status == PrinterStatus.Idle;
  }

  /** With nobody else writing, a matched bench job is claimed on the store as it stands. */
  lemma {:induction false} QuietBenchIsClaimed(m: Metric, ip: Option<string>)
    requires IsColourMetric(m)
    ensures var store := Bench(ip, "PLA", "FF0000FF");
            && RunCycle(store, [1], [BenchSerial], m, Quiet) == ClaimAndExecute(store, 1, Match(BenchSerial, [0]), Quiet(1))
            && Claim(store, 1, BenchSerial).Some?
  {
    RedBenchIsMatched(m, ip);
    BenchCycle(m, ip, "PLA", "FF0000FF", Quiet);
    BenchIsClaimable(ip, "PLA", "FF0000FF");
  }

  // ---------------------------------------------------------------------------
  // Scenarios
  // ---------------------------------------------------------------------------

  /**
   * Happy path: red PLA loaded as FF0000FF on a simulated printer. After one cycle the job
   * is PRINTING on P1, printer and order are PRINTING, and the start command asks for the
   * file under its base name with slot mapping [0].
   */
  lemma HappyPath(m: Metric)
    requires IsColourMetric(m)
    ensures var r := RunCycle(Bench(Some(SimulatedAddress), "PLA", "FF0000FF"), [1], [BenchSerial], m, Quiet);
            && 1 in r.after.jobs && BenchSerial in r.after.printers && 1 in r.after.orders
            && r.after.jobs[1].status == JobStatus.Printing
            && r.after.jobs[1].assignedPrinter == Some(BenchSerial)
            && r.after.printers[BenchSerial].status == PrinterStatus.Printing
            && r.after.orders[1].status == OrderStatus.Printing
            && r.sent == [Upload(SimulatedAddress, BenchCode, CubeFile, CubeFile),
                          StartPrint(SimulatedAddress, BenchSerial, BenchCode, CubeFile, [0])]
  {
    var store := Bench(Some(SimulatedAddress), "PLA", "FF0000FF");
    var mt := Match(BenchSerial, [0]);
    QuietBenchIsClaimed(m, Some(SimulatedAddress));
    var claimed := Claim(store, 1, BenchSerial).value;
    assert claimed.printers[BenchSerial].ipAddress == Some(SimulatedAddress);
    assert claimed.printers[BenchSerial].accessCode == Some(BenchCode);
    assert claimed.jobs[1].gcodePath == CubeFile;
    CubeFileIsItsOwnBasename();
    var e := Execute(claimed.printers[BenchSerial], BenchSerial, CubeFile, [0], Quiet(1));
    assert e.outcome == Ok;
    StartedJobIsPrinting(store, 1, mt, Quiet(1));
  }

  /** Wrong material: PETG is not PLA in any case, so no printer matches and nothing changes, cycle after cycle. */
  lemma MaterialMismatchStaysPending(m: Metric, env: int -> Effects)
    ensures var store := Bench(Some(SimulatedAddress), "PETG", "FF0000FF");
            RunCycle(store, [1], [BenchSerial], m, env) == Step(store, [])
  {
    assert |Lower("PETG")| != |Lower("PLA")|;
    assert !IsValidSlot(BenchSlot("PETG", "FF0000FF"), "PLA");
    BenchMatch(m, Some(SimulatedAddress), "PETG", "FF0000FF");
    BenchCycle(m, Some(SimulatedAddress), "PETG", "FF0000FF", env);
  }

  /** Wrong colour: a blue slot at distance 5.0 or more from red matches nothing, so nothing changes. */
  lemma ColourMismatchStaysPending(m: Metric, env: int -> Effects)
    requires m(Rgb(255, 0, 0), Rgb(0, 0, 255)) >= MatchTolerance
    ensures var store := Bench(Some(SimulatedAddress), "PLA", "0000FF");
            RunCycle(store, [1], [BenchSerial], m, env) == Step(store, [])
  {
    AlphaIsIgnored();
    BlueParses();
    assert DeltaE(m, "#FF0000", "0000FF") >= MatchTolerance;
    BenchMatch(m, Some(SimulatedAddress), "PLA", "0000FF");
    BenchCycle(m, Some(SimulatedAddress), "PLA", "0000FF", env);
  }

  /**
   * No address stored: the job is claimed, nothing is sent, and the job ends FAILED with
   * the missing-credentials message, on no printer, with P1 back at IDLE.
   */
  lemma MissingAddressFailsJob(m: Metric)
    requires IsColourMetric(m)
    ensures var r := RunCycle(Bench(None, "PLA", "FF0000FF"), [1], [BenchSerial], m, Quiet);
            && 1 in r.after.jobs && BenchSerial in r.after.printers
            && r.sent == []
            && r.after.jobs[1].status == JobStatus.Failed
            && r.after.jobs[1].errorMessage == Some(MissingCredentials)
            && r.after.jobs[1].assignedPrinter.None?
            && r.after.printers[BenchSerial].status == PrinterStatus.Idle
  {
    var store := Bench(None, "PLA", "FF0000FF");
    QuietBenchIsClaimed(m, None);
    assert store.printers[BenchSerial].ipAddress.None?;
    MissingCredentialsFailTheJob(store, 1, Match(BenchSerial, [0]), Quiet(1));
  }

  /** The telemetry listener reports P1 busy between the match and the claim. */
  function Raced(id: int): Effects
  {
    Effects(ReportStatus(BenchSerial, PrinterStatus.Printing), Ok, Ok)
  }

  /**
   * Race lost: the first cycle's claim aborts and the job stays PENDING, so the next cycle
   * offers it again; once P1 is reported IDLE again that cycle is the happy path.
   */
  lemma LostRaceRetriesNextCycle(m: Metric)
    requires IsColourMetric(m)
    ensures var store := Bench(Some(SimulatedAddress), "PLA", "FF0000FF");
            var first := RunCycle(store, [1], [BenchSerial], m, Raced);
            && first.sent == []
            && 1 in first.after.jobs && first.after.jobs[1] == store.jobs[1]
            && PendingJobs(first.after, [1]) == [1]
            && Interfere(first.after, ReportStatus(BenchSerial, PrinterStatus.Idle)) == store
  {
    var store := Bench(Some(SimulatedAddress), "PLA", "FF0000FF");
    RedBenchIsMatched(m, Some(SimulatedAddress));
    BenchCycle(m, Some(SimulatedAddress), "PLA", "FF0000FF", Raced);
    var busy := BenchPrinter(Some(SimulatedAddress)).(status := PrinterStatus.Printing);
    ReportOnOnePrinter(store, BenchPrinter(Some(SimulatedAddress)), PrinterStatus.Printing);
    var seen := Interfere(store, Raced(1).interference);
    assert Claim(seen, 1, BenchSerial).None?;
    ReportOnOnePrinter(seen, busy, PrinterStatus.Idle);
    assert busy.(status := PrinterStatus.Idle) == BenchPrinter(Some(SimulatedAddress));
  }
}

=== FILE: dispatcher.dfy ===
/**
 * The production dispatcher: each cycle takes the pending jobs, looks up the product each
 * one prints, asks the filament matcher for an idle printer, claims job and printer in one
 * commit, sends the upload and start commands, and settles the job as printing or failed.
 *
 * The database is a `Store` value; the order the database returns rows in is a parameter.
 * What other processes and the printers do is an `Effects` value per job: a write that may
 * land between the match and the claim, and the outcome of each printer call.
 */
module Dispatcher {
  import opened Wrappers
  import opened Text
  import opened Core
  import opened Database
  import opened Counting
  import opened FilamentManager
  import PrintersRouter

  // ---------------------------------------------------------------------------
  // The world around the dispatcher
  // ---------------------------------------------------------------------------

  /**
   * A write by another process that lands after a job was matched and before it is
   * claimed: a status report from the telemetry listener, or a printer deleted through
   * the registry.
   */
  datatype ExternalWrite =
    | NoWrite
    | ReportStatus(serial: string, status: PrinterStatus)
    | RemovePrinter(serial: string)

  /** What the world does while one job is handled. */
  datatype Effects = Effects(interference: ExternalWrite, upload: Outcome, startPrint: Outcome)

  /** A command sent to a printer: a file upload or a start-print request. */
  datatype Command =
    | Upload(ip: string, accessCode: string, localPath: string, targetName: string)
    | StartPrint(ip: string, serial: string, accessCode: string, fileName: string, amsMapping: seq<int>)

  /** The address the printer commander treats as a simulated printer: every call succeeds. */
  const SimulatedAddress: string := "127.0.0.1"

  /** The error recorded on a job whose printer has no address or no access code. */
  const MissingCredentials: string := "Printer IP or Access Code missing"

  /** The store as the dispatcher finds it after another process's write. */
  function Interfere(store: Store, w: ExternalWrite): (r: Store)
    ensures r.products == store.products && r.orders == store.orders
    ensures r.printers.Keys <= store.printers.Keys && r.jobs.Keys <= store.jobs.Keys
    ensures forall id :: id in r.jobs ==> r.jobs[id] == store.jobs[id]
    ensures forall s :: s in r.printers && (w.NoWrite? || s != w.serial) ==> r.printers[s] == store.printers[s]
    ensures w.ReportStatus? ==> r.printers.Keys == store.printers.Keys && r.jobs == store.jobs
    ensures w.ReportStatus? && w.serial in store.printers ==>
              w.serial in r.printers && r.printers[w.serial] == store.printers[w.serial].(status := w.status)
    ensures w.RemovePrinter? && w.serial in store.printers ==>
              w.serial !in r.printers && forall id :: id in r.jobs ==> r.jobs[id].assignedPrinter != Some(w.serial)
  {
    match w
    case NoWrite => store
    case ReportStatus(s, st) =>
      if s in store.printers then store.(printers := store.printers[s := store.printers[s].(status := st)])
      else store
    case RemovePrinter(s) => PrintersRouter.DeletePrinter(store, s).0
  }

  /** A write that cannot take a printer out from under a job: anything but an IDLE report. */
  predicate Harmless(w: ExternalWrite)
  {
    !(w.ReportStatus? && w.status == PrinterStatus.Idle)
  }

  /**
   * A write that takes no printer out from under a job of `store`: an IDLE report names no
   * printer an UPLOADING or PRINTING job is assigned to.
   */
  ghost predicate HarmlessIn(store: Store, w: ExternalWrite)
  {
    w.ReportStatus? && w.status == PrinterStatus.Idle ==>
      forall id :: id in store.jobs && store.jobs[id].status.IsActive() ==>
        store.jobs[id].assignedPrinter != Some(w.serial)
  }

  /** A write that is harmless anywhere is harmless in every store. */
  lemma HarmlessEverywhere(store: Store, w: ExternalWrite)
    requires Harmless(w)
    ensures HarmlessIn(store, w)
  {
  }

  // ---------------------------------------------------------------------------
  // Requirements of a job
  // ---------------------------------------------------------------------------

  /** The first product, in table order, whose build file is `path`. */
  function FindProduct(products: seq<Product>, path: string): (r: Option<Product>)
    ensures r.None? <==> forall i :: 0 <= i < |products| ==> products[i].filePath3mf != path
    ensures r.Some? ==> r.value.filePath3mf == path
    ensures r.Some? ==> exists i :: 0 <= i < |products| && products[i] == r.value &&
                          forall j :: 0 <= j < i ==> products[j].filePath3mf != path
  {
    if |products| == 0 then None
    else if products[0].filePath3mf == path then Some(products[0])
    else
      var r := FindProduct(products[1..], path);
      assert forall i :: 1 <= i < |products| ==> products[1..][i - 1] == products[i];
      if r.Some? then
        var i :| 0 <= i < |products| - 1 && products[1..][i] == r.value &&
                 forall j :: 0 <= j < i ==> products[1..][j].filePath3mf != path;
        assert products[i + 1] == r.value;
        r
      else r
  }

  /** The colours a product asks for: its one colour if it names one, none otherwise. */
  function RequiredColours(p: Product): (r: seq<string>)
    ensures |r| <= 1
    ensures |r| == 1 <==> Truthy(p.requiredColor)
    ensures |r| == 1 ==> Some(r[0]) == p.requiredColor
  {
    if Truthy(p.requiredColor) then [p.requiredColor.value] else []
  }

  /** The test for a serial that is a stored printer. */
  function StoredIn(printers: map<string, Printer>): string -> bool
  {
    (s: string) => s in printers
  }

  /** The serials of `order` that are still stored printers: every one of them, in that order. */
  function Present(order: seq<string>, printers: map<string, Printer>): (r: seq<string>)
    ensures |r| <= |order|
    ensures forall s :: s in r <==> s in order && s in printers
    ensures |r| == CountWhere(order, StoredIn(printers))
    ensures IsSubsequence(r, order)
  {
    if |order| == 0 then []
    else
      var rest := Present(order[1..], printers);
      assert forall s :: s in order <==> s == order[0] || s in order[1..];
      if order[0] in printers then
        assert ([order[0]] + rest)[1..] == rest;
        [order[0]] + rest
      else
        assert |rest| > 0 ==> rest[0] in rest && rest[0] != order[0];
        rest
  }

  /** The printers the matcher looks at, with their slots, in the order the database lists them. */
  function Fleet(store: Store, printerOrder: seq<string>): (r: seq<FleetPrinter>)
    ensures var live := Present(printerOrder, store.printers);
            && |r| == |live|
            && forall k :: 0 <= k < |r| ==>
                 r[k] == FleetPrinter(store.printers[live[k]], SlotsOf(store.slots, live[k]))
  {
    var live := Present(printerOrder, store.printers);
    seq(|live|, k requires 0 <= k < |live| => FleetPrinter(store.printers[live[k]], SlotsOf(store.slots, live[k])))
  }

  /** A scan that names only stored printers loses none of them. */
  lemma {:induction false} PresentKeepsStoredScan(order: seq<string>, printers: map<string, Printer>)
    requires forall i :: 0 <= i < |order| ==> order[i] in printers
    ensures Present(order, printers) == order
    decreases |order|
  {
    if |order| > 0 {
      assert forall i :: 1 <= i < |order| ==> order[1..][i - 1] == order[i];
      PresentKeepsStoredScan(order[1..], printers);
      assert [order[0]] + order[1..] == order;
    }
  }

  /** A scan that names only stored printers is the fleet's order, printer by printer. */
  lemma FleetFollowsScan(store: Store, printerOrder: seq<string>)
    requires forall i :: 0 <= i < |printerOrder| ==> printerOrder[i] in store.printers
    ensures Present(printerOrder, store.printers) == printerOrder
    ensures var fleet := Fleet(store, printerOrder);
            && |fleet| == |printerOrder|
            && forall k :: 0 <= k < |fleet| ==>
                 fleet[k] == FleetPrinter(store.printers[printerOrder[k]], SlotsOf(store.slots, printerOrder[k]))
  {
    PresentKeepsStoredScan(printerOrder, store.printers);
  }

  /**
   * When `printerOrder` is a scan of the printer table, the matcher sees every stored
   * printer exactly once, in that order, each with its own slot list.
   */
  lemma FleetListsEveryPrinter(store: Store, printerOrder: seq<string>)
    requires IsListing(printerOrder, store.printers.Keys)
    ensures Present(printerOrder, store.printers) == printerOrder
    ensures var fleet := Fleet(store, printerOrder);
            && |fleet| == |printerOrder|
            && (forall k :: 0 <= k < |fleet| ==>
                  fleet[k] == FleetPrinter(store.printers[printerOrder[k]], SlotsOf(store.slots, printerOrder[k])))
            && (forall s :: s in store.printers ==>
                  exists k :: 0 <= k < |fleet| && fleet[k] == FleetPrinter(store.printers[s], SlotsOf(store.slots, s)))
  {
    assert forall i :: 0 <= i < |printerOrder| ==> printerOrder[i] in printerOrder;
    FleetFollowsScan(store, printerOrder);
    var fleet := Fleet(store, printerOrder);
    forall s | s in store.printers
      ensures exists k :: 0 <= k < |fleet| && fleet[k] == FleetPrinter(store.printers[s], SlotsOf(store.slots, s))
    {
      assert s in printerOrder;
      var k :| 0 <= k < |printerOrder| && printerOrder[k] == s;
      assert fleet[k] == FleetPrinter(store.printers[s], SlotsOf(store.slots, s));
    }
  }

  /** On a store keyed by serial, every serial the matcher can return is a stored printer. */
  lemma {:induction false} MatchedPrinterIsStored(m: Metric, store: Store, printerOrder: seq<string>,
                                                  colours: seq<string>, material: string)
    requires KeyedBySerial(store.printers)
    requires FindBestPrinter(m, Fleet(store, printerOrder), colours, material).Some?
    ensures var mt := FindBestPrinter(m, Fleet(store, printerOrder), colours, material).value;
            mt.serial in store.printers && store.printers[mt.serial].status == PrinterStatus.Idle
  {
    var fleet := Fleet(store, printerOrder);
    var live := Present(printerOrder, store.printers);
    var mt := FindBestPrinter(m, fleet, colours, material).value;
    var k :| 0 <= k < |fleet| && IsFirstFit(m, fleet, colours, material, k, mt);
    assert live[k] in live;
    assert fleet[k].printer == store.printers[live[k]];
  }

  // ---------------------------------------------------------------------------
  // Claim, execute, settle
  // ---------------------------------------------------------------------------

  /** `b` is `a` with at most the entry under `k` replaced; no key added or removed. */
  predicate AgreeExcept<K, V(==)>(a: map<K, V>, b: map<K, V>, k: K)
  {
    a.Keys == b.Keys && forall x :: x in a && x != k ==> b[x] == a[x]
  }

  /**
   * The claim commit. It aborts, writing nothing, when the job is gone or the matched
   * printer is gone or no longer IDLE; otherwise it assigns the job to the printer as
   * UPLOADING, marks the printer PRINTING and, when the job names a stored order, marks
   * that order PRINTING.
   */
  function Claim(store: Store, id: int, serial: string): (r: Option<Store>)
    ensures r.None? <==> id !in store.jobs || serial !in store.printers
                         || store.printers[serial].status != PrinterStatus.Idle
    ensures r.Some? ==>
              var s := r.value;
              && s.slots == store.slots && s.products == store.products
              && AgreeExcept(store.jobs, s.jobs, id)
              && AgreeExcept(store.printers, s.printers, serial)
              && s.jobs[id] == store.jobs[id].(assignedPrinter := Some(serial), status := JobStatus.Uploading)
              && s.printers[serial] == store.printers[serial].(status := PrinterStatus.Printing)
    ensures r.Some? ==>
              var o := store.jobs[id].orderId;
              if o != 0 && o in store.orders then
                AgreeExcept(store.orders, r.value.orders, o) && r.value.orders[o].status == OrderStatus.Printing
              else r.value.orders == store.orders
  {
    if id !in store.jobs || serial !in store.printers || store.printers[serial].status != PrinterStatus.Idle then
      None
    else
      var job := store.jobs[id];
      var orders :=
        if job.orderId != 0 && job.orderId in store.orders
        then store.orders[job.orderId := Order(OrderStatus.Printing)]
        else store.orders;
      Some(store.(
        jobs := store.jobs[id := job.(assignedPrinter := Some(serial), status := JobStatus.Uploading)],
        printers := store.printers[serial := store.printers[serial].(status := PrinterStatus.Printing)],
        orders := orders))
  }

  /** The result of talking to a printer: the commands sent, in order, and how it ended. */
  datatype Execution = Execution(sent: seq<Command>, outcome: Outcome)

  /** How one printer call ends: a simulated printer always accepts. */
  function CallOutcome(ip: string, remote: Outcome): (r: Outcome)
    ensures ip == SimulatedAddress ==> r == Ok
    ensures ip != SimulatedAddress ==> r == remote
  {
    if ip == SimulatedAddress then Ok else remote
  }

  /**
   * The execution phase: without an address and an access code nothing is sent and the
   * job fails; otherwise the build file is uploaded under its base name and, only if the
   * upload succeeded, printing of that file is started with the slot mapping.
   */
  function Execute(p: Printer, serial: string, gcodePath: string, mapping: seq<int>, fx: Effects): (e: Execution)
    ensures |e.sent| <= 2
    ensures e.sent == [] <==> !Truthy(p.ipAddress) || !Truthy(p.accessCode)
    ensures e.sent == [] ==> e.outcome == Err(MissingCredentials)
    ensures e.sent != [] ==>
              e.sent[0] == Upload(p.ipAddress.value, p.accessCode.value, gcodePath, Basename(gcodePath))
    ensures |e.sent| == 2 ==>
              && CallOutcome(p.ipAddress.value, fx.upload) == Ok
              && e.sent[1] == StartPrint(p.ipAddress.value, serial, p.accessCode.value, Basename(gcodePath), mapping)
    ensures e.outcome == Ok <==>
              |e.sent| == 2 && CallOutcome(p.ipAddress.value, fx.startPrint) == Ok
    ensures |e.sent| == 1 ==> e.outcome == CallOutcome(p.ipAddress.value, fx.upload)
  {
    if !Truthy(p.ipAddress) || !Truthy(p.accessCode) then Execution([], Err(MissingCredentials))
    else
      var ip := p.ipAddress.value;
      var code := p.accessCode.value;
      var name := Basename(gcodePath);
      var up := Upload(ip, code, gcodePath, name);
      match CallOutcome(ip, fx.upload)
      case Err(reason) => Execution([up], Err(reason))
      case Ok => Execution([up, StartPrint(ip, serial, code, name, mapping)], CallOutcome(ip, fx.startPrint))
  }

  /** A printer with credentials at the simulated address always starts printing. */
  lemma SimulatedPrinterAlwaysStarts(p: Printer, serial: string, gcodePath: string, mapping: seq<int>, fx: Effects)
    requires p.ipAddress == Some(SimulatedAddress) && Truthy(p.accessCode)
    ensures Execute(p, serial, gcodePath, mapping, fx).outcome == Ok
  {
  }

  /**
   * The commit after execution. Success moves the job to PRINTING. Failure releases the
   * printer as IDLE and records the job as FAILED with the error, on no printer; the order
   * keeps the status the claim gave it.
   */
  function Settle(store: Store, id: int, serial: string, outcome: Outcome): (r: Store)
    requires id in store.jobs && serial in store.printers
    ensures r.slots == store.slots && r.products == store.products && r.orders == store.orders
    ensures AgreeExcept(store.jobs, r.jobs, id) && AgreeExcept(store.printers, r.printers, serial)
    ensures outcome.Ok? ==>
              r.jobs[id] == store.jobs[id].(status := JobStatus.Printing) && r.printers == store.printers
    ensures outcome.Err? ==>
              && r.jobs[id] == store.jobs[id].(status := JobStatus.Failed, errorMessage := Some(outcome.reason),
                                               assignedPrinter := None)
              && r.printers[serial] == store.printers[serial].(status := PrinterStatus.Idle)
  {
    var job := store.jobs[id];
    match outcome
    case Ok => store.(jobs := store.jobs[id := job.(status := JobStatus.Printing)])
    case Err(reason) =>
      store.(
        printers := store.printers[serial := store.printers[serial].(status := PrinterStatus.Idle)],
        jobs := store.jobs[id := job.(status := JobStatus.Failed, errorMessage := Some(reason), assignedPrinter := None)])
  }

  // ---------------------------------------------------------------------------
  // One job, one cycle
  // ---------------------------------------------------------------------------

  /** The store after a job is handled, and the commands sent to printers on its behalf. */
  datatype Step = Step(after: Store, sent: seq<Command>)

  /**
   * One pass of the cycle's loop body. The job is skipped, writing nothing, when no
   * product prints its file, when that product names no material, or when no printer
   * matches; a job deleted meanwhile is passed over too.
   */
  function ProcessJob(store: Store, id: int, printerOrder: seq<string>, m: Metric, fx: Effects): (r: Step)
    ensures r.after.jobs.Keys <= store.jobs.Keys
    ensures forall j :: j in r.after.jobs && j != id ==> r.after.jobs[j] == store.jobs[j]
    ensures id !in store.jobs ==> r == Step(store, [])
    ensures id in store.jobs && FindProduct(store.products, store.jobs[id].gcodePath).None? ==> r == Step(store, [])
    ensures id in store.jobs && FindProduct(store.products, store.jobs[id].gcodePath).Some? ==>
              FindProduct(store.products, store.jobs[id].gcodePath).value.requiredMaterial == "" ==> r == Step(store, [])
    ensures id in store.jobs && FindProduct(store.products, store.jobs[id].gcodePath).Some? ==>
              var p := FindProduct(store.products, store.jobs[id].gcodePath).value;
              var mt := FindBestPrinter(m, Fleet(store, printerOrder), RequiredColours(p), p.requiredMaterial);
              p.requiredMaterial != "" ==>
                && (mt.None? ==> r == Step(store, []))
                && (mt.Some? ==> r == ClaimAndExecute(Interfere(store, fx.interference), id, mt.value, fx))
  {
    if id !in store.jobs then Step(store, [])
    else
      var job := store.jobs[id];
      match FindProduct(store.products, job.gcodePath)
      case None => Step(store, [])
      case Some(product) =>
        if product.requiredMaterial == "" then Step(store, [])
        else
          match FindBestPrinter(m, Fleet(store, printerOrder), RequiredColours(product), product.requiredMaterial)
          case None => Step(store, [])
          case Some(mt) => ClaimAndExecute(Interfere(store, fx.interference), id, mt, fx)
  }

  /**
   * A job that one pass leaves PRINTING was matched: it sits on the printer the matcher
   * chose for its product, and the last command sent starts it there with the matcher's
   * slot mapping.
   */
  lemma {:induction false} StartedOnMatchedPrinter(store: Store, id: int, printerOrder: seq<string>, m: Metric, fx: Effects)
    requires id in store.jobs && store.jobs[id].status == JobStatus.Pending
    ensures var r := ProcessJob(store, id, printerOrder, m, fx);
            id in r.after.jobs && r.after.jobs[id].status == JobStatus.Printing ==>
              var p := FindProduct(store.products, store.jobs[id].gcodePath);
              && p.Some?
              && var mt := FindBestPrinter(m, Fleet(store, printerOrder), RequiredColours(p.value), p.value.requiredMaterial);
              && mt.Some?
              && r.after.jobs[id].assignedPrinter == Some(mt.value.serial)
              && |r.sent| == 2
              && r.sent[1].StartPrint? && r.sent[1].serial == mt.value.serial
              && r.sent[1].amsMapping == mt.value.amsMapping
  {
    var r := ProcessJob(store, id, printerOrder, m, fx);
    var p := FindProduct(store.products, store.jobs[id].gcodePath);
    if p.Some? && p.value.requiredMaterial != "" {
      var mt := FindBestPrinter(m, Fleet(store, printerOrder), RequiredColours(p.value), p.value.requiredMaterial);
      if mt.Some? {
        ClaimedPrintingWasStarted(Interfere(store, fx.interference), id, mt.value, fx);
      }
    }
  }

  /**
   * Handling a job that was not yet PRINTING leaves it PRINTING only by claiming the
   * matched printer and sending the start command there with the match's slot mapping.
   */
  lemma ClaimedPrintingWasStarted(seen: Store, id: int, mt: Match, fx: Effects)
    requires id in seen.jobs ==> seen.jobs[id].status != JobStatus.Printing
    ensures var r := ClaimAndExecute(seen, id, mt, fx);
            id in r.after.jobs && r.after.jobs[id].status == JobStatus.Printing ==>
              && r.after.jobs[id].assignedPrinter == Some(mt.serial)
              && |r.sent| == 2
              && r.sent[1].StartPrint? && r.sent[1].serial == mt.serial
              && r.sent[1].amsMapping == mt.amsMapping
  {
    var c := Claim(seen, id, mt.serial);
    if c.Some? {
      var claimed := c.value;
      var e := Execute(claimed.printers[mt.serial], mt.serial, claimed.jobs[id].gcodePath, mt.amsMapping, fx);
      assert ClaimAndExecute(seen, id, mt, fx) == Step(Settle(claimed, id, mt.serial, e.outcome), e.sent);
    }
  }

  /** `assign_and_execute_job` on the store as the claim finds it. */
  function ClaimAndExecute(seen: Store, id: int, mt: Match, fx: Effects): (r: Step)
    ensures r.after.slots == seen.slots && r.after.products == seen.products
    ensures r.after.jobs.Keys == seen.jobs.Keys && r.after.printers.Keys == seen.printers.Keys
    ensures forall j :: j in seen.jobs && j != id ==> r.after.jobs[j] == seen.jobs[j]
    ensures forall s :: s in seen.printers && s != mt.serial ==> r.after.printers[s] == seen.printers[s]
    ensures Claim(seen, id, mt.serial).None? ==> r == Step(seen, [])
    ensures Claim(seen, id, mt.serial).Some? ==>
              var claimed := Claim(seen, id, mt.serial).value;
              var e := Execute(claimed.printers[mt.serial], mt.serial, claimed.jobs[id].gcodePath, mt.amsMapping, fx);
              r == Step(Settle(claimed, id, mt.serial, e.outcome), e.sent)
  {
    match Claim(seen, id, mt.serial)
    case None => Step(seen, [])
    case Some(claimed) =>
      var e := Execute(claimed.printers[mt.serial], mt.serial, claimed.jobs[id].gcodePath, mt.amsMapping, fx);
      Step(Settle(claimed, id, mt.serial, e.outcome), e.sent)
  }

  /** The ids of `jobOrder` whose jobs are stored and PENDING: every one of them, in that order. */
  function PendingJobs(store: Store, jobOrder: seq<int>): (r: seq<int>)
    ensures |r| <= |jobOrder|
    ensures forall id :: id in r <==> id in jobOrder && id in store.jobs && store.jobs[id].status == JobStatus.Pending
    ensures NoDuplicates(jobOrder) ==> NoDuplicates(r)
    ensures |r| == CountWhere(jobOrder, PendingIn(store))
    ensures IsSubsequence(r, jobOrder)
  {
    if |jobOrder| == 0 then []
    else
      var rest := PendingJobs(store, jobOrder[1..]);
      assert forall id :: id in jobOrder <==> id == jobOrder[0] || id in jobOrder[1..];
      var id := jobOrder[0];
      assert jobOrder == [id] + jobOrder[1..];
      NoDuplicatesCons(id, jobOrder[1..]);
      if id in store.jobs && store.jobs[id].status == JobStatus.Pending then
        NoDuplicatesCons(id, rest);
        assert ([id] + rest)[1..] == rest;
        [id] + rest
      else
        assert |rest| > 0 ==> rest[0] in rest && rest[0] != id;
        rest
  }

  /** The test for the id of a stored PENDING job. */
  function PendingIn(store: Store): int -> bool
  {
    (id: int) => id in store.jobs && store.jobs[id].status == JobStatus.Pending
  }

  /**
   * When `jobOrder` is a scan of the job table, the cycle takes exactly the stored PENDING
   * jobs, each once, in the order of the scan.
   */
  lemma PendingJobsOfScan(store: Store, jobOrder: seq<int>)
    requires IsListing(jobOrder, store.jobs.Keys)
    ensures var r := PendingJobs(store, jobOrder);
            && NoDuplicates(r)
            && IsSubsequence(r, jobOrder)
            && forall id :: id in r <==> id in store.jobs && store.jobs[id].status == JobStatus.Pending
  {
  }

  /** The loop over the pending jobs: each handled on the store the previous one left. */
  function ProcessAll(store: Store, ids: seq<int>, printerOrder: seq<string>, m: Metric, env: int -> Effects): (r: Step)
    ensures r.after.jobs.Keys <= store.jobs.Keys
    ensures forall j :: j in r.after.jobs && j !in ids ==> r.after.jobs[j] == store.jobs[j]
    decreases |ids|
  {
    if |ids| == 0 then Step(store, [])
    else
      var first := ProcessJob(store, ids[0], printerOrder, m, env(ids[0]));
      var rest := ProcessAll(first.after, ids[1..], printerOrder, m, env);
      Step(rest.after, first.sent + rest.sent)
  }

  /**
   * `run_cycle`: the jobs the database lists as PENDING, in its order, each handled with
   * the effects `env` gives for it.
   */
  function RunCycle(store: Store, jobOrder: seq<int>, printerOrder: seq<string>, m: Metric, env: int -> Effects): (r: Step)
    ensures PendingJobs(store, jobOrder) == [] ==> r == Step(store, [])
    ensures r.after.jobs.Keys <= store.jobs.Keys
    ensures forall j :: j in r.after.jobs && store.jobs[j].status != JobStatus.Pending ==> r.after.jobs[j] == store.jobs[j]
  {
    ProcessAll(store, PendingJobs(store, jobOrder), printerOrder, m, env)
  }

  // ---------------------------------------------------------------------------
  // What a handled job leaves behind
  // ---------------------------------------------------------------------------

  /** A claimed job whose commands all went through is PRINTING on its printer, and so is its order. */
  lemma StartedJobIsPrinting(seen: Store, id: int, mt: Match, fx: Effects)
    requires Claim(seen, id, mt.serial).Some?
    requires var claimed := Claim(seen, id, mt.serial).value;
             Execute(claimed.printers[mt.serial], mt.serial, claimed.jobs[id].gcodePath, mt.amsMapping, fx).outcome == Ok
    ensures var after := ClaimAndExecute(seen, id, mt, fx).after;
            var o := seen.jobs[id].orderId;
            && after.jobs[id].status == JobStatus.Printing
            && after.jobs[id].assignedPrinter == Some(mt.serial)
            && after.printers[mt.serial].status == PrinterStatus.Printing
            && (o != 0 && o in seen.orders ==> after.orders[o].status == OrderStatus.Printing)
  {
  }

  /**
   * A claimed job whose execution failed is FAILED with the error and on no printer, its
   * printer is IDLE again, and its order stays PRINTING.
   */
  lemma FailedJobReleasesPrinter(seen: Store, id: int, mt: Match, fx: Effects)
    requires Claim(seen, id, mt.serial).Some?
    requires var claimed := Claim(seen, id, mt.serial).value;
             Execute(claimed.printers[mt.serial], mt.serial, claimed.jobs[id].gcodePath, mt.amsMapping, fx).outcome.Err?
    ensures var after := ClaimAndExecute(seen, id, mt, fx).after;
            var claimed := Claim(seen, id, mt.serial).value;
            var e := Execute(claimed.printers[mt.serial], mt.serial, claimed.jobs[id].gcodePath, mt.amsMapping, fx);
            var o := seen.jobs[id].orderId;
            && after.jobs[id].status == JobStatus.Failed
            && after.jobs[id].errorMessage == Some(e.outcome.reason)
            && after.jobs[id].assignedPrinter.None?
            && after.printers[mt.serial].status == PrinterStatus.Idle
            && (o != 0 && o in seen.orders ==> after.orders[o].status == OrderStatus.Printing)
  {
  }

  /** A printer without an address or access code gets no command, and the job fails with that reason. */
  lemma MissingCredentialsFailTheJob(seen: Store, id: int, mt: Match, fx: Effects)
    requires Claim(seen, id, mt.serial).Some?
    requires !Truthy(seen.printers[mt.serial].ipAddress) || !Truthy(seen.printers[mt.serial].accessCode)
    ensures var r := ClaimAndExecute(seen, id, mt, fx);
            && r.sent == []
            && r.after.jobs[id].status == JobStatus.Failed
            && r.after.jobs[id].errorMessage == Some(MissingCredentials)
            && r.after.printers[mt.serial].status == PrinterStatus.Idle
  {
  }

  /**
   * Losing the race: when the matched printer is no longer IDLE at the claim, the job stays
   * as it was, nothing is sent and the dispatcher writes nothing; the job is offered again
   * next cycle.
   */
  lemma LostRaceLeavesJobPending(store: Store, id: int, mt: Match, status: PrinterStatus, upload: Outcome, start: Outcome)
    requires id in store.jobs && store.jobs[id].status == JobStatus.Pending
    requires status != PrinterStatus.Idle
    ensures var seen := Interfere(store, ReportStatus(mt.serial, status));
            var r := ClaimAndExecute(seen, id, mt, Effects(ReportStatus(mt.serial, status), upload, start));
            && r == Step(seen, [])
            && r.after.jobs[id] == store.jobs[id]
            && id in PendingJobs(r.after, [id])
  {
  }

  // ---------------------------------------------------------------------------
  // The job lifecycle
  // ---------------------------------------------------------------------------

  /** The dispatcher's edges of the job lifecycle: PENDING to UPLOADING, UPLOADING to PRINTING or FAILED. */
  predicate LifecycleStep(a: JobStatus, b: JobStatus)
  {
    || (a == JobStatus.Pending && b == JobStatus.Uploading)
    || (a == JobStatus.Uploading && (b == JobStatus.Printing || b == JobStatus.Failed))
  }

  /** A job left as it was, or taken along two lifecycle steps through UPLOADING. */
  predicate Advanced(before: Job, after: Job)
  {
    after == before
    || (LifecycleStep(before.status, JobStatus.Uploading) && LifecycleStep(JobStatus.Uploading, after.status))
  }

  /** The claim commit and the settle commit each take one lifecycle step. */
  lemma {:induction false} HandlingFollowsLifecycle(seen: Store, id: int, mt: Match, fx: Effects)
    requires id in seen.jobs && seen.jobs[id].status == JobStatus.Pending
    ensures Claim(seen, id, mt.serial).Some? ==>
              var claimed := Claim(seen, id, mt.serial).value;
              && LifecycleStep(seen.jobs[id].status, claimed.jobs[id].status)
              && LifecycleStep(claimed.jobs[id].status, ClaimAndExecute(seen, id, mt, fx).after.jobs[id].status)
    ensures Advanced(seen.jobs[id], ClaimAndExecute(seen, id, mt, fx).after.jobs[id])
  {
    match Claim(seen, id, mt.serial)
    case None =>
    case Some(claimed) =>
      var e := Execute(claimed.printers[mt.serial], mt.serial, claimed.jobs[id].gcodePath, mt.amsMapping, fx);
      assert ClaimAndExecute(seen, id, mt, fx).after == Settle(claimed, id, mt.serial, e.outcome);
  }

  /** One handled job: a PENDING job advances along the lifecycle, every other job is untouched. */
  lemma {:induction false} ProcessJobFollowsLifecycle(store: Store, id: int, printerOrder: seq<string>, m: Metric, fx: Effects)
    requires id in store.jobs ==> store.jobs[id].status == JobStatus.Pending
    ensures var r := ProcessJob(store, id, printerOrder, m, fx).after;
            forall j :: j in r.jobs ==> j in store.jobs && Advanced(store.jobs[j], r.jobs[j])
  {
    var r := ProcessJob(store, id, printerOrder, m, fx).after;
    if id in store.jobs && r != store {
      var job := store.jobs[id];
      var product := FindProduct(store.products, job.gcodePath).value;
      var mt := FindBestPrinter(m, Fleet(store, printerOrder), RequiredColours(product), product.requiredMaterial).value;
      var seen := Interfere(store, fx.interference);
      assert r == ClaimAndExecute(seen, id, mt, fx).after;
      if id in seen.jobs {
        HandlingFollowsLifecycle(seen, id, mt, fx);
      }
    }
  }

  /** The loop over distinct ids of PENDING jobs: each job advances at most once along the lifecycle. */
  lemma {:induction false} ProcessAllFollowsLifecycle(store: Store, ids: seq<int>, printerOrder: seq<string>, m: Metric,
                                                      env: int -> Effects)
    requires NoDuplicates(ids)
    requires forall id :: id in ids && id in store.jobs ==> store.jobs[id].status == JobStatus.Pending
    ensures var r := ProcessAll(store, ids, printerOrder, m, env).after;
            forall j :: j in r.jobs ==> j in store.jobs && Advanced(store.jobs[j], r.jobs[j])
    decreases |ids|
  {
    if |ids| > 0 {
      var first := ProcessJob(store, ids[0], printerOrder, m, env(ids[0])).after;
      ProcessJobFollowsLifecycle(store, ids[0], printerOrder, m, env(ids[0]));
      assert forall id :: id in ids[1..] ==> id in ids && id != ids[0];
      ProcessAllFollowsLifecycle(first, ids[1..], printerOrder, m, env);
      var r := ProcessAll(store, ids, printerOrder, m, env).after;
      assert r == ProcessAll(first, ids[1..], printerOrder, m, env).after;
      forall j | j in r.jobs
        ensures j in store.jobs && Advanced(store.jobs[j], r.jobs[j])
      {
        if j == ids[0] {
          assert j !in ids[1..];
        }
      }
    }
  }

  /**
   * A whole cycle over a table that lists each job once: every job either keeps its row or
   * was PENDING and went through UPLOADING to PRINTING or FAILED. No job is handled twice.
   */
  lemma CycleFollowsLifecycle(store: Store, jobOrder: seq<int>, printerOrder: seq<string>, m: Metric, env: int -> Effects)
    requires NoDuplicates(jobOrder)
    ensures var r := RunCycle(store, jobOrder, printerOrder, m, env).after;
            forall j :: j in r.jobs ==> j in store.jobs && Advanced(store.jobs[j], r.jobs[j])
  {
    ProcessAllFollowsLifecycle(store, PendingJobs(store, jobOrder), printerOrder, m, env);
  }

  // ---------------------------------------------------------------------------
  // One job per printer
  // ---------------------------------------------------------------------------

  /** Every UPLOADING or PRINTING job is assigned to a stored printer that is not IDLE. */
  ghost predicate ActiveJobsHoldPrinters(store: Store)
  {
    forall id :: id in store.jobs && store.jobs[id].status.IsActive() ==>
      var p := store.jobs[id].assignedPrinter;
      p.Some? && p.value in store.printers && store.printers[p.value].status != PrinterStatus.Idle
  }

  /** No printer is assigned to two UPLOADING or PRINTING jobs. */
  ghost predicate NoSharedPrinter(store: Store)
  {
    forall i, j :: i in store.jobs && j in store.jobs && i != j
      && store.jobs[i].status.IsActive() && store.jobs[j].status.IsActive()
      ==> store.jobs[i].assignedPrinter != store.jobs[j].assignedPrinter
  }

  ghost predicate OneJobPerPrinter(store: Store)
  {
    ActiveJobsHoldPrinters(store) && NoSharedPrinter(store)
  }

  /**
   * Another process's write keeps the invariant unless it reports IDLE a printer that an
   * active job is assigned to.
   */
  lemma InterfereKeepsInvariant(store: Store, w: ExternalWrite)
    requires OneJobPerPrinter(store) && HarmlessIn(store, w)
    ensures OneJobPerPrinter(Interfere(store, w))
  {
  }

  /**
   * The converse: an IDLE report on a printer an active job is assigned to, such as the
   * report of a print that has finished while its job is still PRINTING, breaks the invariant.
   */
  lemma IdleReportOnBusyPrinterBreaksInvariant(store: Store, id: int)
    requires id in store.jobs && store.jobs[id].status.IsActive() && store.jobs[id].assignedPrinter.Some?
    ensures var w := ReportStatus(store.jobs[id].assignedPrinter.value, PrinterStatus.Idle);
            !HarmlessIn(store, w) && !OneJobPerPrinter(Interfere(store, w))
  {
    var serial := store.jobs[id].assignedPrinter.value;
    var after := Interfere(store, ReportStatus(serial, PrinterStatus.Idle));
    assert after.jobs[id] == store.jobs[id];
  }

  /** The claim only takes an IDLE printer, which by the invariant holds no active job. */
  lemma ClaimKeepsInvariant(store: Store, id: int, serial: string)
    requires OneJobPerPrinter(store) && Claim(store, id, serial).Some?
    ensures OneJobPerPrinter(Claim(store, id, serial).value)
  {
    var s := Claim(store, id, serial).value;
    forall j | j in s.jobs && j != id && s.jobs[j].status.IsActive()
      ensures s.jobs[j].assignedPrinter != Some(serial)
    {
      assert s.jobs[j] == store.jobs[j];
    }
  }

  /** Settling the one active job of a printer keeps the invariant, on success and on failure. */
  lemma SettleKeepsInvariant(store: Store, id: int, serial: string, outcome: Outcome)
    requires OneJobPerPrinter(store)
    requires id in store.jobs && serial in store.printers
    requires store.jobs[id].status.IsActive() && store.jobs[id].assignedPrinter == Some(serial)
    ensures OneJobPerPrinter(Settle(store, id, serial, outcome))
  {
    var s := Settle(store, id, serial, outcome);
    forall j | j in s.jobs && j != id && s.jobs[j].status.IsActive()
      ensures s.jobs[j].assignedPrinter != Some(serial)
    {
      assert s.jobs[j] == store.jobs[j];
    }
  }

  /** The dispatcher's own writes for one matched job keep the invariant. */
  lemma ClaimAndExecuteKeepsInvariant(seen: Store, id: int, mt: Match, fx: Effects)
    requires OneJobPerPrinter(seen)
    ensures OneJobPerPrinter(ClaimAndExecute(seen, id, mt, fx).after)
  {
    match Claim(seen, id, mt.serial)
    case None =>
    case Some(claimed) =>
      ClaimKeepsInvariant(seen, id, mt.serial);
      var e := Execute(claimed.printers[mt.serial], mt.serial, claimed.jobs[id].gcodePath, mt.amsMapping, fx);
      SettleKeepsInvariant(claimed, id, mt.serial, e.outcome);
  }

  /** One handled job keeps the invariant when the write that lands meanwhile is harmless. */
  lemma ProcessJobKeepsInvariant(store: Store, id: int, printerOrder: seq<string>, m: Metric, fx: Effects)
    requires OneJobPerPrinter(store) && HarmlessIn(store, fx.interference)
    ensures OneJobPerPrinter(ProcessJob(store, id, printerOrder, m, fx).after)
  {
    if id in store.jobs {
      var job := store.jobs[id];
      match FindProduct(store.products, job.gcodePath)
      case None =>
      case Some(product) =>
        if product.requiredMaterial != "" {
          match FindBestPrinter(m, Fleet(store, printerOrder), RequiredColours(product), product.requiredMaterial)
          case None =>
          case Some(mt) =>
            InterfereKeepsInvariant(store, fx.interference);
            ClaimAndExecuteKeepsInvariant(Interfere(store, fx.interference), id, mt, fx);
        }
    }
  }

  /**
   * Every write of the loop over `ids` is harmless in the store it lands on: the store the
   * jobs handled before it left.
   */
  ghost predicate HarmlessRun(store: Store, ids: seq<int>, printerOrder: seq<string>, m: Metric, env: int -> Effects)
    decreases |ids|
  {
    |ids| == 0 ||
      (HarmlessIn(store, env(ids[0]).interference) &&
       HarmlessRun(ProcessJob(store, ids[0], printerOrder, m, env(ids[0])).after, ids[1..], printerOrder, m, env))
  }

  /** Writes that never report IDLE are harmless along any run. */
  lemma {:induction false} HarmlessWritesRun(store: Store, ids: seq<int>, printerOrder: seq<string>, m: Metric,
                                             env: int -> Effects)
    requires forall id :: id in ids ==> Harmless(env(id).interference)
    ensures HarmlessRun(store, ids, printerOrder, m, env)
    decreases |ids|
  {
    if |ids| > 0 {
      var id := ids[0];
      assert id in ids;
      assert Harmless(env(id).interference);
      HarmlessEverywhere(store, env(id).interference);
      assert forall id :: id in ids[1..] ==> id in ids;
      HarmlessWritesRun(ProcessJob(store, ids[0], printerOrder, m, env(ids[0])).after, ids[1..], printerOrder, m, env);
    }
  }

  /**
   * A whole cycle keeps the invariant: no printer ever ends up with two UPLOADING or
   * PRINTING jobs, provided no other process reports IDLE a printer that an active job
   * holds at the moment the report lands.
   */
  lemma {:induction false} ProcessAllKeepsInvariant(store: Store, ids: seq<int>, printerOrder: seq<string>, m: Metric,
                                                    env: int -> Effects)
    requires OneJobPerPrinter(store)
    requires HarmlessRun(store, ids, printerOrder, m, env)
    ensures OneJobPerPrinter(ProcessAll(store, ids, printerOrder, m, env).after)
    decreases |ids|
  {
    if |ids| > 0 {
      ProcessJobKeepsInvariant(store, ids[0], printerOrder, m, env(ids[0]));
      var first := ProcessJob(store, ids[0], printerOrder, m, env(ids[0])).after;
      ProcessAllKeepsInvariant(first, ids[1..], printerOrder, m, env);
    }
  }

  lemma CycleKeepsInvariant(store: Store, jobOrder: seq<int>, printerOrder: seq<string>, m: Metric, env: int -> Effects)
    requires OneJobPerPrinter(store)
    requires HarmlessRun(store, PendingJobs(store, jobOrder), printerOrder, m, env)
    ensures OneJobPerPrinter(RunCycle(store, jobOrder, printerOrder, m, env).after)
  {
    ProcessAllKeepsInvariant(store, PendingJobs(store, jobOrder), printerOrder, m, env);
  }

  /**
   * The dispatcher's own writes change a printer's status only from IDLE to PRINTING: a
   * printer whose claim fails is back at IDLE, every other printer is as it was.
   */
  lemma PrintingOnlyFromIdle(seen: Store, id: int, mt: Match, fx: Effects)
    ensures var after := ClaimAndExecute(seen, id, mt, fx).after;
            forall s :: s in seen.printers ==>
              || after.printers[s] == seen.printers[s]
              || (seen.printers[s].status == PrinterStatus.Idle && after.printers[s].status == PrinterStatus.Printing)
  {
  }

  // ---------------------------------------------------------------------------
  // The service loop
  // ---------------------------------------------------------------------------

  /** The dispatcher service: whether its loop goes on, and the store it works on. */
  datatype Service = Service(running: bool, store: Store)

  /** How one cycle ends: every pending job handled, or an exception after the first `k`. */
  datatype CycleEnd = Completed | FaultAfter(k: nat)

  function Start(svc: Service): (r: Service)
    ensures r.running && r.store == svc.store
  {
    svc.(running := true)
  }

  function Stop(svc: Service): (r: Service)
    ensures !r.running && r.store == svc.store
  {
    svc.(running := false)
  }

  /** The pending jobs a cycle gets through before it ends. */
  function Handled(pending: seq<int>, end: CycleEnd): (r: seq<int>)
    ensures end.Completed? ==> r == pending
    ensures end.FaultAfter? ==> |r| == if end.k < |pending| then end.k else |pending|
    ensures forall i :: 0 <= i < |r| ==> r[i] == pending[i]
  {
    match end
    case Completed => pending
    case FaultAfter(k) => if k < |pending| then pending[..k] else pending
  }

  /**
   * One turn of the loop: a stopped service does nothing; a running one runs a cycle. An
   * exception escaping the cycle is logged and the loop goes on: the commits made before
   * it stay, and the service keeps running.
   */
  function Tick(svc: Service, jobOrder: seq<int>, printerOrder: seq<string>, m: Metric,
                env: int -> Effects, end: CycleEnd): (r: Service)
    ensures r.running == svc.running
    ensures !svc.running ==> r == svc
    ensures r.store.jobs.Keys <= svc.store.jobs.Keys
  {
    if !svc.running then svc
    else
      var ids := Handled(PendingJobs(svc.store, jobOrder), end);
      Service(true, ProcessAll(svc.store, ids, printerOrder, m, env).after)
  }

  /** Once stopped, the loop leaves the store alone, however many turns pass. */
  lemma StoppedServiceIsInert(svc: Service, jobOrder: seq<int>, printerOrder: seq<string>, m: Metric,
                              env: int -> Effects, end: CycleEnd)
    ensures Tick(Stop(svc), jobOrder, printerOrder, m, env, end) == Stop(svc)
  {
  }

  /** A turn that completes is exactly one cycle. */
  lemma CompletedTickIsCycle(svc: Service, jobOrder: seq<int>, printerOrder: seq<string>, m: Metric, env: int -> Effects)
    requires svc.running
    ensures Tick(svc, jobOrder, printerOrder, m, env, Completed).store == RunCycle(svc.store, jobOrder, printerOrder, m, env).after
  {
  }

  /** The jobs a turn handles come from the pending list, and repeat none when it repeats none. */
  lemma HandledPrefixFacts(pending: seq<int>, end: CycleEnd)
    ensures forall id :: id in Handled(pending, end) ==> id in pending
    ensures NoDuplicates(pending) ==> NoDuplicates(Handled(pending, end))
  {
    var ids := Handled(pending, end);
    forall id | id in ids ensures id in pending {
      var i :| 0 <= i < |ids| && ids[i] == id;
      assert pending[i] == id;
    }
    if NoDuplicates(pending) {
      forall i, j | 0 <= i < j < |ids| ensures ids[i] != ids[j] {
        assert ids[i] == pending[i] && ids[j] == pending[j];
      }
    }
  }

  /** Every turn, faulted or not, keeps the one-job-per-printer invariant and the job lifecycle. */
  lemma {:induction false} TickKeepsInvariant(svc: Service, jobOrder: seq<int>, printerOrder: seq<string>, m: Metric,
                                              env: int -> Effects, end: CycleEnd)
    requires OneJobPerPrinter(svc.store) && NoDuplicates(jobOrder)
    requires HarmlessRun(svc.store, Handled(PendingJobs(svc.store, jobOrder), end), printerOrder, m, env)
    ensures var r := Tick(svc, jobOrder, printerOrder, m, env, end);
            && OneJobPerPrinter(r.store)
            && forall j :: j in r.store.jobs ==> j in svc.store.jobs && Advanced(svc.store.jobs[j], r.store.jobs[j])
  {
    if svc.running {
      var pending := PendingJobs(svc.store, jobOrder);
      var ids := Handled(pending, end);
      HandledPrefixFacts(pending, end);
      ProcessAllKeepsInvariant(svc.store, ids, printerOrder, m, env);
      ProcessAllFollowsLifecycle(svc.store, ids, printerOrder, m, env);
    }
  }
}

=== FILE: filament_manager.dfy ===
/**
 * Colour-aware resource matching: parsing tray and product colours, the colour-distance
 * contract (the CIEDE2000 numerics themselves are an opaque metric over parsed colours),
 * the hue arithmetic of CIEDE2000 that is plain real arithmetic, and the first-fit search
 * for an idle printer that holds the required material in every required colour.
 */
module FilamentManager {
  import opened Wrappers
  import opened Text
  import opened Core
  import opened Counting

  /** A colour as three channel values; a parsed colour has every channel below 256. */
  datatype Rgb = Rgb(red: nat, green: nat, blue: nat) {
    predicate IsBytes()
    {
      red < 256 && green < 256 && blue < 256
    }
  }

  /**
   * The perceptual distance between two parsed colours: the sRGB decoding of section 5.2
   * of IEC 61966-2-1, CIELAB of section 8.2.1 of CIE 15:2004 and CIEDE2000 of section 8.3
   * of CIE 15:2004, all in floating point and not modelled here.
   */
  type Metric = (Rgb, Rgb) -> real

  /** What CIEDE2000 with kL = kC = kH = 1 guarantees of any two colours. */
  ghost predicate IsColourMetric(m: Metric)
  {
    && (forall x, y :: m(x, y) == m(y, x))
    && (forall x :: m(x, x) == 0.0)
    && (forall x, y :: m(x, y) >= 0.0)
  }

  /** The distance reported for a colour that does not parse: it never matches. */
  const ParseFailureDistance: real := 100.0

  /** A slot matches a required colour only when its distance is strictly below this. */
  const MatchTolerance: real := 5.0

  function Min(a: int, b: int): int
  {
    if a <= b then a else b
  }

  // ---------------------------------------------------------------------------
  // Hex colour parsing
  // ---------------------------------------------------------------------------

  /** The digits that get parsed: leading `#`s removed and, for eight digits, the alpha pair. */
  function StripColour(hex: string): (t: string)
    ensures |t| != 8
  {
    var s := LStrip(hex, '#');
    if |s| == 8 then s[..6] else s
  }

  /** Python's `t[i:i+2]`: at most two characters, fewer near the end of `t`. */
  function Piece(t: string, i: nat): (p: string)
    ensures |p| <= 2
    ensures |p| == Min(i + 2, |t|) - Min(i, |t|)
  {
    t[Min(i, |t|)..Min(i + 2, |t|)]
  }

  /** `int(piece, 16)` for a piece of at most two characters. */
  function ParseByte(piece: string): (r: Option<nat>)
    requires |piece| <= 2
    ensures r.Some? <==> 0 < |piece| && AllHexDigits(piece)
    ensures r.Some? ==> r.value < 256
    ensures r.Some? && |piece| == 1 ==> r.value < 16 && [HexDigit(r.value)] == Upper(piece)
    ensures r.Some? && |piece| == 2 ==> [HexDigit(r.value / 16), HexDigit(r.value % 16)] == Upper(piece)
  {
    if |piece| == 0 || !AllHexDigits(piece) then None
    else
      HexDigitOfValue(piece[0]);
      if |piece| == 1 then Some(HexValue(piece[0]))
      else
        HexDigitOfValue(piece[1]);
        PairValue(HexValue(piece[0]), HexValue(piece[1]));
        assert Upper(piece) == [UpperChar(piece[0]), UpperChar(piece[1])];
        Some(16 * HexValue(piece[0]) + HexValue(piece[1]))
  }

  /** A pair of digit values gives them back as the quotient and remainder by 16. */
  lemma PairValue(hi: nat, lo: nat)
    requires hi < 16 && lo < 16
    ensures (16 * hi + lo) / 16 == hi && (16 * hi + lo) % 16 == lo
  {
  }

  /**
   * When a colour parses: at least five digits remain once `#`s and alpha are stripped, and
   * the first six of them (or all five) are hexadecimal.
   */
  predicate ParsesAsColour(hex: string)
  {
    var t := StripColour(hex);
    |t| >= 5 && forall i :: 0 <= i < |t| && i < 6 ==> IsHexDigit(t[i])
  }

  /** The three pieces parse exactly when `ParsesAsColour` says so. */
  lemma PiecesParse(t: string)
    ensures (ParseByte(Piece(t, 0)).Some? && ParseByte(Piece(t, 2)).Some? && ParseByte(Piece(t, 4)).Some?)
            <==> (|t| >= 5 && forall i :: 0 <= i < |t| && i < 6 ==> IsHexDigit(t[i]))
  {
    var p0, p1, p2 := Piece(t, 0), Piece(t, 2), Piece(t, 4);
    if |t| >= 5 {
      assert |p0| == 2 && |p1| == 2 && 1 <= |p2| <= 2;
      assert forall i :: 0 <= i < 2 ==> p0[i] == t[i];
      assert forall i :: 0 <= i < 2 ==> p1[i] == t[2 + i];
      assert forall i :: 0 <= i < |p2| ==> p2[i] == t[4 + i];
      if !(forall i :: 0 <= i < |t| && i < 6 ==> IsHexDigit(t[i])) {
        var i :| 0 <= i < |t| && i < 6 && !IsHexDigit(t[i]);
        if i < 2 {
          assert !IsHexDigit(p0[i]);
        } else if i < 4 {
          assert !IsHexDigit(p1[i - 2]);
        } else {
          assert !IsHexDigit(p2[i - 4]);
        }
      }
    } else {
      assert |p2| == 0;
    }
  }

  /** `_hex_to_rgb`: three byte pairs read from the stripped digits, or a parse failure. */
  function HexToRgb(hex: string): (r: Option<Rgb>)
    ensures r.Some? <==> ParsesAsColour(hex)
    ensures r.Some? ==> r.value.IsBytes()
  {
    var t := StripColour(hex);
    PiecesParse(t);
    match (ParseByte(Piece(t, 0)), ParseByte(Piece(t, 2)), ParseByte(Piece(t, 4)))
    case (Some(r), Some(g), Some(b)) => Some(Rgb(r, g, b))
    case _ => None
  }

  /** The six upper-case digits `RRGGBB` of a colour. */
  function ToHex(c: Rgb): (s: string)
    requires c.IsBytes()
    ensures |s| == 6 && AllHexDigits(s)
  {
    [HexDigit(c.red / 16), HexDigit(c.red % 16),
     HexDigit(c.green / 16), HexDigit(c.green % 16),
     HexDigit(c.blue / 16), HexDigit(c.blue % 16)]
  }

  lemma {:induction false} LStripHashes(hashes: string, rest: string)
    requires forall i :: 0 <= i < |hashes| ==> hashes[i] == '#'
    requires |rest| > 0 && rest[0] != '#'
    ensures LStrip(hashes + rest, '#') == rest
    decreases |hashes|
  {
    if |hashes| > 0 {
      assert (hashes + rest)[1..] == hashes[1..] + rest;
      LStripHashes(hashes[1..], rest);
    } else {
      assert hashes + rest == rest;
    }
  }

  lemma ByteRoundTrip(v: nat)
    requires v < 256
    ensures ParseByte([HexDigit(v / 16), HexDigit(v % 16)]) == Some(v)
  {
  }

  /**
   * The parser reads the first six digits after the leading `#`s and nothing else: any
   * number of `#`s before, and an alpha pair or any other tail after, leave the colour as is.
   */
  lemma {:induction false} ParseReadsFirstSixDigits(c: Rgb, hashes: string, tail: string)
    requires c.IsBytes()
    requires forall i :: 0 <= i < |hashes| ==> hashes[i] == '#'
    ensures HexToRgb(hashes + ToHex(c) + tail) == Some(c)
  {
    var x := ToHex(c);
    assert IsHexDigit(x[0]);
    StripKeepsFirstSix(hashes, x, tail);
    var t := StripColour(hashes + x + tail);
    PiecesOfFirstSix(t, x);
    assert Piece(x, 0) == [HexDigit(c.red / 16), HexDigit(c.red % 16)];
    assert Piece(x, 2) == [HexDigit(c.green / 16), HexDigit(c.green % 16)];
    assert Piece(x, 4) == [HexDigit(c.blue / 16), HexDigit(c.blue % 16)];
    ByteRoundTrip(c.red);
    ByteRoundTrip(c.green);
    ByteRoundTrip(c.blue);
  }

  /** Stripping the `#`s (and an alpha pair) keeps the first six characters after them. */
  lemma {:induction false} StripKeepsFirstSix(hashes: string, x: string, tail: string)
    requires |x| == 6 && x[0] != '#'
    requires forall i :: 0 <= i < |hashes| ==> hashes[i] == '#'
    ensures var t := StripColour(hashes + x + tail); |t| >= 6 && t[..6] == x
  {
    assert hashes + x + tail == hashes + (x + tail);
    LStripHashes(hashes, x + tail);
  }

  /** The three pieces lie within the first six characters. */
  lemma PiecesOfFirstSix(t: string, x: string)
    requires |x| == 6 && |t| >= 6 && t[..6] == x
    ensures Piece(t, 0) == Piece(x, 0) && Piece(t, 2) == Piece(x, 2) && Piece(t, 4) == Piece(x, 4)
  {
    assert Piece(t, 0) == t[0..2] == x[0..2];
    assert Piece(t, 2) == t[2..4] == x[2..4];
    assert Piece(t, 4) == t[4..6] == x[4..6];
  }

  /**
   * Only six characters matter: once the leading `#`s are gone, a colour of six or more
   * characters parses as its first six do, whatever follows them.
   */
  lemma {:induction false} ParseSeesFirstSix(hashes: string, x: string, tail: string)
    requires |x| == 6 && x[0] != '#'
    requires forall i :: 0 <= i < |hashes| ==> hashes[i] == '#'
    ensures HexToRgb(hashes + x + tail) == HexToRgb(x)
  {
    StripKeepsFirstSix(hashes, x, tail);
    StripKeepsFirstSix("", x, "");
    assert "" + x + "" == x;
    PiecesOfFirstSix(StripColour(hashes + x + tail), x);
    PiecesOfFirstSix(StripColour(x), x);
  }

  /**
   * The other direction of the round trip: any six hexadecimal digits, in either case,
   * parse to the colour whose upper-case digits they are, whatever `#`s come before and
   * whatever tail follows them.
   */
  lemma {:induction false} ParseReadsAnySixDigits(hashes: string, x: string, tail: string)
    requires |x| == 6 && AllHexDigits(x)
    requires forall i :: 0 <= i < |hashes| ==> hashes[i] == '#'
    ensures HexToRgb(hashes + x + tail).Some?
    ensures ToHex(HexToRgb(hashes + x + tail).value) == Upper(x)
  {
    assert IsHexDigit(x[0]);
    ParseSeesFirstSix(hashes, x, tail);
    SixDigitsParse(x);
  }

  lemma SixDigitsParse(x: string)
    requires |x| == 6 && AllHexDigits(x)
    ensures HexToRgb(x).Some?
    ensures ToHex(HexToRgb(x).value) == Upper(x)
  {
    assert LStrip(x, '#') == x by { assert IsHexDigit(x[0]); }
    assert StripColour(x) == x;
    PairParses(x, 0);
    PairParses(x, 2);
    PairParses(x, 4);
    PiecesParse(x);
    var c := HexToRgb(x).value;
    assert c == Rgb(ParseByte(Piece(x, 0)).value, ParseByte(Piece(x, 2)).value, ParseByte(Piece(x, 4)).value);
    var h := ToHex(c);
    assert forall k :: 0 <= k < 6 ==> h[k] == Upper(x)[k];
  }

  /** One pair of digits parses to the byte whose upper-case digits it is. */
  lemma PairParses(x: string, i: nat)
    requires i + 2 <= |x| && AllHexDigits(x)
    ensures ParseByte(Piece(x, i)).Some?
    ensures var v := ParseByte(Piece(x, i)).value;
            HexDigit(v / 16) == UpperChar(x[i]) && HexDigit(v % 16) == UpperChar(x[i + 1])
  {
    var p := Piece(x, i);
    assert p == x[i..i + 2];
    assert AllHexDigits(p);
    assert Upper(p)[0] == UpperChar(x[i]) && Upper(p)[1] == UpperChar(x[i + 1]);
  }

  /**
   * A five-digit colour parses too: the first two pairs give red and green, and the lone
   * fifth digit gives a blue below 16.
   */
  lemma {:induction false} FiveDigitColour(hashes: string, x: string)
    requires |x| == 5 && AllHexDigits(x)
    requires forall i :: 0 <= i < |hashes| ==> hashes[i] == '#'
    ensures HexToRgb(hashes + x).Some?
    ensures var c := HexToRgb(hashes + x).value;
            && c.blue < 16
            && ToHex(c)[..4] == Upper(x[..4])
            && [HexDigit(c.blue)] == Upper(x[4..])
  {
    assert IsHexDigit(x[0]);
    LStripHashes(hashes, x);
    assert StripColour(hashes + x) == x;
    FirstFourDigitsParse(x);
    LoneFifthDigitParses(x);
    PiecesParse(x);
    var c := HexToRgb(hashes + x).value;
    assert c == Rgb(ParseByte(Piece(x, 0)).value, ParseByte(Piece(x, 2)).value, ParseByte(Piece(x, 4)).value);
  }

  /** The first two pairs of a five-digit colour parse to the bytes whose upper-case digits they are. */
  lemma FirstFourDigitsParse(x: string)
    requires |x| == 5 && AllHexDigits(x)
    ensures ParseByte(Piece(x, 0)).Some? && ParseByte(Piece(x, 2)).Some?
    ensures var r, g := ParseByte(Piece(x, 0)).value, ParseByte(Piece(x, 2)).value;
            [HexDigit(r / 16), HexDigit(r % 16), HexDigit(g / 16), HexDigit(g % 16)] == Upper(x[..4])
  {
    PairParses(x, 0);
    PairParses(x, 2);
    var r, g := ParseByte(Piece(x, 0)).value, ParseByte(Piece(x, 2)).value;
    var h := [HexDigit(r / 16), HexDigit(r % 16), HexDigit(g / 16), HexDigit(g % 16)];
    assert forall k :: 0 <= k < 4 ==> h[k] == Upper(x[..4])[k];
  }

  /** The fifth digit of a five-digit colour is a piece of its own, a value below 16. */
  lemma LoneFifthDigitParses(x: string)
    requires |x| == 5 && AllHexDigits(x)
    ensures ParseByte(Piece(x, 4)).Some?
    ensures var b := ParseByte(Piece(x, 4)).value;
            b < 16 && [HexDigit(b)] == Upper(x[4..])
  {
    assert Piece(x, 4) == x[4..];
    assert IsHexDigit(x[4]);
  }

  /** The scenario pair: `#FF0000` and the alpha-carrying `FF0000FF` are the same red. */
  lemma AlphaIsIgnored()
    ensures HexToRgb("#FF0000") == HexToRgb("FF0000FF") == Some(Rgb(255, 0, 0))
  {
    var red := Rgb(255, 0, 0);
    assert HexDigit(15) == 'F' && HexDigit(0) == '0';
    var x := ToHex(red);
    assert x == "FF0000";
    assert "#" + x + "" == "#FF0000";
    assert "" + x + "FF" == "FF0000FF";
    ParseReadsFirstSixDigits(red, "#", "");
    ParseReadsFirstSixDigits(red, "", "FF");
  }

  /** Two colours written with the same digits are the same colour. */
  lemma ToHexInjective(a: Rgb, b: Rgb)
    requires a.IsBytes() && b.IsBytes() && ToHex(a) == ToHex(b)
    ensures a == b
  {
    assert "" + ToHex(a) + "" == ToHex(a);
    ParseReadsFirstSixDigits(a, "", "");
    ParseReadsFirstSixDigits(b, "", "");
  }

  /** A colour picker's lower-case `#ff0000` is the firmware's red. */
  lemma PickerRedIsRed()
    ensures HexToRgb("#ff0000") == Some(Rgb(255, 0, 0))
  {
    var x := "ff0000";
    assert "#" + x + "" == "#ff0000";
    assert AllHexDigits(x);
    ParseReadsAnySixDigits("#", x, "");
    PickerRedUpperCased();
    RedIsWrittenFF0000();
    ToHexInjective(HexToRgb("#ff0000").value, Rgb(255, 0, 0));
  }

  /** The picker's digits, upper-cased. */
  lemma PickerRedUpperCased()
    ensures Upper("ff0000") == "FF0000"
  {
    assert UpperChar('f') == 'F' && UpperChar('0') == '0';
    var u := Upper("ff0000");
    assert u[0] == 'F' && u[1] == 'F' && u[2] == '0' && u[3] == '0' && u[4] == '0' && u[5] == '0';
  }

  /** Pure red is written `FF0000`. */
  lemma RedIsWrittenFF0000()
    ensures ToHex(Rgb(255, 0, 0)) == "FF0000"
  {
    assert HexDigit(15) == 'F' && HexDigit(0) == '0';
  }

  /** A slot loaded blue, as the firmware writes it without alpha. */
  lemma BlueParses()
    ensures HexToRgb("0000FF") == Some(Rgb(0, 0, 255))
  {
    var blue := Rgb(0, 0, 255);
    assert HexDigit(15) == 'F' && HexDigit(0) == '0';
    var x := ToHex(blue);
    assert x == "0000FF";
    assert "" + x + "" == "0000FF";
    ParseReadsFirstSixDigits(blue, "", "");
  }

  /** Colour names and short codes are not colours. */
  lemma NamesDoNotParse()
    ensures HexToRgb("red").None?
    ensures HexToRgb("#F00").None?
    ensures HexToRgb("").None?
  {
    assert LStrip("red", '#') == "red";
    assert LStrip("#F00", '#') == LStrip("F00", '#') == "F00";
  }

  // ---------------------------------------------------------------------------
  // Colour distance
  // ---------------------------------------------------------------------------

  /**
   * `calculate_delta_e(a, b)`: the metric of the parsed colours, or exactly 100.0 when
   * either colour fails to parse (the error is swallowed, never raised).
   */
  function DeltaE(m: Metric, a: string, b: string): (d: real)
    ensures !ParsesAsColour(a) || !ParsesAsColour(b) ==> d == ParseFailureDistance
    ensures ParsesAsColour(a) && ParsesAsColour(b) ==> d == m(HexToRgb(a).value, HexToRgb(b).value)
  {
    match (HexToRgb(a), HexToRgb(b))
    case (Some(x), Some(y)) => m(x, y)
    case _ => ParseFailureDistance
  }

  /** The distance does not depend on the order of its arguments. */
  lemma DeltaESymmetric(m: Metric, a: string, b: string)
    requires IsColourMetric(m)
    ensures DeltaE(m, a, b) == DeltaE(m, b, a)
  {
  }

  /** Two colours that parse to the same channels are at distance zero. */
  lemma DeltaEOfSameColour(m: Metric, a: string, b: string)
    requires IsColourMetric(m)
    requires ParsesAsColour(a) && HexToRgb(a) == HexToRgb(b)
    ensures DeltaE(m, a, b) == 0.0
  {
  }

  /** Every distance is zero or more, whether or not the colours parse. */
  lemma DeltaENonNegative(m: Metric, a: string, b: string)
    requires IsColourMetric(m)
    ensures DeltaE(m, a, b) >= 0.0
  {
  }

  // ---------------------------------------------------------------------------
  // CIEDE2000 hue arithmetic
  // ---------------------------------------------------------------------------

  /**
   * The hue difference h2' - h1' brought into [-180, 180] by one turn, or 0 when either
   * chroma is zero (a grey has no hue).
   */
  function HueDifference(h1: real, h2: real, c1: real, c2: real): (dh: real)
    ensures c1 * c2 == 0.0 ==> dh == 0.0
    ensures c1 * c2 != 0.0 ==> dh == h2 - h1 || dh == h2 - h1 - 360.0 || dh == h2 - h1 + 360.0
  {
    if c1 * c2 != 0.0 then
      var diff := h2 - h1;
      if -180.0 <= diff <= 180.0 then diff
      else if diff > 180.0 then diff - 360.0
      else diff + 360.0
    else 0.0
  }

  /** For hues on [0, 360) the normalised difference lies on [-180, 180]. */
  lemma HueDifferenceBounded(h1: real, h2: real, c1: real, c2: real)
    requires 0.0 <= h1 < 360.0 && 0.0 <= h2 < 360.0
    ensures -180.0 <= HueDifference(h1, h2, c1, c2) <= 180.0
  {
  }

  /** Swapping the two colours negates the hue difference. */
  lemma HueDifferenceAntisymmetric(h1: real, h2: real, c1: real, c2: real)
    ensures HueDifference(h2, h1, c2, c1) == -HueDifference(h1, h2, c1, c2)
  {
  }

  /**
   * The mean hue h-bar': the plain mean when the hues are within half a turn, otherwise
   * the mean taken the short way round; the plain sum when either chroma is zero.
   */
  function MeanHue(h1: real, h2: real, c1: real, c2: real): (h: real)
    ensures c1 * c2 == 0.0 ==> h == h1 + h2
    ensures c1 * c2 != 0.0 ==> 2.0 * h == h1 + h2 || 2.0 * h == h1 + h2 + 360.0 || 2.0 * h == h1 + h2 - 360.0
  {
    var sum := h1 + h2;
    var gap := if h1 - h2 >= 0.0 then h1 - h2 else h2 - h1;
    if c1 * c2 != 0.0 then
      if gap <= 180.0 then sum / 2.0
      else if sum < 360.0 then (sum + 360.0) / 2.0
      else (sum - 360.0) / 2.0
    else sum
  }

  /** The mean hue is symmetric, and for two chromatic colours it is again a hue on [0, 360). */
  lemma MeanHueProperties(h1: real, h2: real, c1: real, c2: real)
    requires 0.0 <= h1 < 360.0 && 0.0 <= h2 < 360.0
    ensures MeanHue(h1, h2, c1, c2) == MeanHue(h2, h1, c2, c1)
    ensures c1 * c2 != 0.0 ==> 0.0 <= MeanHue(h1, h2, c1, c2) < 360.0
  {
  }

  // ---------------------------------------------------------------------------
  // Slot selection
  // ---------------------------------------------------------------------------

  /** An idle-printer query result row: a printer with its AMS slots, in slot order. */
  datatype FleetPrinter = FleetPrinter(printer: Printer, slots: seq<AmsSlot>)

  /** The outcome of a successful match: the printer and one flat slot index per colour. */
  datatype Match = Match(serial: string, amsMapping: seq<int>)

  /** A slot holding the required material (ignoring case) with a known colour. */
  predicate IsValidSlot(s: AmsSlot, material: string)
  {
    Truthy(s.trayType) && EqualsIgnoringCase(s.trayType.value, material) && Truthy(s.trayColor)
  }

  function SlotColour(s: AmsSlot): string
  {
    s.trayColor.GetOr("")
  }

  /** The test for a slot that can serve `material`. */
  function Serves(material: string): AmsSlot -> bool
  {
    (s: AmsSlot) => IsValidSlot(s, material)
  }

  /** The slots a printer offers for `material`: every valid one, in their original order. */
  function ValidSlots(slots: seq<AmsSlot>, material: string): (r: seq<AmsSlot>)
    ensures |r| <= |slots|
    ensures forall s :: s in r <==> s in slots && IsValidSlot(s, material)
    ensures |r| == CountWhere(slots, Serves(material))
    ensures IsSubsequence(r, slots)
  {
    if |slots| == 0 then []
    else
      var rest := ValidSlots(slots[1..], material);
      assert forall s :: s in slots <==> s == slots[0] || s in slots[1..];
      if IsValidSlot(slots[0], material) then
        assert ([slots[0]] + rest)[1..] == rest;
        [slots[0]] + rest
      else
        assert |rest| > 0 ==> rest[0] in rest && rest[0] != slots[0];
        rest
  }

  /** The distance from `colour` to each slot's colour, slot by slot. */
  function Distances(m: Metric, colour: string, slots: seq<AmsSlot>): (ds: seq<real>)
    ensures |ds| == |slots|
    ensures forall k :: 0 <= k < |slots| ==> ds[k] == DeltaE(m, colour, SlotColour(slots[k]))
  {
    seq(|slots|, k requires 0 <= k < |slots| => DeltaE(m, colour, SlotColour(slots[k])))
  }

  /**
   * `k` is the first position of the smallest distance and that distance is within
   * tolerance; `None` means no distance is within tolerance.
   */
  ghost predicate IsFirstBest(ds: seq<real>, r: Option<nat>)
  {
    match r
    case None => forall j :: 0 <= j < |ds| ==> ds[j] >= MatchTolerance
    case Some(k) =>
      && k < |ds|
      && ds[k] < MatchTolerance
      && (forall j :: 0 <= j < |ds| ==> ds[k] <= ds[j])
      && (forall j :: 0 <= j < k ==> ds[k] < ds[j])
  }

  /** At most one answer is the first best: the search result is fully determined. */
  lemma FirstBestIsUnique(ds: seq<real>, r1: Option<nat>, r2: Option<nat>)
    requires IsFirstBest(ds, r1) && IsFirstBest(ds, r2)
    ensures r1 == r2
  {
  }

  /** What holds after the inner loop has looked at the first `i` slots. */
  ghost predicate ScanInvariant(ds: seq<real>, i: nat, best: Option<nat>, minDelta: real)
  {
    && i <= |ds|
    && match best
       case None =>
         minDelta == MatchTolerance && forall j :: 0 <= j < i ==> ds[j] >= MatchTolerance
       case Some(k) =>
         && k < i
         && minDelta == ds[k]
         && minDelta < MatchTolerance
         && (forall j :: 0 <= j < i ==> minDelta <= ds[j])
         && (forall j :: 0 <= j < k ==> minDelta < ds[j])
  }

  /** The inner loop from slot `i` on: a strictly smaller distance replaces the best so far. */
  function Scan(ds: seq<real>, i: nat, best: Option<nat>, minDelta: real): (r: Option<nat>)
    requires ScanInvariant(ds, i, best, minDelta)
    ensures IsFirstBest(ds, r)
    decreases |ds| - i
  {
    if i == |ds| then best
    else if ds[i] < minDelta then Scan(ds, i + 1, Some(i), ds[i])
    else Scan(ds, i + 1, best, minDelta)
  }

  /** The slot chosen for one colour: the loop starts with no slot and a bound of 5.0. */
  function BestSlot(ds: seq<real>): (r: Option<nat>)
    ensures IsFirstBest(ds, r)
  {
    Scan(ds, 0, None, MatchTolerance)
  }

  /** The position, among `valid`, of the slot chosen for `colour`. */
  function ChosenSlot(m: Metric, valid: seq<AmsSlot>, colour: string): (r: Option<nat>)
    ensures r.Some? ==> r.value < |valid|
  {
    BestSlot(Distances(m, colour, valid))
  }

  /** The chosen slot is the first closest one, within tolerance, or there is none. */
  lemma ChosenSlotIsFirstBest(m: Metric, valid: seq<AmsSlot>, colour: string)
    ensures IsFirstBest(Distances(m, colour, valid), ChosenSlot(m, valid, colour))
  {
  }

  /**
   * The colour loop: one flat slot index per required colour, in colour order, or `None`
   * as soon as some colour has no slot within tolerance. A slot may serve several colours.
   */
  function MapColours(m: Metric, valid: seq<AmsSlot>, colours: seq<string>): (r: Option<seq<int>>)
    ensures r.Some? <==> forall i :: 0 <= i < |colours| ==> ChosenSlot(m, valid, colours[i]).Some?
    ensures r.Some? ==> |r.value| == |colours|
    ensures r.Some? ==> forall i :: 0 <= i < |colours| ==>
              r.value[i] == valid[ChosenSlot(m, valid, colours[i]).value].FlatIndex()
  {
    MapColoursFrom(c => ChosenSlot(m, valid, c), valid, colours, 0)
  }

  /**
   * The colour loop from colour `i` on, for any way `choose` of picking a slot among
   * `valid` for one colour.
   */
  function MapColoursFrom(choose: string -> Option<nat>, valid: seq<AmsSlot>, colours: seq<string>, i: nat): (r: Option<seq<int>>)
    requires i <= |colours|
    requires forall c :: choose(c).Some? ==> choose(c).value < |valid|
    ensures r.Some? <==> forall k :: i <= k < |colours| ==> choose(colours[k]).Some?
    ensures r.Some? ==> |r.value| == |colours| - i
    ensures r.Some? ==> forall k :: i <= k < |colours| ==>
              r.value[k - i] == valid[choose(colours[k]).value].FlatIndex()
    decreases |colours| - i
  {
    if i == |colours| then Some([])
    else
      var head := choose(colours[i]);
      var tail := MapColoursFrom(choose, valid, colours, i + 1);
      if head.None? || tail.None? then None
      else Some([valid[head.value].FlatIndex()] + tail.value)
  }

  /**
   * One printer of the outer loop: skipped without slots or with fewer valid slots than
   * colours, otherwise the colour loop over its valid slots.
   */
  function MatchPrinter(m: Metric, fp: FleetPrinter, colours: seq<string>, material: string): (r: Option<seq<int>>)
    ensures r.Some? <==>
              && |fp.slots| > 0
              && |ValidSlots(fp.slots, material)| >= |colours|
              && MapColours(m, ValidSlots(fp.slots, material), colours).Some?
    ensures r.Some? ==> r == MapColours(m, ValidSlots(fp.slots, material), colours)
  {
    if |fp.slots| == 0 then None
    else
      var valid := ValidSlots(fp.slots, material);
      if |valid| < |colours| then None
      else MapColours(m, valid, colours)
  }

  /** A printer the matcher accepts: idle, and every colour mapped. */
  predicate Accepts(m: Metric, fp: FleetPrinter, colours: seq<string>, material: string)
  {
    fp.printer.status == PrinterStatus.Idle && MatchPrinter(m, fp, colours, material).Some?
  }

  /** The first position at or after `from` that holds `true`. */
  function FirstTrueFrom(bs: seq<bool>, from: nat): (r: Option<nat>)
    requires from <= |bs|
    ensures r.Some? ==> from <= r.value < |bs| && bs[r.value]
    ensures r.Some? ==> forall j :: from <= j < r.value ==> !bs[j]
    ensures r.None? ==> forall j :: from <= j < |bs| ==> !bs[j]
    decreases |bs| - from
  {
    if from == |bs| then None
    else if bs[from] then Some(from)
    else FirstTrueFrom(bs, from + 1)
  }

  /** Which printers of the fleet the matcher would accept, printer by printer. */
  function Acceptance(m: Metric, fleet: seq<FleetPrinter>, colours: seq<string>, material: string): (bs: seq<bool>)
    ensures |bs| == |fleet|
    ensures forall j :: 0 <= j < |fleet| ==> bs[j] == Accepts(m, fleet[j], colours, material)
  {
    seq(|fleet|, j requires 0 <= j < |fleet| => Accepts(m, fleet[j], colours, material))
  }

  /**
   * `find_best_printer_for_job`: the first idle printer, in fleet order, that maps every
   * required colour, with its slot mapping; `None` when there is none.
   */
  function FindBestPrinter(m: Metric, fleet: seq<FleetPrinter>, colours: seq<string>, material: string): (r: Option<Match>)
    ensures r.None? <==> forall j :: 0 <= j < |fleet| ==> !Accepts(m, fleet[j], colours, material)
    ensures r.Some? ==> exists k :: 0 <= k < |fleet| && IsFirstFit(m, fleet, colours, material, k, r.value)
  {
    var bs := Acceptance(m, fleet, colours, material);
    match FirstTrueFrom(bs, 0)
    case None => None
    case Some(k) =>
      var mt := Match(fleet[k].printer.serial, MatchPrinter(m, fleet[k], colours, material).value);
      assert IsFirstFit(m, fleet, colours, material, k, mt);
      Some(mt)
  }

  /** `mt` is what accepting printer `k` yields, and no earlier printer is accepted. */
  ghost predicate IsFirstFit(m: Metric, fleet: seq<FleetPrinter>, colours: seq<string>, material: string, k: nat, mt: Match)
  {
    && k < |fleet|
    && Accepts(m, fleet[k], colours, material)
    && (forall j :: 0 <= j < k ==> !Accepts(m, fleet[j], colours, material))
    && mt.serial == fleet[k].printer.serial
    && Some(mt.amsMapping) == MatchPrinter(m, fleet[k], colours, material)
  }

  /**
   * Whatever the matcher returns is sound: an idle printer of the fleet, and for every
   * required colour a slot of that printer holding the material (ignoring case) whose
   * distance to the colour is below 5.0 and whose flat index is the mapping entry.
   */
  lemma {:induction false} MatchIsSound(m: Metric, fleet: seq<FleetPrinter>, colours: seq<string>, material: string)
    requires FindBestPrinter(m, fleet, colours, material).Some?
    ensures var mt := FindBestPrinter(m, fleet, colours, material).value;
      && |mt.amsMapping| == |colours|
      && exists k :: 0 <= k < |fleet|
           && fleet[k].printer.serial == mt.serial
           && fleet[k].printer.status == PrinterStatus.Idle
           && forall i :: 0 <= i < |colours| ==>
                exists s :: s in fleet[k].slots
                  && IsValidSlot(s, material)
                  && s.FlatIndex() == mt.amsMapping[i]
                  && DeltaE(m, colours[i], SlotColour(s)) < MatchTolerance
  {
    var mt := FindBestPrinter(m, fleet, colours, material).value;
    var k :| 0 <= k < |fleet| && IsFirstFit(m, fleet, colours, material, k, mt);
    var valid := ValidSlots(fleet[k].slots, material);
    forall i | 0 <= i < |colours|
      ensures exists s :: s in fleet[k].slots
                && IsValidSlot(s, material)
                && s.FlatIndex() == mt.amsMapping[i]
                && DeltaE(m, colours[i], SlotColour(s)) < MatchTolerance
    {
      ChosenSlotIsFirstBest(m, valid, colours[i]);
      var c := ChosenSlot(m, valid, colours[i]).value;
      var ds := Distances(m, colours[i], valid);
      assert ds[c] < MatchTolerance;
      assert valid[c] in valid;
    }
  }

  /**
   * With no required colour, the first idle printer that has any slot at all wins with an
   * empty mapping, whether or not any slot holds the material.
   */
  lemma {:induction false} NoColoursMatchesFirstIdleWithSlots(m: Metric, fleet: seq<FleetPrinter>, material: string, k: nat)
    requires k < |fleet|
    requires fleet[k].printer.status == PrinterStatus.Idle && |fleet[k].slots| > 0
    requires forall j :: 0 <= j < k ==> fleet[j].printer.status != PrinterStatus.Idle || |fleet[j].slots| == 0
    ensures FindBestPrinter(m, fleet, [], material) == Some(Match(fleet[k].printer.serial, []))
  {
    assert MatchPrinter(m, fleet[k], [], material) == Some([]);
    assert Accepts(m, fleet[k], [], material);
    assert forall j :: 0 <= j < k ==> !Accepts(m, fleet[j], [], material);
    var r := FindBestPrinter(m, fleet, [], material);
    var k' :| 0 <= k' < |fleet| && IsFirstFit(m, fleet, [], material, k', r.value);
    assert k' == k;
  }

  /**
   * Slot reuse: nothing stops one slot from serving two requirements. A colour required
   * twice is served twice by the same slot; the mapping names that slot twice.
   */
  lemma {:induction false} SameSlotMayServeTwice(m: Metric, valid: seq<AmsSlot>, colour: string)
    requires ChosenSlot(m, valid, colour).Some?
    ensures var f := valid[ChosenSlot(m, valid, colour).value].FlatIndex();
            MapColours(m, valid, [colour, colour]) == Some([f, f])
  {
    var f := valid[ChosenSlot(m, valid, colour).value].FlatIndex();
    var wants := [colour, colour];
    assert wants[0] == colour && wants[1] == colour;
    var r := MapColours(m, valid, wants);
    assert r.Some? && |r.value| == 2;
    assert r.value[0] == f && r.value[1] == f;
    assert r.value == [f, f];
  }
}

=== FILE: printer_card.dfy ===
/**
 * The dashboard's printer card: how a printer, as the frontend receives it, is shown. The
 * status is normalised and styled, the footer shows progress and either the time left or a
 * status badge, and each AMS slot becomes a colour dot.
 */
module PrinterCard {
  import opened Wrappers
  import opened Text
  import opened Core
  import opened Schemas
  import FilamentManager

  /** A printer as the frontend types it: everything but serial and name may be missing. */
  datatype PrinterView = PrinterView(
    serial: string,
    name: string,
    currentStatus: Option<string>,
    currentProgress: Option<int>,
    remainingTime: Option<int>,
    tempNozzle: Option<real>,
    tempBed: Option<real>,
    amsSlots: Option<seq<AmsSlotRead>>
  )

  /** What the frontend receives for a printer the backend lists. */
  function ViewOf(r: PrinterRead): (v: PrinterView)
    ensures v.serial == r.serial && v.name == r.name
    ensures v.currentStatus == Some(r.status.Name())
    ensures v.currentProgress == Some(r.progress) && v.remainingTime == Some(r.remainingTime)
    ensures v.amsSlots == Some(r.amsSlots)
  {
    PrinterView(r.serial, r.name, Some(r.status.Name()), Some(r.progress), Some(r.remainingTime),
                Some(r.tempNozzle), Some(r.tempBed), Some(r.amsSlots))
  }

  /** The list the frontend receives for the backend's listing. */
  function ViewsOf(rs: seq<PrinterRead>): (vs: seq<PrinterView>)
    ensures |vs| == |rs|
    ensures forall i :: 0 <= i < |rs| ==> vs[i] == ViewOf(rs[i])
  {
    seq(|rs|, i requires 0 <= i < |rs| => ViewOf(rs[i]))
  }

  /** A listed printer the backend has as PRINTING. */
  predicate ListedPrinting(r: PrinterRead)
  {
    r.status == PrinterStatus.Printing
  }

  /** A listed printer the backend has as OFFLINE. */
  predicate ListedOffline(r: PrinterRead)
  {
    r.status == PrinterStatus.Offline
  }

  // ---------------------------------------------------------------------------
  // Colours
  // ---------------------------------------------------------------------------

  /** The dot colour for a slot with no colour (Tailwind's slate-700). */
  const FallbackColour: string := "#334155"

  /** A colour with a `#` in front, added only when missing. */
  function WithHash(c: string): (r: string)
    ensures |r| > 0 && r[0] == '#'
    ensures StartsWith(c, "#") ==> r == c
    ensures !StartsWith(c, "#") ==> r == "#" + c
  {
    if StartsWith(c, "#") then c else "#" + c
  }

  /**
   * `formatColor`: the fallback for a missing or empty colour; otherwise the `#`-prefixed
   * colour cut to its first seven characters, which drops an alpha pair.
   */
  function FormatColor(color: Option<string>): (r: string)
    ensures 1 <= |r| <= 7 && r[0] == '#'
    ensures !Truthy(color) ==> r == FallbackColour
    ensures Truthy(color) ==>
              var hex := WithHash(color.value);
              StartsWith(hex, r) && (r == hex || |r| == 7)
  {
    if !Truthy(color) then FallbackColour
    else
      var hex := WithHash(color.value);
      if |hex| > 7 then hex[..7] else hex
  }

  /** Formatting a formatted colour changes nothing. */
  lemma FormatColorIdempotent(color: Option<string>)
    ensures FormatColor(Some(FormatColor(color))) == FormatColor(color)
  {
    var r := FormatColor(color);
    assert StartsWith(r, "#");
  }

  /** The firmware's `RRGGBBAA` loses its alpha pair. */
  lemma AlphaPairDropped()
    ensures FormatColor(Some("FF0000FF")) == "#FF0000"
  {
    assert "FF0000FF"[..1] != "#" by { assert "FF0000FF"[0] == 'F'; }
    assert ("#" + "FF0000FF")[..7] == "#FF0000";
  }

  /**
   * The card shows the colour the matcher reads: for a tray colour of six or more
   * characters after at most one `#`, the dot and the colour matching parse to the same RGB value (or both
   * fail to parse).
   */
  lemma {:induction false} CardShowsMatchedColour(c: string)
    requires (|c| >= 6 && c[0] != '#') || (|c| >= 7 && c[0] == '#' && c[1] != '#')
    ensures FilamentManager.HexToRgb(FormatColor(Some(c))) == FilamentManager.HexToRgb(c)
  {
    if c[0] != '#' {
      var x := c[..6];
      assert !StartsWith(c, "#");
      assert FormatColor(Some(c)) == "#" + x + "" by {
        assert ("#" + c)[..7] == "#" + x;
      }
      assert c == "" + x + c[6..];
      FilamentManager.ParseSeesFirstSix("#", x, "");
      FilamentManager.ParseSeesFirstSix("", x, c[6..]);
    } else {
      var x := c[1..7];
      assert StartsWith(c, "#");
      assert FormatColor(Some(c)) == "#" + x + "";
      assert c == "#" + x + c[7..];
      FilamentManager.ParseSeesFirstSix("#", x, "");
      FilamentManager.ParseSeesFirstSix("#", x, c[7..]);
    }
  }

  /** `ams_slots.map(formatColor)`: one dot per slot, or `None` for the "No AMS" label. */
  function SlotDots(v: PrinterView): (r: Option<seq<string>>)
    ensures r.None? <==> v.amsSlots.None? || |v.amsSlots.value| == 0
    ensures r.Some? ==> |r.value| == |v.amsSlots.value|
    ensures r.Some? ==> forall i :: 0 <= i < |r.value| ==> r.value[i] == FormatColor(v.amsSlots.value[i].trayColor)
  {
    match v.amsSlots
    case None => None
    case Some(slots) =>
      if |slots| == 0 then None
      else Some(seq(|slots|, i requires 0 <= i < |slots| => FormatColor(slots[i].trayColor)))
  }

  // ---------------------------------------------------------------------------
  // Status and style
  // ---------------------------------------------------------------------------

  /** The card's status: the reported status lower-cased, `idle` when missing or empty. */
  function CardStatus(s: Option<string>): (r: string)
    ensures !Truthy(s) ==> r == "idle"
    ensures Truthy(s) ==> |r| == |s.value| && EqualsIgnoringCase(r, s.value)
    ensures Lower(r) == r
  {
    LowerIdempotent(if Truthy(s) then s.value else "idle");
    Lower(if Truthy(s) then s.value else "idle")
  }

  /** The four Tailwind classes a status is drawn with. */
  datatype Style = Style(border: string, text: string, bg: string, progress: string)

  /** The classes of one Tailwind hue at weight 500. */
  function Shade(hue: string): Style
  {
    Style("border-" + hue + "-500", "text-" + hue + "-500", "bg-" + hue + "-500/20", "bg-" + hue + "-500")
  }

  /** The style table: four statuses have a style of their own. */
  function Config(status: string): (r: Option<Style>)
    ensures r.Some? <==> status in ["idle", "printing", "done", "error"]
  {
    if status == "idle" then Some(Shade("purple"))
    else if status == "printing" then Some(Shade("yellow"))
    else if status == "done" then Some(Shade("green"))
    else if status == "error" then Some(Shade("red"))
    else None
  }

  /** The style used: the table's entry, or the idle style for a status the table lacks. */
  function StyleFor(status: string): (r: Style)
    ensures Config(status).Some? ==> r == Config(status).value
    ensures Config(status).None? ==> r == Config("idle").value
  {
    Config(status).GetOr(Shade("purple"))
  }

  /**
   * The backend's three statuses on a card: PRINTING is yellow, and IDLE and OFFLINE are
   * both drawn purple, since `offline` has no style of its own.
   */
  lemma BackendStatusStyles(st: PrinterStatus)
    ensures StyleFor(CardStatus(Some(st.Name()))) == if st == PrinterStatus.Printing then Shade("yellow") else Shade("purple")
    ensures st == PrinterStatus.Offline ==> StyleFor(CardStatus(Some(st.Name()))) == StyleFor("idle")
  {
    match st
    case Idle => assert CardStatus(Some("IDLE")) == "idle";
    case Printing => assert CardStatus(Some("PRINTING")) == "printing";
    case Offline => assert CardStatus(Some("OFFLINE")) == "offline";
  }

  // ---------------------------------------------------------------------------
  // Footer
  // ---------------------------------------------------------------------------

  /** The footer: a percentage, and the time left while printing or else a status badge. */
  datatype Footer = Footer(percent: int, timeLeft: Option<int>, badge: Option<string>)

  function CardFooter(v: PrinterView): (f: Footer)
    ensures f.percent == v.currentProgress.GetOr(0)
    ensures f.badge.Some? <==> CardStatus(v.currentStatus) != "printing"
    ensures f.badge.Some? ==> f.badge.value == Upper(CardStatus(v.currentStatus))
    ensures f.timeLeft.Some? <==>
              CardStatus(v.currentStatus) == "printing" && v.remainingTime.Some? && v.remainingTime.value != 0
    ensures f.timeLeft.Some? ==> Some(f.timeLeft.value) == v.remainingTime
  {
    var status := CardStatus(v.currentStatus);
    var progress := if v.currentProgress.Some? then v.currentProgress.value else 0;
    var timeLeft := if v.remainingTime.Some? && v.remainingTime.value != 0 then v.remainingTime else None;
    Footer(progress,
           if status == "printing" then timeLeft else None,
           if status != "printing" then Some(Upper(status)) else None)
  }

  /**
   * A backend printer's footer: its progress, the time left only while PRINTING with time
   * remaining, and otherwise a badge naming its status as the backend stores it.
   */
  lemma BackendFooter(r: PrinterRead)
    ensures var f := CardFooter(ViewOf(r));
            && f.percent == r.progress
            && (f.timeLeft.Some? <==> r.status == PrinterStatus.Printing && r.remainingTime != 0)
            && (f.badge.Some? <==> r.status != PrinterStatus.Printing)
            && (f.badge.Some? ==> f.badge.value == r.status.Name())
  {
    match r.status
    case Idle =>
      assert CardStatus(Some("IDLE")) == "idle";
      assert Upper("idle") == "IDLE";
    case Printing =>
      assert CardStatus(Some("PRINTING")) == "printing";
    case Offline =>
      assert CardStatus(Some("OFFLINE")) == "offline";
      assert Upper("offline") == "OFFLINE";
  }
}

=== FILE: printer_detail_modal.dfy ===
/**
 * The printer detail modal: the header's printing badge and the four AMS slot dots.
 */
module PrinterDetailModal {
  import opened Wrappers
  import opened Text
  import opened Core
  import opened Schemas
  import opened PrinterCard

  /** The header highlights a printer whose status is exactly `PRINTING`. */
  predicate IsPrinting(v: PrinterView)
  {
    v.currentStatus == Some("PRINTING")
  }

  /** The first listed slot with slot number `idx`, whatever AMS unit it sits in. */
  function FindSlot(slots: seq<AmsSlotRead>, idx: int): (r: Option<AmsSlotRead>)
    ensures r.None? <==> forall s :: s in slots ==> s.slotIndex != idx
    ensures r.Some? ==> exists k :: 0 <= k < |slots| && slots[k] == r.value && r.value.slotIndex == idx
                          && forall j :: 0 <= j < k ==> slots[j].slotIndex != idx
  {
    if |slots| == 0 then None
    else if slots[0].slotIndex == idx then Some(slots[0])
    else
      var rest := FindSlot(slots[1..], idx);
      assert forall s :: s in slots <==> s == slots[0] || s in slots[1..];
      if rest.Some? then
        var k :| 0 <= k < |slots[1..]| && slots[1..][k] == rest.value && rest.value.slotIndex == idx
                 && forall j :: 0 <= j < k ==> slots[1..][j].slotIndex != idx;
        assert slots[k + 1] == rest.value && forall j :: 0 <= j < k + 1 ==> slots[j].slotIndex != idx;
        rest
      else rest
  }

  /**
   * `getAmsColor`: the colour of the slot found for `idx`, `#`-prefixed and cut to seven
   * characters, or the slate fallback when there is no such slot or it has no colour.
   */
  function GetAmsColor(v: PrinterView, idx: int): (r: string)
    ensures (v.amsSlots.None? || FindSlot(v.amsSlots.value, idx).None?) ==> r == FallbackColour
    ensures v.amsSlots.Some? && FindSlot(v.amsSlots.value, idx).Some? ==>
              !Truthy(FindSlot(v.amsSlots.value, idx).value.trayColor) ==> r == FallbackColour
  {
    var target := if v.amsSlots.Some? then FindSlot(v.amsSlots.value, idx) else None;
    if target.None? || !Truthy(target.value.trayColor) then FallbackColour
    else
      var hex := target.value.trayColor.value;
      var hex := if StartsWith(hex, "#") then hex else "#" + hex;
      if |hex| > 7 then hex[..7] else hex
  }

  /** The modal's four dots, for slots 0 to 3. */
  function AmsDots(v: PrinterView): (r: seq<string>)
    ensures |r| == 4
    ensures forall i :: 0 <= i < 4 ==> r[i] == GetAmsColor(v, i)
  {
    [GetAmsColor(v, 0), GetAmsColor(v, 1), GetAmsColor(v, 2), GetAmsColor(v, 3)]
  }

  /** The modal draws a slot in the colour the card gives the same slot. */
  lemma ModalMatchesCard(v: PrinterView, idx: int)
    requires v.amsSlots.Some?
    ensures FindSlot(v.amsSlots.value, idx).Some? ==>
              GetAmsColor(v, idx) == FormatColor(FindSlot(v.amsSlots.value, idx).value.trayColor)
  {
  }

  /**
   * With more than one AMS unit the dots mix units: slot 0 of unit 1, listed first,
   * is drawn as the first dot and hides slot 0 of unit 0.
   */
  lemma OtherUnitShadowsSlot(v: PrinterView)
    requires v.amsSlots == Some([AmsSlotRead(1, 0, Some("00FF00"), None, None),
                                 AmsSlotRead(0, 0, Some("FF0000"), None, None)])
    ensures AmsDots(v)[0] == "#00FF00"
  {
    var slots := v.amsSlots.value;
    assert FindSlot(slots, 0) == Some(slots[0]);
    assert !StartsWith("00FF00", "#") by { assert "00FF00"[0] == '0'; }
  }

  /** On a printer the backend lists, the header highlights exactly the PRINTING ones. */
  lemma BackendIsPrinting(r: PrinterRead)
    ensures IsPrinting(ViewOf(r)) <==> r.status == PrinterStatus.Printing
  {
  }

  /**
   * The card and the modal agree on which listed printers print, though the card compares
   * case-insensitively and the modal does not.
   */
  lemma CardAndModalAgree(r: PrinterRead)
    ensures IsPrinting(ViewOf(r)) <==> CardStatus(ViewOf(r).currentStatus) == "printing"
  {
    match r.status
    case Idle => assert CardStatus(Some("IDLE")) == "idle";
    case Printing => assert CardStatus(Some("PRINTING")) == "printing";
    case Offline => assert CardStatus(Some("OFFLINE")) == "offline";
  }

  /** A lower-case `printing` is printing on the card but not in the modal. */
  lemma CaseSplitsCardFromModal(v: PrinterView)
    requires v.currentStatus == Some("printing")
    ensures !IsPrinting(v) && CardStatus(v.currentStatus) == "printing"
  {
    assert CardStatus(Some("printing")) == "printing";
  }
}

=== FILE: printers_router.dfy ===
/**
 * The printer registry endpoints: list every printer with its slots, create-or-update by
 * serial, and delete a printer together with its slots and its jobs.
 */
module PrintersRouter {
  import opened Wrappers
  import opened Core
  import opened Schemas
  import opened Database
  import opened Counting

  /** The HTTP answer of a delete: `{"ok": true}` or a 404 with a detail message. */
  datatype Reply = Deleted | NotFound(detail: string)

  /** `get_printers`: every printer, in table order, each listed with its own slots. */
  function GetPrinters(store: Store, order: seq<string>): (r: seq<PrinterRead>)
    requires IsListing(order, store.printers.Keys)
    ensures |r| == |order|
    ensures forall i :: 0 <= i < |order| ==> r[i] == ReadOf(store.printers[order[i]], SlotsOf(store.slots, order[i]))
    ensures forall s :: s in store.printers ==>
              exists i :: 0 <= i < |r| && r[i] == ReadOf(store.printers[s], SlotsOf(store.slots, s))
  {
    var r := seq(|order|, i requires 0 <= i < |order| => ReadOf(store.printers[order[i]], SlotsOf(store.slots, order[i])));
    assert forall s :: s in store.printers ==> exists i :: 0 <= i < |order| && order[i] == s;
    r
  }

  /** Only the four fields a create request carries are overwritten on an existing printer. */
  function UpdateFromRequest(p: Printer, req: PrinterCreate): (r: Printer)
    ensures r.name == req.name && r.printerType == req.printerType
    ensures r.ipAddress == Some(req.ipAddress) && r.accessCode == Some(req.accessCode)
    ensures r.serial == p.serial && r.status == p.status
    ensures r.tempNozzle == p.tempNozzle && r.tempBed == p.tempBed
    ensures r.progress == p.progress && r.remainingTime == p.remainingTime
  {
    p.(name := req.name, ipAddress := Some(req.ipAddress), accessCode := Some(req.accessCode),
       printerType := req.printerType)
  }

  /**
   * `create_printer`: an upsert keyed by serial. An existing printer keeps its status,
   * telemetry and slots; a new one starts idle and cold, and is answered with no slots.
   */
  function CreatePrinter(store: Store, req: PrinterCreate): (r: (Store, PrinterRead))
    ensures r.0.printers.Keys == store.printers.Keys + {req.serial}
    ensures forall s :: s in store.printers && s != req.serial ==> r.0.printers[s] == store.printers[s]
    ensures r.0.slots == store.slots && r.0.jobs == store.jobs
    ensures r.0.orders == store.orders && r.0.products == store.products
    ensures var p := r.0.printers[req.serial];
            && p.name == req.name && p.printerType == req.printerType
            && p.ipAddress == Some(req.ipAddress) && p.accessCode == Some(req.accessCode)
    ensures req.serial in store.printers ==>
              var was := store.printers[req.serial];
              var p := r.0.printers[req.serial];
              && p.serial == was.serial && p.status == was.status
              && p.tempNozzle == was.tempNozzle && p.tempBed == was.tempBed
              && p.progress == was.progress && p.remainingTime == was.remainingTime
              && r.1 == ReadOf(p, SlotsOf(store.slots, req.serial))
    ensures req.serial !in store.printers ==>
              var p := r.0.printers[req.serial];
              && p.serial == req.serial && p.status == PrinterStatus.Idle
              && p.tempNozzle == 0.0 && p.tempBed == 0.0 && p.progress == 0 && p.remainingTime == 0
              && r.1.amsSlots == []
              && r.1 == ReadOf(p, [])
  {
    if req.serial in store.printers then
      var p := UpdateFromRequest(store.printers[req.serial], req);
      (store.(printers := store.printers[req.serial := p]), ReadOf(p, SlotsOf(store.slots, req.serial)))
    else
      var p := NewPrinter(req.serial, req.name, req.printerType, Some(req.ipAddress), Some(req.accessCode));
      (store.(printers := store.printers[req.serial := p]), ReadOf(p, []))
  }

  /** The serial stays the primary key: a create never files a printer under another serial. */
  lemma CreateKeepsSerialKey(store: Store, req: PrinterCreate)
    requires KeyedBySerial(store.printers)
    ensures KeyedBySerial(CreatePrinter(store, req).0.printers)
  {
  }

  /** Creating twice with the same request is creating once. */
  lemma CreateIsIdempotent(store: Store, req: PrinterCreate)
    requires SlotsReferencePrinters(store)
    ensures CreatePrinter(CreatePrinter(store, req).0, req) == CreatePrinter(store, req)
  {
    var once := CreatePrinter(store, req).0;
    if req.serial !in store.printers {
      NoRowsNoSlots(store.slots, req.serial);
      var p := once.printers[req.serial];
      assert UpdateFromRequest(p, req) == p;
      assert once.printers[req.serial := p] == once.printers;
    } else {
      var p := once.printers[req.serial];
      assert UpdateFromRequest(p, req) == p;
      assert once.printers[req.serial := p] == once.printers;
    }
  }

  /**
   * `delete_printer`: 404 and no change for an unknown serial; otherwise the printer goes,
   * with every slot row of it and every job assigned to it, whatever that job's status.
   */
  function DeletePrinter(store: Store, serial: string): (r: (Store, Reply))
    ensures serial !in store.printers ==> r == (store, NotFound("Printer not found"))
    ensures serial in store.printers ==> r.1 == Deleted
    ensures serial in store.printers ==>
              && r.0.printers.Keys == store.printers.Keys - {serial}
              && (forall s :: s in r.0.printers ==> r.0.printers[s] == store.printers[s])
              && (forall s :: s in r.0.slots <==> s in store.slots && s.printerId != serial)
              && |r.0.slots| == CountWhere(store.slots, NotOwnedBy(serial))
              && IsSubsequence(r.0.slots, store.slots)
              && r.0.jobs.Keys == store.jobs.Keys - JobsOf(store.jobs, serial)
              && (forall id :: id in r.0.jobs ==> r.0.jobs[id] == store.jobs[id])
              && r.0.orders == store.orders && r.0.products == store.products
  {
    if serial !in store.printers then (store, NotFound("Printer not found"))
    else
      var jobs := map id | id in store.jobs && id !in JobsOf(store.jobs, serial) :: store.jobs[id];
      var slots := SlotsNotOf(store.slots, serial);
      (store.(printers := store.printers - {serial}, slots := slots, jobs := jobs), Deleted)
  }

  /** The test for a slot row of any printer but `serial`. */
  function NotOwnedBy(serial: string): AmsSlot -> bool
  {
    (s: AmsSlot) => s.printerId != serial
  }

  /** The slot rows of every printer but `serial`, every one of them, in table order. */
  function SlotsNotOf(slots: seq<AmsSlot>, serial: string): (r: seq<AmsSlot>)
    ensures forall s :: s in r <==> s in slots && s.printerId != serial
    ensures |r| == CountWhere(slots, NotOwnedBy(serial))
    ensures IsSubsequence(r, slots)
  {
    if |slots| == 0 then []
    else
      var rest := SlotsNotOf(slots[1..], serial);
      assert forall s :: s in slots <==> s == slots[0] || s in slots[1..];
      if slots[0].printerId != serial then
        assert ([slots[0]] + rest)[1..] == rest;
        [slots[0]] + rest
      else
        assert |rest| > 0 ==> rest[0] in rest && rest[0] != slots[0];
        rest
  }

  /** Removing another printer's rows leaves a printer's own slot list exactly as it was. */
  lemma {:induction false} SlotsSurviveOtherDelete(slots: seq<AmsSlot>, serial: string, other: string)
    requires other != serial
    ensures SlotsOf(SlotsNotOf(slots, serial), other) == SlotsOf(slots, other)
    decreases |slots|
  {
    if |slots| > 0 {
      SlotsSurviveOtherDelete(slots[1..], serial, other);
      if slots[0].printerId != serial {
        assert ([slots[0]] + SlotsNotOf(slots[1..], serial))[1..] == SlotsNotOf(slots[1..], serial);
      }
    }
  }

  /**
   * After a delete the printer lists no slot and no job, and every other printer keeps
   * exactly its own slot list, in order, and its own jobs.
   */
  lemma {:induction false} DeleteLeavesNothingBehind(store: Store, serial: string, other: string)
    requires serial in store.printers && other != serial
    ensures var after := DeletePrinter(store, serial).0;
            && SlotsOf(after.slots, serial) == []
            && JobsOf(after.jobs, serial) == {}
            && SlotsOf(after.slots, other) == SlotsOf(store.slots, other)
            && JobsOf(after.jobs, other) == JobsOf(store.jobs, other)
  {
    var after := DeletePrinter(store, serial).0;
    NoRowsNoSlots(after.slots, serial);
    SlotsSurviveOtherDelete(store.slots, serial, other);
  }
}

=== FILE: schemas.dfy ===
/**
 * The shapes the printer API reads and writes: a slot as listed, a printer as listed
 * (never with its access code) and the body of a create request (address and access
 * code mandatory).
 */
module Schemas {
  import opened Wrappers
  import opened Core

  /** A listed slot: both indices are mandatory, the rest may be missing. */
  datatype AmsSlotRead = AmsSlotRead(
    amsIndex: int,
    slotIndex: int,
    trayColor: Option<string>,
    trayType: Option<string>,
    remainingPercent: Option<int>
  )

  /** A listed printer. There is no access-code field. */
  datatype PrinterRead = PrinterRead(
    serial: string,
    name: string,
    ipAddress: Option<string>,
    printerType: PrinterType,
    status: PrinterStatus,
    tempNozzle: real,
    tempBed: real,
    progress: int,
    remainingTime: int,
    amsSlots: seq<AmsSlotRead>
  )

  /** The body of a create request: address and access code cannot be left out. */
  datatype PrinterCreate = PrinterCreate(
    serial: string,
    name: string,
    ipAddress: string,
    accessCode: string,
    printerType: PrinterType
  )

  function SlotRead(s: AmsSlot): (r: AmsSlotRead)
    ensures r.amsIndex == s.amsIndex && r.slotIndex == s.slotIndex
    ensures r.trayColor == s.trayColor && r.trayType == s.trayType
    ensures r.remainingPercent == s.remainingPercent
  {
    AmsSlotRead(s.amsIndex, s.slotIndex, s.trayColor, s.trayType, s.remainingPercent)
  }

  /** The listed form of a printer together with its slots, in slot order. */
  function ReadOf(p: Printer, slots: seq<AmsSlot>): (r: PrinterRead)
    ensures r.serial == p.serial && r.name == p.name && r.ipAddress == p.ipAddress
    ensures r.printerType == p.printerType && r.status == p.status
    ensures r.tempNozzle == p.tempNozzle && r.tempBed == p.tempBed
    ensures r.progress == p.progress && r.remainingTime == p.remainingTime
    ensures |r.amsSlots| == |slots|
    ensures forall i :: 0 <= i < |slots| ==> r.amsSlots[i] == SlotRead(slots[i])
  {
    PrinterRead(p.serial, p.name, p.ipAddress, p.printerType, p.status,
                p.tempNozzle, p.tempBed, p.progress, p.remainingTime,
                seq(|slots|, i requires 0 <= i < |slots| => SlotRead(slots[i])))
  }

  /** The listed form does not depend on the access code: it cannot leak it. */
  lemma ReadHidesAccessCode(p: Printer, slots: seq<AmsSlot>, code: Option<string>)
    ensures ReadOf(p.(accessCode := code), slots) == ReadOf(p, slots)
  {
  }
}

=== FILE: text.dfy ===
/**
 * String helpers shared by the backend and the frontend models: ASCII lower- and upper-casing
 * (Python's `str.lower`, JavaScript's `toLowerCase` and `toUpperCase`), hexadecimal digits,
 * `str.lstrip` of one character, prefix tests and `os.path.basename`.
 */
module Text {
  import opened Wrappers

  /** Lower-cases one ASCII letter and leaves every other character alone. */
  function LowerChar(c: char): char
  {
    if 'A' <= c <= 'Z' then (c as int - 'A' as int + 'a' as int) as char else c
  }

  /** `s.lower()`: lower-cases every ASCII letter of `s`, position by position. */
  function Lower(s: string): (r: string)
    ensures |r| == |s|
    ensures forall i :: 0 <= i < |s| ==> r[i] == LowerChar(s[i])
  {
    seq(|s|, i requires 0 <= i < |s| => LowerChar(s[i]))
  }

  /** Lower-casing twice is lower-casing once. */
  lemma LowerIdempotent(s: string)
    ensures Lower(Lower(s)) == Lower(s)
  {
  }

  /** No lower-cased string holds an upper-case ASCII letter. */
  lemma LowerHasNoUpper(s: string)
    ensures forall i :: 0 <= i < |Lower(s)| ==> !('A' <= Lower(s)[i] <= 'Z')
  {
  }

  /** Upper-cases one ASCII letter and leaves every other character alone. */
  function UpperChar(c: char): char
  {
    if 'a' <= c <= 'z' then (c as int - 'a' as int + 'A' as int) as char else c
  }

  /** `s.toUpperCase()`: upper-cases every ASCII letter of `s`, position by position. */
  function Upper(s: string): (r: string)
    ensures |r| == |s|
    ensures forall i :: 0 <= i < |s| ==> r[i] == UpperChar(s[i])
  {
    seq(|s|, i requires 0 <= i < |s| => UpperChar(s[i]))
  }

  /** Case-insensitive equality, as `a.lower() == b.lower()` computes it. */
  predicate EqualsIgnoringCase(a: string, b: string)
  {
    Lower(a) == Lower(b)
  }

  /** `0-9`, `a-f` or `A-F`: the characters `int(_, 16)` accepts as digits. */
  predicate IsHexDigit(c: char)
  {
    ('0' <= c <= '9') || ('a' <= c <= 'f') || ('A' <= c <= 'F')
  }

  /** The value of one hexadecimal digit. */
  function HexValue(c: char): (v: nat)
    requires IsHexDigit(c)
    ensures v < 16
  {
    if '0' <= c <= '9' then c as int - '0' as int
    else if 'a' <= c <= 'f' then c as int - 'a' as int + 10
    else c as int - 'A' as int + 10
  }

  /** The upper-case digit whose value is `v`, as the firmware writes tray colours. */
  function HexDigit(v: nat): (c: char)
    requires v < 16
    ensures IsHexDigit(c) && HexValue(c) == v
  {
    if v < 10 then ('0' as int + v) as char else ('A' as int + v - 10) as char
  }

  /** Writing a digit's value back gives the digit in upper case. */
  lemma HexDigitOfValue(c: char)
    requires IsHexDigit(c)
    ensures HexDigit(HexValue(c)) == UpperChar(c)
  {
  }

  predicate AllHexDigits(s: string)
  {
    forall i :: 0 <= i < |s| ==> IsHexDigit(s[i])
  }

  /** `s.lstrip(c)`: the suffix of `s` left once every leading `c` is removed. */
  function LStrip(s: string, c: char): (r: string)
    ensures |r| <= |s| && r == s[|s| - |r|..]
    ensures forall i :: 0 <= i < |s| - |r| ==> s[i] == c
    ensures |r| > 0 ==> r[0] != c
    decreases |s|
  {
    if |s| > 0 && s[0] == c then LStrip(s[1..], c) else s
  }

  predicate StartsWith(s: string, prefix: string)
  {
    |prefix| <= |s| && s[..|prefix|] == prefix
  }

  /**
   * `os.path.basename(path)` on POSIX: the longest suffix of `path` that holds no `/`.
   */
  function Basename(path: string): (r: string)
    ensures |r| <= |path| && r == path[|path| - |r|..]
    ensures '/' !in r
    ensures |r| < |path| ==> path[|path| - |r| - 1] == '/'
    decreases |path|
  {
    if |path| == 0 || path[|path| - 1] == '/' then ""
    else Basename(path[..|path| - 1]) + [path[|path| - 1]]
  }

  /** A path without any directory part is its own base name. */
  lemma BasenameOfPlainName(name: string)
    requires '/' !in name
    ensures Basename(name) == name
  {
  }

  /** Python truthiness of an optional string: present and non-empty. */
  predicate Truthy(s: Option<string>)
  {
    s.Some? && s.value != ""
  }
}

=== FILE: wrappers.dfy ===
/** Optional values and two-way outcomes shared by every module of the model. */
module Wrappers {

  /** A value that may be absent: Python's `Optional[...]`, TypeScript's `?:` fields. */
  datatype Option<+T> = None | Some(value: T) {

    /** The wrapped value, or `default` when absent. */
    function GetOr(default: T): T
    {
      match this
      case Some(v) => v
      case None => default
    }
  }

  /** The result of a remote call that either completes or raises with a message. */
  datatype Outcome = Ok | Err(reason: string)
}
